=== FILE: README.md ===
# CampusNest in Dafny

A model of the client-side rules of CampusNest, a student-housing site on
which students search for rentals on a map, message landlords, and review
places, and landlords list properties and answer inquiries.

The centre of the model is the conversation aggregator of the inbox
(`Inbox`). It groups a flat list of messages into conversations, one per
property and counterpart. It stamps each conversation with its latest
activity, sorts the conversations newest first, and shows the active
thread oldest first. The floating messaging overlay (`Overlay`) reuses
that same aggregation.

Around it sit the small rules of the other components, each written as
pure functions from an old state to a new one:

- the message composers (`MessageDialog`, `PropertyMessages`, `Inbox.BeginSend`);
- the map search's pending/applied filter panel (`MapSearch`);
- the listing form's field updates, image list and comma-list parsing (`PropertyForm`);
- the property page's gallery, badge and house rules (`PropertyDetails`);
- the search sidebar's cards (`PropertyListings`);
- reviews (`PropertyReviews`);
- the landlord dashboard counters (`LandlordDashboard`);
- the administrator's verification decisions (`AdminVerification`);
- the header (`Header`, `Users`);
- the sign-in error page (`AuthError`).

Shared modules:

- `Wrappers`: `Option`, and `Started`, the synchronous half of an async handler. It holds the state after the handler's guards, and the row the handler passes to the database, if any.
- `Seqs`: `filter` and counting.
- `Text`: the JavaScript string operations used, including `trim` with the ECMAScript whitespace set, `split`/`join`, and comma lists.
- `Sorting`: a stable sort by an integer key, as `Array.prototype.sort` is since ECMAScript 2019.
- `Messages`: the message rows.

Every database call is an input or an output of the model:

- a query's answer is a parameter (`FetchOutcome`, `PlacesOutcome`);
- an insert or update is the `request` a handler returns;
- the insert's success is a `bool` or an `InsertOutcome` passed to the matching `Finish…` function.

JavaScript truthiness is written out where the source relies on it:

- `||` treats `""` as missing and `??` does not;
- an empty array is truthy;
- a template string turns a missing id into `"undefined"`.

## Model

| member | source | states |
|---|---|---|
| Inbox.GroupAggregates | components/inbox-view.tsx:59-83 | Grouping yields conversations with distinct ids. Each one holds exactly the messages of its key in arrival order, its `lastMessageAt` is their latest time, and every message with a counterpart has a conversation. |
| Inbox.Group | components/inbox-view.tsx:59-83 | Grouping makes at most one conversation per message. |
| Inbox.ConversationsAggregate | components/inbox-view.tsx:59-87 | The sorted list still has those properties: sorting only reorders. |
| Inbox.Conversations | components/inbox-view.tsx:85-87 | The list is newest first and is a permutation of the grouped conversations. |
| Sorting.SortStable | components/inbox-view.tsx:85-87 | The newest-first sort is stable: for every key, the elements with that key come out in the order they went in. |
| Inbox.ConversationTiesKeepOrder | components/inbox-view.tsx:85-87 | Conversations whose last activity ties stay in the order in which grouping first met them. |
| Inbox.EveryMessagePlaced | components/inbox-view.tsx:59-62 | A message whose counterpart is present lies in exactly one conversation, the one named after its key. |
| Inbox.UnresolvedDropped | components/inbox-view.tsx:61-62 | A message whose counterpart summary is missing lies in no conversation. |
| Inbox.ConversationIdInjective | components/inbox-view.tsx:64-65 | When property keys contain no `_`, two keys are equal iff their property keys and counterpart ids are equal. |
| Inbox.SameConversationIff | components/inbox-view.tsx:59-78 | Two messages share a conversation iff they have the same `property_id \|\| 'no-property'` and the same counterpart id. |
| Inbox.MaxTime | components/inbox-view.tsx:73-82 | The latest time bounds every message's time and is one of them. |
| Inbox.OrderIndependent | components/inbox-view.tsx:59-87 | Reordering the input gives, in both directions, conversations with the same ids, latest times and message multisets. |
| Inbox.FindConversation | components/inbox-view.tsx:97 | The conversation found carries the active id; none is found only when no conversation carries it. |
| Inbox.InitialActiveId | components/inbox-view.tsx:89-91 | The id of the head of the sorted list is active at start; nothing is active iff there are no conversations. |
| Inbox.InitialActiveIsNewest | components/inbox-view.tsx:85-91 | Nothing is active at start iff no message has a counterpart; otherwise the active conversation's latest activity is at least as late as every placed message. |
| Inbox.ActiveMessages | components/inbox-view.tsx:99-107 | The thread is empty when the active id matches no conversation; otherwise it is exactly the local messages whose key equals the active id, oldest first. |
| Inbox.ThreadTiesKeepOrder | components/inbox-view.tsx:99-107 | Messages of the open thread sent at the same moment stay in their order in the local list. |
| Inbox.DisplayKeyAgrees | components/inbox-view.tsx:99-106 | The thread filter's key string matches a conversation iff the message belongs to it, when ids contain no `_` and no counterpart id is `"undefined"`. |
| Inbox.ActiveThreadIsConversation | components/inbox-view.tsx:94-107 | Before any reply, the active thread holds the same messages as the active conversation. |
| Inbox.AppendedJoinsThread | components/inbox-view.tsx:99-107 | Appending a row whose key is the active id adds exactly that row to the thread. |
| Inbox.PreviewIsLatest | components/inbox-view.tsx:198-200 | The preview in the sidebar is one of the conversation's messages, and its time is the conversation's latest activity. |
| Inbox.Preview | components/inbox-view.tsx:198-200 | A conversation has a preview iff it has messages; the preview is one of them and carries the latest time among them. |
| Inbox.PreviewIsFirstLatest | components/inbox-view.tsx:198-200 | Among the messages sent at the latest moment, the preview is the one that comes first in the conversation, as the stable sort leaves it at the head. |
| Inbox.SortedHeadIsLatest | components/inbox-view.tsx:198-200 | The head of a non-empty newest-first list of messages is one of them and carries the latest time. |
| Inbox.Select | components/inbox-view.tsx:205 | Clicking a conversation makes it the active one and changes nothing else. |
| Inbox.InitialState | components/inbox-view.tsx:89-94 | The composer starts empty and idle, on the head of the newest-first list of conversations, with the local messages equal to the initial ones. |
| Inbox.PropertyIdOf | components/inbox-view.tsx:114-128 | The reply's property id is the active property's id; a missing or empty id becomes null. |
| Inbox.BeginSend | components/inbox-view.tsx:109-129 | A blank reply or no active conversation changes nothing. Otherwise the composer turns busy. A row is sent, untrimmed, from the viewer to the counterpart, only when the counterpart id is non-empty. |
| Inbox.FinishSend | components/inbox-view.tsx:158-174 | A success appends exactly the returned row and clears the reply. A failure keeps both. The composer is idle afterwards either way. |
| Inbox.SendThenSucceed | components/inbox-view.tsx:109-174 | A successful send grows the local messages by one row and empties the reply. |
| Inbox.SendThenFail | components/inbox-view.tsx:109-174 | A failed send returns the composer to the state before the click. |
| Inbox.EmptyReceiverStaysBusy | components/inbox-view.tsx:112-116 | With an empty counterpart id nothing is sent, yet the composer stays busy and its button stays disabled. |
| Inbox.SentReplyJoinsThread | components/inbox-view.tsx:109-175 | When every message's joined property agrees with its property id, the row a send returns shows up in the active thread. |
| Inbox.KeyDown | components/inbox-view.tsx:307-311 | Enter without Shift runs the send handler as it stands; any other key does nothing. |
| Inbox.EnterSendsWhileSending | components/inbox-view.tsx:307-316 | While a send is in flight the button is disabled, but Enter still produces a second insert. |
| Inbox.KeyDownGuarded | components/inbox-view.tsx:307-316 | The corrected key handler sends only when the button is enabled. |
| Inbox.GuardedEnterMatchesButton | components/inbox-view.tsx:307-316 | With the guard, Enter sends iff the button would, and does nothing while busy. |
| Overlay.Unread | components/messaging-overlay.tsx:36 | The unread count is at most the list length, and is zero iff no message is unread and addressed to the user. |
| Overlay.UnreadConcat | components/messaging-overlay.tsx:36 | The unread counts of two batches add up. |
| Overlay.FetchDone | components/messaging-overlay.tsx:17-43 | Without a user nothing changes. Fetched rows replace the list, null counting as empty, and the count is recomputed. A failure only stops loading. |
| Overlay.FetchReplaces | components/messaging-overlay.tsx:33-37 | The list after a fetch does not depend on the list before it, and the count describes the new list. |
| Overlay.Toggle | components/messaging-overlay.tsx:86-88 | The toggle event flips whether the panel is open and always un-minimises it; nothing else changes. |
| Overlay.ToggleTwice | components/messaging-overlay.tsx:86-88 | Two toggles restore the state, un-minimised. |
| Overlay.MinimiseClicked | components/messaging-overlay.tsx:129 | The minimise button flips only the minimised flag. |
| Overlay.CloseClicked | components/messaging-overlay.tsx:137-151 | The close button closes the panel and changes nothing else. |
| Overlay.LauncherClicked | components/messaging-overlay.tsx:162 | The floating button opens the panel and changes nothing else. |
| Overlay.EventsKeepCounts | components/messaging-overlay.tsx:86-162 | No panel event and no failed fetch puts the unread figure out of step with the list. |
| Overlay.Render | components/messaging-overlay.tsx:94-171 | Nothing is rendered without a user. The panel shows iff open, and the launcher iff closed. The inbox shows iff the panel is not minimised, and its list of conversations is the aggregation of the overlay's messages. |
| Overlay.Badge | components/messaging-overlay.tsx:118-120 | The unread badge shows iff the count is positive, and then shows the count. |
| Overlay.LauncherOpensPanel | components/messaging-overlay.tsx:160-162 | Clicking the launcher replaces it with the panel. |
| Overlay.PanelIsInbox | components/messaging-overlay.tsx:147-152 | The open panel's inbox has all the aggregation properties, computed from the overlay's messages. |
| Wrappers.NullIfEmpty | components/message-dialog.tsx:54 | A text column written as `value \|\| null` (the phone here, the review comment at property-reviews.tsx line 104) is null iff the text is empty, and otherwise the text. |
| MessageDialog.BeginSend | components/message-dialog.tsx:43-55 | A blank message changes nothing. Otherwise the dialog turns busy and the row goes, untrimmed, from the user to the landlord about the property. |
| MessageDialog.FinishSend | components/message-dialog.tsx:57-77 | A success clears both fields and closes the dialog. A failure keeps them. Either way the dialog is idle again. |
| MessageDialog.EnabledIffClickSends | components/message-dialog.tsx:44-118 | When idle, the Send button is enabled iff clicking it would send. |
| MessageDialog.SendRoundTrip | components/message-dialog.tsx:43-118 | A failed send restores the dialog; after a successful one, Send is disabled. |
| PropertyMessages.InitialSelection | components/property-messages-view.tsx:44-46 | Nothing is selected iff there are no inquiries; otherwise the first one is. |
| PropertyMessages.InitialState | components/property-messages-view.tsx:44-48 | The page opens on the first inquiry, or on none when there are none, with an empty reply and not busy. |
| PropertyMessages.Select | components/property-messages-view.tsx:102 | Clicking an inquiry selects it and leaves the reply text and the busy flag as they were. |
| PropertyMessages.BeginReply | components/property-messages-view.tsx:50-62 | With no selection or a blank reply nothing changes. Otherwise the page turns busy and sends a reply from the user to the inquiry's sender about the page's property, with no phone number. |
| PropertyMessages.FinishReply | components/property-messages-view.tsx:64-74 | A success clears the reply and a failure keeps it; the selection stays. |
| PropertyMessages.ReplyRoundTrip | components/property-messages-view.tsx:50-75 | The button is enabled iff a click sends; a failed reply restores the page. |
| PropertyMessages.ReplyAnswersSender | components/property-messages-view.tsx:56-62 | The reply goes to the selected message's sender. It is addressed to someone other than the landlord only when that message came from someone else to the landlord. |
| PropertyMessages.OwnMessageRepliesToSelf | components/property-messages-view.tsx:50-62 | The list also shows the landlord's own replies; answering one of them sends a message from the landlord to the landlord. |
| MapSearch.ActiveFilterCount | components/map-search.tsx:89-91 | The badge count is at most 3, and is 0 iff radius, minimum and maximum are 5, 0 and 20000. |
| MapSearch.ApplyFilters | components/map-search.tsx:133-143 | The pending values become the applied ones and the panel closes. The list keeps the places in the pending price range and only those. |
| MapSearch.ApplyKeepsExactlyInRange | components/map-search.tsx:138-141 | Each place in range keeps its multiplicity and each place out of range disappears. |
| MapSearch.ApplyKeepsOrder | components/map-search.tsx:138-141 | The filtered list keeps the full list's order: a concatenation filters to the parts' filtered lists one after the other, and a single place is kept iff it is priced in range. |
| MapSearch.RadiusIgnored | components/map-search.tsx:138-141 | The radius has no effect on which places are listed. |
| MapSearch.InvertedRangeIsEmpty | components/map-search.tsx:138-141 | A minimum above the maximum lists nothing. |
| MapSearch.ResetFilters | components/map-search.tsx:145-154 | Both filter sets return to the defaults, every place is listed, and the panel closes. |
| MapSearch.OpenFilter | components/map-search.tsx:156-161 | Opening copies the applied values into the pending ones and changes nothing else. |
| MapSearch.FilterButton | components/map-search.tsx:202 | The filter icon closes an open panel as it is and opens a closed one. |
| MapSearch.OpenAfterApply | components/map-search.tsx:133-161 | Reopening right after applying shows the values just applied, and applying them again changes nothing. |
| MapSearch.PositionFound | components/map-search.tsx:97-101 | A reported position sets each centre coordinate only while it is still 0. |
| MapSearch.PlacesSettled | components/map-search.tsx:107-131 | Loaded rows replace both lists, null counting as empty. The first row's latitude and longitude each become the centre coordinate that is still 0. A failure only stops loading. Neither outcome touches the filters or the geolocation flag. |
| MapSearch.CentreSticks | components/map-search.tsx:98-124 | Once a centre coordinate is non-zero, neither a position nor a load changes it. |
| MapSearch.FirstOfferWins | components/map-search.tsx:98-124 | A position reported before the places load stays the centre. |
| PropertyForm.HandleChange | components/property-form.tsx:41-49 | The named field takes the checkbox state or the text; every other field keeps its presence and value. |
| PropertyForm.HandleImageChange | components/property-form.tsx:51-66 | No file list changes nothing, and more than five images in all is refused. Otherwise both lists grow by the new files and their previews. |
| PropertyForm.PickKeepsWellFormed | components/property-form.tsx:51-66 | Picking keeps files and previews the same length and at most five. |
| PropertyForm.RemoveAt | components/property-form.tsx:68-73 | Removing a position drops exactly that position and shifts the rest; an index out of range drops nothing. |
| PropertyForm.RemoveImage | components/property-form.tsx:68-74 | Removing drops the same position from the files and from the previews. |
| PropertyForm.RemoveKeepsWellFormed | components/property-form.tsx:68-74 | Removing keeps the lists the same length, and keeps every file with its own preview. |
| PropertyForm.UploadPath | components/property-form.tsx:96-98 | The storage path is the user's folder, a slash, the fresh id, a dot and the file's extension: it lies in the user's folder, the id sits right after the slash, and the extension is the file's. |
| PropertyForm.UploadPathsCollide | components/property-form.tsx:96-98 | Two uploads get the same path iff they share the user folder, the fresh id and the extension, so distinct ids never collide. |
| PropertyForm.UploadExtension | components/property-form.tsx:96 | The extension is the text after the last dot, or the whole name without a dot. |
| PropertyForm.ParsedList | components/property-form.tsx:83-90 | Parsed amenities and rules are non-empty, trimmed and free of commas. |
| PropertyForm.ReparseList | components/property-form.tsx:83-90 | Writing a parsed list back into its field joined with commas and parsing again gives the same list. |
| PropertyForm.OtherEditsKeepList | components/property-form.tsx:41-90 | Editing any other field leaves a parsed list alone. |
| PropertyForm.ParsedListOfTyped | components/property-form.tsx:83-90 | A field holding clean non-empty items joined by commas parses to exactly those items. |
| Text.CommaList | components/property-form.tsx:83-90 | Every item parsed from comma-separated text is non-empty, trimmed and free of commas. |
| Text.CommaListOfClean | components/property-form.tsx:83-90 | Clean non-empty items joined with commas parse back to exactly those items. |
| Text.CommaListKeepsPieces | components/property-form.tsx:83-90 | Every comma-separated piece that is not blank appears in the result, trimmed. |
| Text.CommaListConcat | components/property-form.tsx:83-90 | The items of `a,b` are the items of `a` followed by the items of `b`. |
| Text.CommaListIdempotent | components/property-form.tsx:83-90 | Comma-list parsing is idempotent. |
| Text.SplitPieces | components/property-form.tsx:83-90 | No piece of a split holds the separator, joining the pieces gives back the text, and text without a separator is one piece. |
| Text.SplitJoin | components/property-form.tsx:83-90 | Splitting a join of separator-free pieces gives back the pieces. |
| Text.Trim | components/message-dialog.tsx:44 | Trimming cuts a run of whitespace off each end of the text and keeps the middle as it is, leaving no whitespace at either end; it gives "" iff the text is all whitespace. |
| Text.TrimIsUnique | components/message-dialog.tsx:44 | Those two facts fix the result: any trimmed text that the input strips to is the trimmed input. |
| PropertyDetails.GalleryImages | components/property-details.tsx:53 | The gallery is `property_images` whenever it is present, even empty, else `images`, else nothing. |
| PropertyDetails.Next | components/property-details.tsx:104 | The right arrow stays within the gallery and steps forward round it. |
| PropertyDetails.Prev | components/property-details.tsx:96 | The left arrow stays within the gallery and steps back round it. |
| PropertyDetails.ArrowsInverse | components/property-details.tsx:96-104 | The arrows undo each other. |
| PropertyDetails.NextTimesForward | components/property-details.tsx:104 | Before the last image, k presses move k places. |
| PropertyDetails.FullCircle | components/property-details.tsx:104 | Pressing the right arrow once per image returns to the start. |
| PropertyDetails.StatusColorsDistinct | components/property-details.tsx:56-67 | The badge is grey exactly for an unknown status, and the three known statuses get three different colours. |
| PropertyDetails.StatusColor | components/property-details.tsx:56-67 | The badge is grey iff the status is not one of the three known ones. |
| PropertyDetails.BadgeText | components/property-details.tsx:153 | The badge text is the status with its first letter upper-cased and the rest unchanged. |
| PropertyDetails.RulesCardShown | components/property-details.tsx:200 | The rules card shows for any list, even an empty one, and for non-empty text. |
| PropertyDetails.EmptyListShowsEmptyCard | components/property-details.tsx:200-211 | An empty rules list still shows the rules card, with no bullet points in it. |
| PropertyDetails.RuleItems | components/property-details.tsx:207-211 | The bullet points are non-empty. Those of text are trimmed and comma-free. Those of a list are exactly its non-empty items: every bullet is an item and every non-empty item is a bullet. |
| PropertyDetails.StoredRulesShowAsTyped | components/property-details.tsx:207-211 | A rules list as the form stores it shows the same bullet points as the typed text would. |
| PropertyDetails.RuleListKeepsOrder | components/property-details.tsx:207-211 | A list's bullets keep its order: two lists one after the other show the first's bullets then the second's, and one item shows iff it is not empty. |
| PropertyDetails.RuleTextShowsItems | components/property-details.tsx:207-211 | Text typed as clean items separated by commas shows exactly those items, in order. |
| PropertyListings.StatusOf | components/property-listings.tsx:107 | An unknown status is drawn as available. |
| PropertyListings.StatusLabelIsBadge | components/property-listings.tsx:32-48 | A known status's card label is the property page's badge text. |
| PropertyListings.Thumbnail | components/property-listings.tsx:108 | The thumbnail is the first `property_images` entry when there is one. Otherwise it is the first `images` entry, or nothing when that list is also missing or empty. |
| PropertyListings.Photo | components/property-listings.tsx:127 | A photo is drawn only for a non-empty thumbnail URL. |
| PropertyListings.CardAndGalleryDisagree | components/property-listings.tsx:108 | With an empty `property_images` the card shows the first `images` entry while the property page's gallery is empty. |
| PropertyListings.Rating | components/property-listings.tsx:173 | The label is "New" iff the average is absent or zero. |
| PropertyListings.FirstContained | components/property-listings.tsx:62 | The key found is contained in the label, and no earlier key is; none is found iff no key is contained. |
| PropertyListings.AmenityIcon | components/property-listings.tsx:51-62 | The icon is the key at the first position, in declaration order, that the lower-cased label contains; no earlier key is contained. There is no icon iff no key is contained. |
| PropertyListings.WifiFirst | components/property-listings.tsx:51-62 | A label naming wifi in any case gets the wifi icon. |
| PropertyListings.AmenityPills | components/property-listings.tsx:183-191 | Pills are drawn iff there are amenities. They are the first `min(n, 3)` amenities, and a "+N more" with N = n - 3 appears iff there are more than three. |
| PropertyListings.PillsAccountForAll | components/property-listings.tsx:185-190 | The pills and the "+N more" count cover every amenity exactly once. |
| PropertyListings.Render | components/property-listings.tsx:91-106 | The empty state shows iff there are no properties; otherwise there is one card per property, in order. |
| PropertyListings.OneCardSelected | components/property-listings.tsx:109 | With distinct ids, at most one card is highlighted, and the selected property's card is. |
| PropertyReviews.HasReviewed | components/property-reviews.tsx:63 | It holds iff some review is by the current user, and never when signed out. |
| PropertyReviews.FormVisible | components/property-reviews.tsx:158 | The form shows iff the user is a student and none of the reviews is theirs. |
| PropertyReviews.BeginSubmit | components/property-reviews.tsx:90-105 | Signed out, or with no star picked, nothing happens. Otherwise the form turns busy and the review goes out under the user's id with the picked rating. |
| PropertyReviews.FinishSubmit | components/property-reviews.tsx:107-116 | A success resets the rating and the comment and starts a refetch of the property's reviews; a failure keeps them. The form is idle either way. |
| PropertyReviews.FetchDone | components/property-reviews.tsx:70-88 | Fetched rows replace the list; an error or a null result keeps it. Loading ends either way. |
| PropertyReviews.FailedPostRestores | components/property-reviews.tsx:90-116 | A failed post returns the form to the state before it. |
| PropertyReviews.PostedReviewHidesForm | components/property-reviews.tsx:111-158 | Once the refetch holds the user's review, the form is hidden. |
| PropertyReviews.SumBounds | components/property-reviews.tsx:118-121 | Ratings between 1 and 5 sum to between n and 5n. |
| PropertyReviews.Average | components/property-reviews.tsx:118-121 | The average is 0 with no reviews; otherwise it times the number of reviews is the sum of the ratings. |
| PropertyReviews.AverageIsRating | components/property-reviews.tsx:118-129 | With ratings between 1 and 5, the average lies between 1 and 5, so the title says "No reviews yet" iff there are none. |
| PropertyReviews.FilledCount | components/property-reviews.tsx:145-170 | Of stars 1 to n, exactly `rating` are filled. |
| PropertyReviews.ReviewStars | components/property-reviews.tsx:144-146 | A review shows as many filled stars, out of five, as its rating. |
| PropertyReviews.ShownRating | components/property-reviews.tsx:170 | The star under the cursor wins over the picked one. |
| PropertyReviews.Hover | components/property-reviews.tsx:166 | Entering star k makes k the hovered rating and changes nothing else. |
| PropertyReviews.Leave | components/property-reviews.tsx:162 | Leaving the stars clears the hovered rating and changes nothing else. |
| PropertyReviews.Pick | components/property-reviews.tsx:167 | Clicking star k makes k the picked rating and changes nothing else. |
| PropertyReviews.PickedRatingShows | components/property-reviews.tsx:162-170 | After a pick the form shows that rating, that many stars are filled, and submitting now sends. |
| LandlordDashboard.StatsOf | components/landlord-dashboard.tsx:54-55 | The available count is at most the total; it is 0 iff nothing is available and equals the total iff everything is. |
| LandlordDashboard.OccupiedCountsTheRest | components/landlord-dashboard.tsx:96 | "Occupied" counts exactly the listings that are not available, so it is never negative. |
| LandlordDashboard.AddListing | components/landlord-dashboard.tsx:54-55 | One more listing raises the total and exactly one of the two other counters by one. |
| LandlordDashboard.StatusConfigOf | components/landlord-dashboard.tsx:29-51 | An unknown status is shown as its raw value; a known one as on the search sidebar. |
| LandlordDashboard.DashboardMatchesSidebar | components/landlord-dashboard.tsx:29-51 | The dashboard and the sidebar draw known statuses alike, and differ on unknown ones. |
| LandlordDashboard.LinksIdentifyProperty | components/landlord-dashboard.tsx:149-156 | Each row's links name exactly that row's property. |
| LandlordDashboard.RowsLeadApart | components/landlord-dashboard.tsx:155 | Rows of two different properties have different edit links. |
| LandlordDashboard.Render | components/landlord-dashboard.tsx:108-123 | The empty state shows iff no property was passed in; otherwise the rows are the initial properties in order. |
| AdminVerification.InitialState | components/admin-verification-panel.tsx:37-41 | The first pending application is selected at start, and none iff there is none. |
| AdminVerification.Select | components/admin-verification-panel.tsx:144 | Clicking an entry selects it and keeps the reason and the busy flag. |
| AdminVerification.SelectShowsActions | components/admin-verification-panel.tsx:222-247 | After clicking an entry the decision buttons show iff it is pending, and are usable iff it is pending and no update is in flight. |
| AdminVerification.BeginApprove | components/admin-verification-panel.tsx:43-50 | Approving always sends the approved status for that id and turns the panel busy. |
| AdminVerification.FinishApprove | components/admin-verification-panel.tsx:52-62 | A success clears the selection and a failure keeps it. The panel is idle either way. |
| AdminVerification.BeginReject | components/admin-verification-panel.tsx:65-80 | A blank reason changes nothing. Otherwise the rejected status goes out with the reason as typed, untrimmed. |
| AdminVerification.FinishReject | components/admin-verification-panel.tsx:82-93 | A success clears the reason and the selection, and a failure keeps both. |
| AdminVerification.FailedDecisionRestores | components/admin-verification-panel.tsx:43-94 | A failed decision returns the panel to the state before the click. |
| AdminVerification.DecisionHidesActions | components/admin-verification-panel.tsx:55-86 | After a successful decision the buttons are gone. |
| AdminVerification.Apply | components/admin-verification-panel.tsx:47-80 | The update sets the status of the rows with that id, and the reason when one is given; every other column of those rows, and every other row, is untouched. |
| AdminVerification.DecisionShrinksPending | components/admin-verification-panel.tsx:47-80 | A decision leaves no pending row with its id, and removes one from the pending count when there was one. |
| AdminVerification.EntryName | components/admin-verification-panel.tsx:152 | A pending entry shows the landlord's name when it is non-empty, and "Unknown" otherwise. |
| Users.RolesExclusive | components/header.tsx:49-50 | No user is both landlord and student, and a signed-out visitor is neither. |
| Users.DisplayName | components/header.tsx:51 | The name is the full name if non-empty, else an `@`-free prefix of the e-mail, else the fallback, and it is never empty. |
| Users.NameFromEmail | components/header.tsx:51 | Without a full name, `x@d` shows as `x`. |
| Header.HeaderName | components/header.tsx:51 | The header name is never empty. It is the full name when that is non-empty, and "Account" when there is neither a full name nor an e-mail. |
| Header.RoleLinks | components/header.tsx:83-106 | There is one role link for a landlord or a student and none otherwise. It is highlighted iff the path starts with its section. |
| Header.SectionsDisjoint | components/header.tsx:86-98 | No path highlights both sections, and each link's own target highlights it. |
| Header.ToggleMenu | components/header.tsx:112 | The account button flips the menu and nothing else. |
| Header.ToggleTwice | components/header.tsx:112 | Two clicks restore the header. |
| Header.OpenAuth | components/header.tsx:22-25 | The sign-in dialog opens on the requested view. |
| Header.MenuLogout | components/header.tsx:136-139 | Logging out from the menu closes it and marks the header busy. |
| Header.AvatarLetter | components/header.tsx:116 | The avatar is one letter, the upper-cased first letter of the display name. |
| Header.RoleBadge | components/header.tsx:132 | The menu's badge is the user type when it is non-empty, and "User" otherwise. |
| AuthError.ErrorMessage | app/auth/error/page.tsx:12-14 | A missing or empty parameter gives the fallback text. Otherwise the message exists iff decoding succeeds, and it never contains `_`. |
| AuthError.MessageFollowsDecoded | app/auth/error/page.tsx:13 | The message has the decoded text's length, keeps every other character in place, and has a space wherever the text had `_`. |
| AuthError.PlainTextShownAsIs | app/auth/error/page.tsx:13 | Decoded text without `_` is shown unchanged. |
| AuthError.MessageIdempotent | app/auth/error/page.tsx:13 | Rewriting a shown message again changes nothing. |

## Left out

- Database access, authentication, storage uploads and page refreshes are not modelled. Their answers are parameters and their writes are the returned requests.
- The realtime subscription of the overlay and races between overlapping fetches are not modelled, because they are concurrency and external delivery.
- Geolocation, geocoding, timers and the Leaflet maps are not modelled. Only the reported position is, as a parameter.
- The slider percentages, `toFixed` rounding, currency and date formatting are not modelled, because they are floating-point presentation. The average rating is an exact rational.
- `decodeURIComponent` is a parameter of `AuthError.ErrorMessage`. It may fail, as the real function throws on a malformed escape.
- `toUpperCase` and `toLowerCase` are modelled on ASCII letters only. No other script is case-mapped.
- Object keys that collide with `Object.prototype` (such as `constructor` in `STATUS[...]`) are not modelled. Every unknown status takes the documented fallback.
- JSX layout, styling, animation, toasts and alerts are not modelled, beyond the state changes they accompany.
- The listing form's submit is left out beyond the parsing and upload paths, along with the number parsing of its fields and the server pages that load data. Both are I/O.
- The inbox sidebar's names and thumbnails are not modelled. They use the same `||` chains as `Users.DisplayName`.
- The inbox preview's sort is in place. Its side effect on `conv.messages` is not modelled; the preview is computed on a sorted copy.
- Inbox.SentReplyJoinsThread: assumes that each message's joined property agrees with its `property_id`. Without that, a sent reply can land outside the active thread, and the model does not describe where.
- Inbox.ActiveThreadIsConversation: holds only for property ids without `_` and counterparts whose id is not the text `"undefined"`. Outside those cases the filter's string key can confuse conversations.
- PropertyReviews.AverageIsRating: relies on every rating being between 1 and 5, as the `reviews` table's check constraint (scripts/create_reviews_table.ts:24) demands. The model does not enforce that constraint itself.
- PropertyMessages.ReplyAnswersSender: promises a reply to someone other than the landlord only when the selected message came from another user. The landlord's page lists every message about the property, their own replies included (app/landlord/properties/[id]/messages/page.tsx:34-38), and answering one of those addresses the landlord, as PropertyMessages.OwnMessageRepliesToSelf states.
- Overlay.Render: the inbox inside the panel copies the messages and the active id into its own state once, when it is mounted (components/inbox-view.tsx:89-94). A message fetched after that shows in the sidebar's list but not in the open thread, and the model states the sidebar only.

## Findings

| source | as written | input that shows it | evidently intended | confidence | as-written member | corrected member |
|---|---|---|---|---|---|---|
| components/inbox-view.tsx:307-316 | Enter without Shift calls the send handler directly. The handler does not check `isSending`, and only the button is disabled while a send is in flight. | A non-blank reply in an active conversation with a counterpart; press Enter, then press Enter again before the insert returns. | Enter sends only when the Send button is enabled, so a reply is not inserted twice. | medium, not executed | Inbox.KeyDown / Inbox.EnterSendsWhileSending | Inbox.KeyDownGuarded / Inbox.GuardedEnterMatchesButton |

=== FILE: admin_verification.dfy ===
/** The administrator's landlord-verification panel
    (`AdminVerificationPanel`): pick a pending application, then approve it
    or reject it with a reason. The panel writes the decision but does not
    reload its lists, which stay as the page passed them in. */
module AdminVerification {
  import opened Wrappers
  import opened Seqs
  import opened Text
  import Users

  datatype VerificationStatus = Pending | Approved | Rejected

  datatype Request = Request(
    id: string,
    landlordId: string,
    idDocumentUrl: string,
    propertyProofUrl: string,
    status: VerificationStatus,
    rejectionReason: Option<string>,
    createdAt: int,
    landlordName: Option<string>,
    landlordEmail: Option<string>)

  /** The `.update(...).eq('id', id)` the panel sends. */
  datatype Update = Update(id: string, status: VerificationStatus, rejectionReason: Option<string>)

  datatype AdminState = AdminState(selected: Option<Request>, reason: string, isProcessing: bool)

  /** The first pending application is selected when the page opens. */
  function InitialState(pending: seq<Request>): (r: AdminState)
    ensures r.selected.None? <==> |pending| == 0
    ensures r.selected.Some? ==> r.selected.value == pending[0]
    ensures r.reason == "" && !r.isProcessing
  {
    AdminState(if |pending| > 0 then Some(pending[0]) else None, "", false)
  }

  /** Clicking an entry of the pending list. */
  function Select(s: AdminState, v: Request): (r: AdminState)
    ensures r.selected == Some(v) && r.reason == s.reason && r.isProcessing == s.isProcessing
  {
    s.(selected := Some(v))
  }

  /** `handleApprove` up to the update: no guard at all. */
  function BeginApprove(s: AdminState, id: string): (r: Started<AdminState, Update>)
    ensures r.next == s.(isProcessing := true)
    ensures r.request == Some(Update(id, Approved, None))
  {
    Started(s.(isProcessing := true), Some(Update(id, Approved, None)))
  }

  /** After the update: success closes the review panel; the reason field
      is kept either way. */
  function FinishApprove(s: AdminState, ok: bool): (r: AdminState)
    ensures !r.isProcessing && r.reason == s.reason
    ensures ok ==> r.selected.None?
    ensures !ok ==> r.selected == s.selected
  {
    if ok then s.(selected := None, isProcessing := false) else s.(isProcessing := false)
  }

  /** `handleReject` up to the update: a blank reason stops it (the alert is
      left out); otherwise the reason goes out as typed, untrimmed. */
  function BeginReject(s: AdminState, id: string): (r: Started<AdminState, Update>)
    ensures r.request.Some? <==> !IsBlank(s.reason)
    ensures r.request.None? ==> r.next == s
    ensures r.request.Some? ==> r.next == s.(isProcessing := true)
    ensures r.request.Some? ==> r.request.value == Update(id, Rejected, Some(s.reason))
  {
    if IsBlank(s.reason) then Started(s, None)
    else Started(s.(isProcessing := true), Some(Update(id, Rejected, Some(s.reason))))
  }

  /** After the update: success clears the reason and the selection. */
  function FinishReject(s: AdminState, ok: bool): (r: AdminState)
    ensures !r.isProcessing
    ensures ok ==> r.selected.None? && r.reason == ""
    ensures !ok ==> r.selected == s.selected && r.reason == s.reason
  {
    if ok then s.(selected := None, reason := "", isProcessing := false) else s.(isProcessing := false)
  }

  /** The reject and approve buttons appear for a selected pending
      application; they are disabled while an update is in flight. */
  predicate ActionsShown(s: AdminState) {
    s.selected.Some? && s.selected.value.status == Pending
  }

  predicate ActionsEnabled(s: AdminState) {
    ActionsShown(s) && !s.isProcessing
  }

  /** Clicking an entry shows the buttons exactly when it is still pending,
      and they are usable unless an update is in flight. */
  lemma SelectShowsActions(s: AdminState, v: Request)
    ensures ActionsShown(Select(s, v)) <==> v.status == Pending
    ensures ActionsEnabled(Select(s, v)) <==> v.status == Pending && !s.isProcessing
  {
  }

  /** A failed decision leaves the panel as it was before the click. */
  lemma FailedDecisionRestores(s: AdminState, id: string)
    requires !s.isProcessing
    ensures FinishApprove(BeginApprove(s, id).next, false) == s
    ensures FinishReject(BeginReject(s, id).next, false) == s
  {
  }

  /** A successful decision hides the buttons, so the same application
      cannot be decided twice from the panel without selecting it again. */
  lemma DecisionHidesActions(s: AdminState, id: string)
    ensures !ActionsShown(FinishApprove(BeginApprove(s, id).next, true))
    ensures BeginReject(s, id).request.Some? ==> !ActionsShown(FinishReject(BeginReject(s, id).next, true))
    ensures BeginReject(s, id).request.Some? ==> IsBlank(FinishReject(BeginReject(s, id).next, true).reason)
  {
    assert AllWhitespace("");
  }

  /** What the update does to the table: every row with that id takes the
      new status, and the reason when one is given; other rows keep theirs. */
  function Apply(rows: seq<Request>, u: Update): (r: seq<Request>)
    ensures |r| == |rows|
    ensures forall i :: 0 <= i < |rows| && rows[i].id != u.id ==> r[i] == rows[i]
    ensures forall i :: 0 <= i < |rows| && rows[i].id == u.id ==>
              r[i].status == u.status && r[i].id == rows[i].id
    ensures forall i :: 0 <= i < |rows| && rows[i].id == u.id ==>
              r[i].rejectionReason == (if u.rejectionReason.Some? then u.rejectionReason else rows[i].rejectionReason)
    ensures forall i :: 0 <= i < |rows| && rows[i].id == u.id ==>
              && r[i].landlordId == rows[i].landlordId
              && r[i].idDocumentUrl == rows[i].idDocumentUrl
              && r[i].propertyProofUrl == rows[i].propertyProofUrl
              && r[i].createdAt == rows[i].createdAt
              && r[i].landlordName == rows[i].landlordName
              && r[i].landlordEmail == rows[i].landlordEmail
  {
    if |rows| == 0 then []
    else
      var row := rows[0];
      var row' := if row.id == u.id then row.(status := u.status, rejectionReason := if u.rejectionReason.Some? then u.rejectionReason else row.rejectionReason) else row;
      [row'] + Apply(rows[1..], u)
  }

  function IsPending(v: Request): bool {
    v.status == Pending
  }

  /** A decision leaves no pending row with the decided id and adds none. */
  lemma {:induction false} DecisionShrinksPending(rows: seq<Request>, u: Update)
    requires u.status != Pending
    ensures forall i :: 0 <= i < |rows| && rows[i].id == u.id ==> !IsPending(Apply(rows, u)[i])
    ensures Count(Apply(rows, u), IsPending) <= Count(rows, IsPending)
    ensures (exists i :: 0 <= i < |rows| && rows[i].id == u.id && IsPending(rows[i])) ==>
              Count(Apply(rows, u), IsPending) < Count(rows, IsPending)
  {
    if |rows| > 0 {
      DecisionShrinksPending(rows[1..], u);
      var r := Apply(rows, u);
      assert r[1..] == Apply(rows[1..], u);
      if exists i :: 0 <= i < |rows| && rows[i].id == u.id && IsPending(rows[i]) {
        var i :| 0 <= i < |rows| && rows[i].id == u.id && IsPending(rows[i]);
        if i > 0 {
          assert rows[1..][i - 1] == rows[i];
        }
      }
    }
  }

  /** The name on an entry of the pending list. */
  function EntryName(v: Request): (r: string)
    ensures r != ""
    ensures v.landlordName.Some? && v.landlordName.value != "" ==> r == v.landlordName.value
    ensures v.landlordName.None? || v.landlordName.value == "" ==> r == "Unknown"
  {
    Users.OrElse(v.landlordName, "Unknown")
  }
}

=== FILE: auth_error.dfy ===
/** The sign-in error page (`app/auth/error`): the `error` query parameter,
    decoded, with underscores shown as spaces. Percent-decoding is a
    parameter here; it fails (`None`) where `decodeURIComponent` throws, and
    the page then fails to render. */
module AuthError {
  import opened Wrappers
  import opened Text

  const Fallback := "An unexpected error occurred."

  /** The message shown: the fallback for a missing or empty parameter,
      otherwise the decoded parameter with every `_` replaced by a space. */
  function ErrorMessage(param: Option<string>, decode: string -> Option<string>): (r: Option<string>)
    ensures param.None? || param.value == "" ==> r == Some(Fallback)
    ensures param.Some? && param.value != "" ==> (r.None? <==> decode(param.value).None?)
    ensures r.Some? ==> '_' !in r.value
  {
    if param.None? || param.value == "" then Some(Fallback)
    else
      match decode(param.value)
      case None => None
      case Some(text) =>
        var shown := ReplaceAll(text, '_', ' ');
        assert forall i :: 0 <= i < |shown| ==> shown[i] != '_';
        Some(shown)
  }

  /** The replacement is letter for letter: the message has the decoded
      text's length, keeps every other character in place, and has a space
      wherever the text had `_`. */
  lemma MessageFollowsDecoded(param: string, decode: string -> Option<string>)
    requires param != "" && decode(param).Some?
    ensures var text := decode(param).value;
            var shown := ErrorMessage(Some(param), decode).value;
            && |shown| == |text|
            && (forall i :: 0 <= i < |text| && text[i] != '_' ==> shown[i] == text[i])
            && (forall i :: 0 <= i < |text| && text[i] == '_' ==> shown[i] == ' ')
  {
  }

  /** A decoded text without underscores is shown unchanged. */
  lemma PlainTextShownAsIs(param: string, decode: string -> Option<string>)
    requires param != "" && decode(param).Some? && '_' !in decode(param).value
    ensures ErrorMessage(Some(param), decode) == decode(param)
  {
    var text := decode(param).value;
    assert ReplaceAll(text, '_', ' ') == text;
  }

  /** Feeding a shown message back through an identity decoding shows it
      unchanged: the page's rewriting is idempotent. */
  lemma MessageIdempotent(param: string, decode: string -> Option<string>)
    requires param != "" && decode(param).Some? && decode(param).value != ""
    ensures var shown := ErrorMessage(Some(param), decode).value;
            ErrorMessage(Some(shown), t => Some(t)) == Some(shown)
  {
    var shown := ErrorMessage(Some(param), decode).value;
    assert |shown| == |decode(param).value|;
    PlainTextShownAsIs(shown, t => Some(t));
  }
}

=== FILE: header.dfy ===
/** The site header (`Header`): the role links with their highlight, the
    account menu, and the sign-in buttons. */
module Header {
  import opened Wrappers
  import opened Text
  import opened Users

  datatype AuthView = Login | Signup

  datatype HeaderState = HeaderState(menuOpen: bool, isLoading: bool, authOpen: bool, authView: AuthView)

  const Initial := HeaderState(false, false, false, Login)

  /** `openAuth`: the sign-in dialog opens on the requested view. */
  function OpenAuth(s: HeaderState, view: AuthView): (r: HeaderState)
    ensures r.authOpen && r.authView == view
    ensures r.menuOpen == s.menuOpen && r.isLoading == s.isLoading
  {
    s.(authOpen := true, authView := view)
  }

  /** The account button flips the menu. */
  function ToggleMenu(s: HeaderState): (r: HeaderState)
    ensures r.menuOpen != s.menuOpen
    ensures r.(menuOpen := s.menuOpen) == s
  {
    s.(menuOpen := !s.menuOpen)
  }

  /** The menu's "Log out": closes the menu and marks the header busy until
      the sign-out reloads the page. */
  function MenuLogout(s: HeaderState): (r: HeaderState)
    ensures !r.menuOpen && r.isLoading
    ensures r.authOpen == s.authOpen && r.authView == s.authView
  {
    s.(menuOpen := false, isLoading := true)
  }

  /** Toggling twice restores the header. */
  lemma ToggleTwice(s: HeaderState)
    ensures ToggleMenu(ToggleMenu(s)) == s
  {
  }

  /** `pathname?.startsWith(prefix)`. */
  predicate OnSection(path: Option<string>, prefix: string) {
    path.Some? && StartsWith(path.value, prefix)
  }

  datatype NavLink = NavLink(href: string, caption: string, highlighted: bool)

  /** The desktop role links: "My Listings" for a landlord, "Saved" for a
      student, none for anyone else or when signed out. */
  function RoleLinks(user: Option<User>, path: Option<string>): (r: seq<NavLink>)
    ensures |r| <= 1
    ensures |r| == 1 <==> IsLandlord(user) || IsStudent(user)
    ensures IsLandlord(user) ==> r == [NavLink("/landlord/dashboard", "My Listings", OnSection(path, "/landlord"))]
    ensures IsStudent(user) ==> r == [NavLink("/student/saved", "Saved", OnSection(path, "/student"))]
  {
    RolesExclusive(user);
    (if IsLandlord(user) then [NavLink("/landlord/dashboard", "My Listings", OnSection(path, "/landlord"))] else [])
    + (if IsStudent(user) then [NavLink("/student/saved", "Saved", OnSection(path, "/student"))] else [])
  }

  /** No path lies in both sections, so at most one section is highlighted,
      and a link is highlighted only when its own target lies in its section. */
  lemma SectionsDisjoint(path: Option<string>)
    ensures !(OnSection(path, "/landlord") && OnSection(path, "/student"))
    ensures OnSection(Some("/landlord/dashboard"), "/landlord") && OnSection(Some("/student/saved"), "/student")
  {
    assert "/landlord"[1] != "/student"[1];
  }

  /** `displayName` of the header, falling back to "Account". */
  function HeaderName(user: User): (r: string)
    ensures r != ""
    ensures user.fullName.Some? && user.fullName.value != "" ==> r == user.fullName.value
    ensures (user.fullName.None? || user.fullName.value == "") && user.email.None? ==> r == "Account"
  {
    DisplayName(user, "Account")
  }

  /** `displayName.charAt(0).toUpperCase()`: the avatar letter. */
  function AvatarLetter(user: User): (r: string)
    ensures |r| == 1 && r[0] == UpperChar(HeaderName(user)[0])
  {
    [UpperChar(HeaderName(user)[0])]
  }

  /** `user_type || 'User'`: the role badge in the menu. */
  function RoleBadge(user: User): (r: string)
    ensures r != ""
    ensures user.userType.Some? && user.userType.value != "" ==> r == user.userType.value
    ensures user.userType.None? || user.userType.value == "" ==> r == "User"
  {
    OrElse(user.userType, "User")
  }
}

=== FILE: inbox.dfy ===
/** The conversation aggregator and composer of the inbox (`InboxView`): a
    flat list of messages and the viewing user become conversation threads
    keyed by property and counterpart, newest thread first. */
module Inbox {
  import opened Wrappers
  import opened Seqs
  import opened Sorting
  import opened Text
  import opened Messages

  datatype Conversation = Conversation(
    id: string,
    property: Option<PropertySummary>,
    otherUser: Profile,
    messages: seq<Message>,
    lastMessageAt: int)

  /** Stands in for the property of a message that has none. */
  const NoProperty: string := "no-property"

  /** The other party of `m` as the viewer sees it: the receiver of what the
      viewer sent, otherwise the sender. */
  function Counterpart(m: Message, viewer: string): Option<Profile> {
    if m.senderId == viewer then m.receiver else m.sender
  }

  /** `msg.property_id || 'no-property'`: a null and an empty id alike become
      the sentinel. */
  function PropertyKey(m: Message): string {
    match m.propertyId
    case Some(p) => if p != "" then p else NoProperty
    case None => NoProperty
  }

  /** `${propertyKey}_${userId}`. */
  function ConversationId(propertyKey: string, userId: string): string {
    propertyKey + "_" + userId
  }

  /** The conversation a message is filed under; none without a counterpart. */
  function KeyOf(m: Message, viewer: string): Option<string> {
    match Counterpart(m, viewer)
    case Some(u) => Some(ConversationId(PropertyKey(m), u.id))
    case None => None
  }

  predicate BelongsTo(m: Message, viewer: string, id: string) {
    KeyOf(m, viewer) == Some(id)
  }

  /** The messages of `msgs` filed under `id`, in input order. */
  function Thread(msgs: seq<Message>, viewer: string, id: string): seq<Message> {
    Filter(msgs, m => BelongsTo(m, viewer, id))
  }

  /** The latest creation time among `ms`, found the way the grouping loop
      finds it: keep the running value unless a message is strictly newer. */
  function MaxTime(ms: seq<Message>): (t: int)
    requires |ms| > 0
    ensures forall i :: 0 <= i < |ms| ==> ms[i].createdAt <= t
    ensures exists i :: 0 <= i < |ms| && ms[i].createdAt == t
  {
    if |ms| == 1 then ms[0].createdAt
    else
      var t := MaxTime(ms[..|ms| - 1]);
      if ms[|ms| - 1].createdAt > t then ms[|ms| - 1].createdAt else t
  }

  /** Position of the conversation with `id`, or `|convs|` when there is none
      (`Map.has` / `Map.get`). */
  function IndexOf(convs: seq<Conversation>, id: string): (i: nat)
    ensures i <= |convs|
    ensures i < |convs| ==> convs[i].id == id
    ensures forall k :: 0 <= k < i ==> convs[k].id != id
  {
    if |convs| == 0 then 0
    else if convs[0].id == id then 0
    else 1 + IndexOf(convs[1..], id)
  }

  /** Pushes `m` onto a conversation and moves its last activity forward when
      `m` is strictly newer. */
  function Touch(c: Conversation, m: Message): Conversation {
    c.(messages := c.messages + [m],
       lastMessageAt := if m.createdAt > c.lastMessageAt then m.createdAt else c.lastMessageAt)
  }

  /** One iteration of the grouping loop. The conversations stand for the
      entries of the `Map`, in its insertion order. */
  function AddMessage(convs: seq<Conversation>, m: Message, viewer: string): seq<Conversation> {
    match Counterpart(m, viewer)
    case None => convs
    case Some(other) =>
      var id := ConversationId(PropertyKey(m), other.id);
      var i := IndexOf(convs, id);
      if i == |convs| then convs + [Touch(Conversation(id, m.property, other, [], m.createdAt), m)]
      else convs[i := Touch(convs[i], m)]
  }

  /** The grouping loop over the whole list, first message first. */
  function Group(msgs: seq<Message>, viewer: string): (r: seq<Conversation>)
    ensures |r| <= |msgs|
  {
    if |msgs| == 0 then []
    else AddMessage(Group(msgs[..|msgs| - 1], viewer), msgs[|msgs| - 1], viewer)
  }

  function LastActivity(c: Conversation): int {
    c.lastMessageAt
  }

  /** The inbox's conversation list: the grouped conversations sorted by last
      activity, newest first. */
  function Conversations(msgs: seq<Message>, viewer: string): (r: seq<Conversation>)
    ensures SortedDesc(r, LastActivity)
    ensures multiset(r) == multiset(Group(msgs, viewer))
  {
    SortDesc(Group(msgs, viewer), LastActivity)
  }

  //
  // What a list of conversations promises about the messages it was built from.
  //

  function DifferentIds(a: Conversation, b: Conversation): bool {
    a.id != b.id
  }

  predicate HasId(convs: seq<Conversation>, id: string) {
    exists i :: 0 <= i < |convs| && convs[i].id == id
  }

  /** A conversation holds exactly the messages filed under its id, in input
      order; its last activity is their latest time; its property and
      counterpart come from the first of them. */
  ghost predicate Summarises(c: Conversation, msgs: seq<Message>, viewer: string) {
    && c.messages == Thread(msgs, viewer, c.id)
    && |c.messages| > 0
    && c.lastMessageAt == MaxTime(c.messages)
    && c.property == c.messages[0].property
    && Counterpart(c.messages[0], viewer) == Some(c.otherUser)
  }

  ghost predicate DistinctIds(convs: seq<Conversation>) {
    Pairwise(convs, DifferentIds)
  }

  ghost predicate AllSummarise(convs: seq<Conversation>, msgs: seq<Message>, viewer: string) {
    forall i :: 0 <= i < |convs| ==> Summarises(convs[i], msgs, viewer)
  }

  /** Every message with a counterpart has a conversation under its id. */
  ghost predicate Covers(convs: seq<Conversation>, msgs: seq<Message>, viewer: string) {
    forall k :: 0 <= k < |msgs| && KeyOf(msgs[k], viewer).Some? ==> HasId(convs, KeyOf(msgs[k], viewer).value)
  }

  ghost predicate Aggregates(convs: seq<Conversation>, msgs: seq<Message>, viewer: string) {
    DistinctIds(convs) && AllSummarise(convs, msgs, viewer) && Covers(convs, msgs, viewer)
  }

  lemma ThreadSnoc(msgs: seq<Message>, m: Message, viewer: string, id: string)
    ensures Thread(msgs + [m], viewer, id)
         == Thread(msgs, viewer, id) + (if BelongsTo(m, viewer, id) then [m] else [])
  {
    FilterConcat(msgs, [m], x => BelongsTo(x, viewer, id));
  }

  /** A conversation whose id `m` is not filed under is unaffected by `m`. */
  lemma SummarisesSnocOther(c: Conversation, msgs: seq<Message>, m: Message, viewer: string)
    requires Summarises(c, msgs, viewer)
    requires !BelongsTo(m, viewer, c.id)
    ensures Summarises(c, msgs + [m], viewer)
  {
    ThreadSnoc(msgs, m, viewer, c.id);
  }

  /** Covering survives adding a message when its own id is covered. */
  lemma CoversSnoc(convs: seq<Conversation>, convs': seq<Conversation>, msgs: seq<Message>, m: Message, viewer: string)
    requires Covers(convs, msgs, viewer)
    requires forall id :: HasId(convs, id) ==> HasId(convs', id)
    requires KeyOf(m, viewer).Some? ==> HasId(convs', KeyOf(m, viewer).value)
    ensures Covers(convs', msgs + [m], viewer)
  {
    var msgs' := msgs + [m];
    forall k | 0 <= k < |msgs'| && KeyOf(msgs'[k], viewer).Some?
      ensures HasId(convs', KeyOf(msgs'[k], viewer).value)
    {
      if k < |msgs| {
        assert msgs'[k] == msgs[k];
      }
    }
  }

  /** A message without a counterpart changes nothing. */
  lemma AddUnresolved(convs: seq<Conversation>, msgs: seq<Message>, m: Message, viewer: string)
    requires Aggregates(convs, msgs, viewer)
    requires Counterpart(m, viewer).None?
    ensures Aggregates(AddMessage(convs, m, viewer), msgs + [m], viewer)
  {
    forall i | 0 <= i < |convs|
      ensures Summarises(convs[i], msgs + [m], viewer)
    {
      SummarisesSnocOther(convs[i], msgs, m, viewer);
    }
    CoversSnoc(convs, convs, msgs, m, viewer);
  }

  /** Appending to the conversation a message is filed under keeps its summary. */
  lemma TouchSummarises(c: Conversation, msgs: seq<Message>, m: Message, viewer: string)
    requires Summarises(c, msgs, viewer)
    requires BelongsTo(m, viewer, c.id)
    ensures Summarises(Touch(c, m), msgs + [m], viewer)
  {
    ThreadSnoc(msgs, m, viewer, c.id);
    var ms := Touch(c, m).messages;
    assert ms[..|ms| - 1] == c.messages;
  }

  /** A message filed under an existing conversation is appended to it. */
  lemma AddToExisting(convs: seq<Conversation>, msgs: seq<Message>, m: Message, viewer: string)
    requires Aggregates(convs, msgs, viewer)
    requires KeyOf(m, viewer).Some?
    requires IndexOf(convs, KeyOf(m, viewer).value) < |convs|
    ensures Aggregates(AddMessage(convs, m, viewer), msgs + [m], viewer)
  {
    var id := KeyOf(m, viewer).value;
    var i := IndexOf(convs, id);
    var convs' := AddMessage(convs, m, viewer);
    assert convs' == convs[i := Touch(convs[i], m)];
    assert AllSummarise(convs', msgs + [m], viewer) by {
      forall j | 0 <= j < |convs'|
        ensures Summarises(convs'[j], msgs + [m], viewer)
      {
        if j == i {
          TouchSummarises(convs[i], msgs, m, viewer);
        } else {
          assert DifferentIds(convs[i], convs[j]);
          SummarisesSnocOther(convs[j], msgs, m, viewer);
        }
      }
    }
    SameIds(convs, i, Touch(convs[i], m));
    CoversSnoc(convs, convs', msgs, m, viewer);
  }

  /** Replacing a conversation by one with the same id keeps the ids. */
  lemma SameIds(convs: seq<Conversation>, i: nat, c: Conversation)
    requires i < |convs| && c.id == convs[i].id
    ensures DistinctIds(convs) ==> DistinctIds(convs[i := c])
    ensures forall x :: HasId(convs, x) <==> HasId(convs[i := c], x)
  {
    var convs' := convs[i := c];
    if DistinctIds(convs) {
      forall a, b | 0 <= a < |convs'| && 0 <= b < |convs'| && a != b
        ensures DifferentIds(convs'[a], convs'[b])
      {
        assert DifferentIds(convs[a], convs[b]);
      }
    }
    forall x
      ensures HasId(convs, x) <==> HasId(convs', x)
    {
      if HasId(convs, x) {
        var j :| 0 <= j < |convs| && convs[j].id == x;
        assert convs'[j].id == x;
      }
      if HasId(convs', x) {
        var j :| 0 <= j < |convs'| && convs'[j].id == x;
        assert convs[j].id == x;
      }
    }
  }

  /** Appending a conversation under an unused id keeps the ids distinct. */
  lemma AppendIds(convs: seq<Conversation>, c: Conversation)
    requires DistinctIds(convs)
    requires forall k :: 0 <= k < |convs| ==> convs[k].id != c.id
    ensures DistinctIds(convs + [c])
    ensures forall x :: HasId(convs, x) ==> HasId(convs + [c], x)
    ensures HasId(convs + [c], c.id)
  {
    var convs' := convs + [c];
    forall a, b | 0 <= a < |convs'| && 0 <= b < |convs'| && a != b
      ensures DifferentIds(convs'[a], convs'[b])
    {
      if a < |convs| && b < |convs| {
        assert DifferentIds(convs[a], convs[b]);
      } else if a < |convs| {
        assert convs'[a].id == convs[a].id;
      } else {
        assert convs'[b].id == convs[b].id;
      }
    }
    forall x | HasId(convs, x)
      ensures HasId(convs', x)
    {
      var j :| 0 <= j < |convs| && convs[j].id == x;
      assert convs'[j].id == x;
    }
    assert convs'[|convs|] == c;
  }

  /** A message under a new id opens a conversation of its own. */
  lemma AddToNew(convs: seq<Conversation>, msgs: seq<Message>, m: Message, viewer: string)
    requires Aggregates(convs, msgs, viewer)
    requires KeyOf(m, viewer).Some?
    requires IndexOf(convs, KeyOf(m, viewer).value) == |convs|
    ensures Aggregates(AddMessage(convs, m, viewer), msgs + [m], viewer)
  {
    var id := KeyOf(m, viewer).value;
    var other := Counterpart(m, viewer).value;
    var newConv := Touch(Conversation(id, m.property, other, [], m.createdAt), m);
    var convs' := AddMessage(convs, m, viewer);
    assert convs' == convs + [newConv];
    NewAllSummarise(convs, msgs, m, viewer);
    assert forall k :: 0 <= k < |convs| ==> convs[k].id != newConv.id;
    AppendIds(convs, newConv);
    CoversSnoc(convs, convs', msgs, m, viewer);
  }

  lemma NewAllSummarise(convs: seq<Conversation>, msgs: seq<Message>, m: Message, viewer: string)
    requires Aggregates(convs, msgs, viewer)
    requires KeyOf(m, viewer).Some?
    requires IndexOf(convs, KeyOf(m, viewer).value) == |convs|
    ensures AllSummarise(AddMessage(convs, m, viewer), msgs + [m], viewer)
  {
    var id := KeyOf(m, viewer).value;
    var newConv := Touch(Conversation(id, m.property, Counterpart(m, viewer).value, [], m.createdAt), m);
    var convs' := AddMessage(convs, m, viewer);
    assert convs' == convs + [newConv];
    NewSummarises(convs, msgs, m, viewer);
    forall j | 0 <= j < |convs'|
      ensures Summarises(convs'[j], msgs + [m], viewer)
    {
      if j < |convs| {
        assert convs'[j] == convs[j];
        SummarisesSnocOther(convs[j], msgs, m, viewer);
      }
    }
  }

  /** The conversation opened for a new id summarises its one message. */
  lemma NewSummarises(convs: seq<Conversation>, msgs: seq<Message>, m: Message, viewer: string)
    requires Covers(convs, msgs, viewer)
    requires KeyOf(m, viewer).Some?
    requires IndexOf(convs, KeyOf(m, viewer).value) == |convs|
    ensures var id := KeyOf(m, viewer).value;
            Summarises(Touch(Conversation(id, m.property, Counterpart(m, viewer).value, [], m.createdAt), m), msgs + [m], viewer)
  {
    var id := KeyOf(m, viewer).value;
    assert !HasId(convs, id);
    forall k | 0 <= k < |msgs|
      ensures !BelongsTo(msgs[k], viewer, id)
    {
    }
    FilterNone(msgs, x => BelongsTo(x, viewer, id));
    ThreadSnoc(msgs, m, viewer, id);
  }

  /** One iteration of the grouping loop keeps what the conversations promise. */
  lemma AddAggregates(convs: seq<Conversation>, msgs: seq<Message>, m: Message, viewer: string)
    requires Aggregates(convs, msgs, viewer)
    ensures Aggregates(AddMessage(convs, m, viewer), msgs + [m], viewer)
  {
    match KeyOf(m, viewer)
    case None =>
      AddUnresolved(convs, msgs, m, viewer);
    case Some(id) =>
      if IndexOf(convs, id) < |convs| {
        AddToExisting(convs, msgs, m, viewer);
      } else {
        AddToNew(convs, msgs, m, viewer);
      }
  }

  /** The grouping loop establishes what the conversations promise. */
  lemma {:induction false} GroupAggregates(msgs: seq<Message>, viewer: string)
    ensures Aggregates(Group(msgs, viewer), msgs, viewer)
    decreases |msgs|
  {
    if |msgs| > 0 {
      var init := msgs[..|msgs| - 1];
      var m := msgs[|msgs| - 1];
      GroupAggregates(init, viewer);
      AddAggregates(Group(init, viewer), init, m, viewer);
      assert msgs == init + [m];
    }
  }

  /** Reordering conversations keeps every promise they make, provided the
      ids stay distinct. */
  lemma PermutedAggregates(g: seq<Conversation>, r: seq<Conversation>, msgs: seq<Message>, viewer: string)
    requires Aggregates(g, msgs, viewer)
    requires multiset(r) == multiset(g)
    requires DistinctIds(r)
    ensures Aggregates(r, msgs, viewer)
  {
    forall i | 0 <= i < |r|
      ensures Summarises(r[i], msgs, viewer)
    {
      assert r[i] in multiset(g);
      var j :| 0 <= j < |g| && g[j] == r[i];
    }
    forall x | HasId(g, x)
      ensures HasId(r, x)
    {
      var j :| 0 <= j < |g| && g[j].id == x;
      assert g[j] in multiset(r);
      var k :| 0 <= k < |r| && r[k] == g[j];
    }
  }

  /** Sorting the grouped conversations keeps every promise of the grouping. */
  lemma ConversationsAggregate(msgs: seq<Message>, viewer: string)
    ensures Aggregates(Conversations(msgs, viewer), msgs, viewer)
  {
    var g := Group(msgs, viewer);
    GroupAggregates(msgs, viewer);
    SortPairwise(g, LastActivity, DifferentIds);
    PermutedAggregates(g, Conversations(msgs, viewer), msgs, viewer);
  }

  /** With property keys free of underscores, a conversation id determines
      its property key and its counterpart. */
  lemma ConversationIdInjective(p1: string, u1: string, p2: string, u2: string)
    requires '_' !in p1 && '_' !in p2
    ensures ConversationId(p1, u1) == ConversationId(p2, u2) <==> p1 == p2 && u1 == u2
  {
    var k1, k2 := ConversationId(p1, u1), ConversationId(p2, u2);
    if k1 == k2 {
      assert k1[|p1|] == '_' && k2[|p2|] == '_';
      assert forall i :: 0 <= i < |p1| ==> k1[i] == p1[i];
      assert forall i :: 0 <= i < |p2| ==> k2[i] == p2[i];
      assert |p1| == |p2|;
      assert p1 == k1[..|p1|] && p2 == k2[..|p2|];
      assert u1 == k1[|p1| + 1..] && u2 == k2[|p2| + 1..];
    }
  }

  /** A message in a conversation is filed under its id. */
  lemma MemberBelongs(c: Conversation, msgs: seq<Message>, viewer: string, m: Message)
    requires Summarises(c, msgs, viewer)
    requires m in c.messages
    ensures BelongsTo(m, viewer, c.id) && m in msgs
  {
    var k :| 0 <= k < |c.messages| && c.messages[k] == m;
  }

  /** In conversations that aggregate `msgs`, a message with a counterpart is
      in the conversation under its own id. */
  lemma PlacedUnderKey(convs: seq<Conversation>, msgs: seq<Message>, viewer: string, k: nat)
    requires Aggregates(convs, msgs, viewer)
    requires k < |msgs| && KeyOf(msgs[k], viewer).Some?
    ensures exists i :: 0 <= i < |convs| && convs[i].id == KeyOf(msgs[k], viewer).value && msgs[k] in convs[i].messages
  {
    var id := KeyOf(msgs[k], viewer).value;
    assert HasId(convs, id);
    var i :| 0 <= i < |convs| && convs[i].id == id;
    assert Summarises(convs[i], msgs, viewer);
    assert BelongsTo(msgs[k], viewer, id);
    assert msgs[k] in convs[i].messages;
  }

  /** Every message of a conversation is filed under its id. */
  ghost predicate Filed(convs: seq<Conversation>, viewer: string) {
    forall c, m :: 0 <= c < |convs| && m in convs[c].messages ==> BelongsTo(m, viewer, convs[c].id)
  }

  lemma AggregatesFiled(convs: seq<Conversation>, msgs: seq<Message>, viewer: string)
    requires Aggregates(convs, msgs, viewer)
    ensures Filed(convs, viewer)
  {
    forall c, m | 0 <= c < |convs| && m in convs[c].messages
      ensures BelongsTo(m, viewer, convs[c].id)
    {
      MemberBelongs(convs[c], msgs, viewer, m);
    }
  }

  /** Distinct ids: a conversation id picks out one position. */
  lemma IdUnique(convs: seq<Conversation>, i: nat, j: nat)
    requires DistinctIds(convs) && i < |convs| && j < |convs|
    ensures convs[i].id == convs[j].id ==> i == j
  {
    if i != j {
      assert DifferentIds(convs[i], convs[j]);
    }
  }

  /** With distinct ids and every message filed under its conversation's id,
      no message is in two conversations. */
  lemma PlacedOnce(convs: seq<Conversation>, viewer: string, m: Message)
    requires DistinctIds(convs) && Filed(convs, viewer)
    ensures forall i, j :: 0 <= i < |convs| && 0 <= j < |convs| && m in convs[i].messages && m in convs[j].messages ==> i == j
  {
    forall a, b | 0 <= a < |convs| && 0 <= b < |convs| && m in convs[a].messages && m in convs[b].messages
      ensures a == b
    {
      IdUnique(convs, a, b);
    }
  }

  /** Every message with a counterpart lands in exactly one conversation: the
      one under its own id. */
  lemma EveryMessagePlaced(msgs: seq<Message>, viewer: string, k: nat)
    requires k < |msgs| && Counterpart(msgs[k], viewer).Some?
    ensures var convs := Conversations(msgs, viewer);
            && (exists i :: 0 <= i < |convs| && convs[i].id == KeyOf(msgs[k], viewer).value && msgs[k] in convs[i].messages)
            && (forall i, j :: 0 <= i < |convs| && 0 <= j < |convs| && msgs[k] in convs[i].messages && msgs[k] in convs[j].messages ==> i == j)
  {
    var convs := Conversations(msgs, viewer);
    assert DistinctIds(convs) && Filed(convs, viewer)
        && (exists i :: 0 <= i < |convs| && convs[i].id == KeyOf(msgs[k], viewer).value && msgs[k] in convs[i].messages) by {
      ConversationsAggregate(msgs, viewer);
      AggregatesFiled(convs, msgs, viewer);
      PlacedUnderKey(convs, msgs, viewer, k);
    }
    PlacedOnce(convs, viewer, msgs[k]);
  }

  /** A message without a counterpart is in no conversation. */
  lemma UnresolvedDropped(msgs: seq<Message>, viewer: string, m: Message)
    requires Counterpart(m, viewer).None?
    ensures forall i :: 0 <= i < |Conversations(msgs, viewer)| ==> m !in Conversations(msgs, viewer)[i].messages
  {
    var convs := Conversations(msgs, viewer);
    ConversationsAggregate(msgs, viewer);
    forall i | 0 <= i < |convs|
      ensures m !in convs[i].messages
    {
      if m in convs[i].messages {
        MemberBelongs(convs[i], msgs, viewer, m);
      }
    }
  }

  /** Two messages share a conversation exactly when their property keys and
      their counterparts' ids agree (for property ids without underscores). */
  lemma SameConversationIff(msgs: seq<Message>, viewer: string, a: Message, b: Message)
    requires a in msgs && b in msgs
    requires Counterpart(a, viewer).Some? && Counterpart(b, viewer).Some?
    requires '_' !in PropertyKey(a) && '_' !in PropertyKey(b)
    ensures var convs := Conversations(msgs, viewer);
            (exists i :: 0 <= i < |convs| && a in convs[i].messages && b in convs[i].messages)
            <==> PropertyKey(a) == PropertyKey(b) && Counterpart(a, viewer).value.id == Counterpart(b, viewer).value.id
  {
    var convs := Conversations(msgs, viewer);
    var ka :| 0 <= ka < |msgs| && msgs[ka] == a;
    var kb :| 0 <= kb < |msgs| && msgs[kb] == b;
    assert DistinctIds(convs) && Filed(convs, viewer)
        && (exists i :: 0 <= i < |convs| && convs[i].id == KeyOf(a, viewer).value && a in convs[i].messages)
        && (exists j :: 0 <= j < |convs| && convs[j].id == KeyOf(b, viewer).value && b in convs[j].messages) by {
      ConversationsAggregate(msgs, viewer);
      AggregatesFiled(convs, msgs, viewer);
      PlacedUnderKey(convs, msgs, viewer, ka);
      PlacedUnderKey(convs, msgs, viewer, kb);
    }
    var i :| 0 <= i < |convs| && convs[i].id == KeyOf(a, viewer).value && a in convs[i].messages;
    var j :| 0 <= j < |convs| && convs[j].id == KeyOf(b, viewer).value && b in convs[j].messages;
    SharedIff(convs, viewer, a, b, i, j);
  }

  /** Two placed messages share a conversation exactly when their keys agree. */
  lemma SharedIff(convs: seq<Conversation>, viewer: string, a: Message, b: Message, i: nat, j: nat)
    requires DistinctIds(convs) && Filed(convs, viewer)
    requires KeyOf(a, viewer).Some? && KeyOf(b, viewer).Some?
    requires i < |convs| && convs[i].id == KeyOf(a, viewer).value && a in convs[i].messages
    requires j < |convs| && convs[j].id == KeyOf(b, viewer).value && b in convs[j].messages
    requires '_' !in PropertyKey(a) && '_' !in PropertyKey(b)
    ensures (exists c :: 0 <= c < |convs| && a in convs[c].messages && b in convs[c].messages)
            <==> PropertyKey(a) == PropertyKey(b) && Counterpart(a, viewer).value.id == Counterpart(b, viewer).value.id
  {
    ConversationIdInjective(PropertyKey(a), Counterpart(a, viewer).value.id, PropertyKey(b), Counterpart(b, viewer).value.id);
    IdUnique(convs, i, j);
    if exists c :: 0 <= c < |convs| && a in convs[c].messages && b in convs[c].messages {
      var c :| 0 <= c < |convs| && a in convs[c].messages && b in convs[c].messages;
      assert BelongsTo(a, viewer, convs[c].id) && BelongsTo(b, viewer, convs[c].id);
    }
    if KeyOf(a, viewer) == KeyOf(b, viewer) {
      assert a in convs[i].messages && b in convs[i].messages;
    }
  }

  /** The latest time of a conversation depends only on which messages it holds. */
  lemma MaxTimePermutation(a: seq<Message>, b: seq<Message>)
    requires |a| > 0 && multiset(a) == multiset(b)
    ensures |b| > 0 && MaxTime(a) == MaxTime(b)
  {
    assert a[0] in multiset(b);
    var i :| 0 <= i < |a| && a[i].createdAt == MaxTime(a);
    var j :| 0 <= j < |b| && b[j].createdAt == MaxTime(b);
    assert a[i] in multiset(b) && b[j] in multiset(a);
  }

  /** Two summaries under one id, of two reorderings of the same messages,
      hold the same messages up to order and the same last activity. */
  lemma SummariesAgree(c: Conversation, c': Conversation, msgs: seq<Message>, msgs': seq<Message>, viewer: string)
    requires multiset(msgs) == multiset(msgs')
    requires Summarises(c, msgs, viewer) && Summarises(c', msgs', viewer)
    requires c.id == c'.id
    ensures c'.lastMessageAt == c.lastMessageAt && multiset(c'.messages) == multiset(c.messages)
  {
    FilterPermutation(msgs, msgs', m => BelongsTo(m, viewer, c.id));
    MaxTimePermutation(c.messages, c'.messages);
  }

  /** A conversation built from `msgs` has a counterpart, with the same
      messages up to order and the same last activity, among the
      conversations built from any reordering of `msgs`. */
  lemma ReorderedHasMatch(msgs: seq<Message>, msgs': seq<Message>, viewer: string, c: Conversation)
    requires multiset(msgs) == multiset(msgs')
    requires c in Conversations(msgs, viewer)
    ensures exists c' :: c' in Conversations(msgs', viewer) && c'.id == c.id
              && c'.lastMessageAt == c.lastMessageAt && multiset(c'.messages) == multiset(c.messages)
  {
    var convs, convs' := Conversations(msgs, viewer), Conversations(msgs', viewer);
    ConversationsAggregate(msgs, viewer);
    ConversationsAggregate(msgs', viewer);
    assert Summarises(c, msgs, viewer);
    var m := c.messages[0];
    MemberBelongs(c, msgs, viewer, m);
    assert m in multiset(msgs');
    var k :| 0 <= k < |msgs'| && msgs'[k] == m;
    assert HasId(convs', c.id);
    var j :| 0 <= j < |convs'| && convs'[j].id == c.id;
    SummariesAgree(c, convs'[j], msgs, msgs', viewer);
  }

  /** Grouping ignores the order of its input: a reordered list yields the
      same conversation ids, each with the same messages up to order and the
      same last activity. */
  lemma OrderIndependent(msgs: seq<Message>, msgs': seq<Message>, viewer: string)
    requires multiset(msgs) == multiset(msgs')
    ensures forall c :: c in Conversations(msgs, viewer) ==>
              exists c' :: c' in Conversations(msgs', viewer) && c'.id == c.id
                && c'.lastMessageAt == c.lastMessageAt && multiset(c'.messages) == multiset(c.messages)
    ensures forall c' :: c' in Conversations(msgs', viewer) ==>
              exists c :: c in Conversations(msgs, viewer) && c.id == c'.id
                && c.lastMessageAt == c'.lastMessageAt && multiset(c.messages) == multiset(c'.messages)
  {
    forall c | c in Conversations(msgs, viewer)
      ensures exists c' :: c' in Conversations(msgs', viewer) && c'.id == c.id
                && c'.lastMessageAt == c.lastMessageAt && multiset(c'.messages) == multiset(c.messages)
    {
      ReorderedHasMatch(msgs, msgs', viewer, c);
    }
    forall c' | c' in Conversations(msgs', viewer)
      ensures exists c :: c in Conversations(msgs, viewer) && c.id == c'.id
                && c.lastMessageAt == c'.lastMessageAt && multiset(c.messages) == multiset(c'.messages)
    {
      ReorderedHasMatch(msgs', msgs, viewer, c');
    }
  }

  //
  // The initially active conversation and the active thread.
  //

  /** `conversations.find((c) => c.id === activeConversationId)`; a null id
      matches nothing. */
  function FindConversation(convs: seq<Conversation>, active: Option<string>): (r: Option<Conversation>)
    ensures r.Some? ==> r.value in convs && active == Some(r.value.id)
    ensures r.None? ==> active.None? || !HasId(convs, active.value)
  {
    match active
    case None => None
    case Some(id) =>
      var i := IndexOf(convs, id);
      if i < |convs| then Some(convs[i]) else None
  }

  /** The id first made active: that of the head of the list, or null. */
  function InitialActiveId(convs: seq<Conversation>): (r: Option<string>)
    ensures r.None? <==> |convs| == 0
    ensures r.Some? ==> HasId(convs, r.value)
    ensures |convs| > 0 ==> r == Some(convs[0].id)
  {
    if |convs| > 0 then Some(convs[0].id) else None
  }

  /** Initially some conversation is active exactly when some message has a
      counterpart, and it is one whose last activity is at least as late as
      every message that was filed at all. */
  lemma InitialActiveIsNewest(msgs: seq<Message>, viewer: string)
    ensures var convs := Conversations(msgs, viewer);
            var c := FindConversation(convs, InitialActiveId(convs));
            && (c.None? <==> forall k :: 0 <= k < |msgs| ==> Counterpart(msgs[k], viewer).None?)
            && (c.Some? ==> forall k :: 0 <= k < |msgs| && Counterpart(msgs[k], viewer).Some? ==> msgs[k].createdAt <= c.value.lastMessageAt)
  {
    var convs := Conversations(msgs, viewer);
    ConversationsAggregate(msgs, viewer);
    if |convs| > 0 {
      var c := FindConversation(convs, InitialActiveId(convs));
      assert c == Some(convs[0]);
      assert Summarises(convs[0], msgs, viewer);
      MemberBelongs(convs[0], msgs, viewer, convs[0].messages[0]);
      forall k | 0 <= k < |msgs| && Counterpart(msgs[k], viewer).Some?
        ensures msgs[k].createdAt <= convs[0].lastMessageAt
      {
        EveryMessagePlaced(msgs, viewer, k);
        var i :| 0 <= i < |convs| && msgs[k] in convs[i].messages;
        assert Summarises(convs[i], msgs, viewer);
      }
    } else {
      forall k | 0 <= k < |msgs|
        ensures Counterpart(msgs[k], viewer).None?
      {
      }
    }
  }

  /** The key the active-thread filter compares with the active id. It is
      `KeyOf` except that a missing counterpart prints as `undefined` in the
      template literal instead of dropping the message. */
  function DisplayKey(m: Message, viewer: string): string {
    ConversationId(PropertyKey(m), match Counterpart(m, viewer) case Some(u) => u.id case None => "undefined")
  }

  /** The local messages the active-thread filter keeps for `id`, in order. */
  function Shown(local: seq<Message>, viewer: string, id: string): seq<Message> {
    Filter(local, m => DisplayKey(m, viewer) == id)
  }

  /** Sorting oldest first is sorting newest first by the negated time. */
  function Age(m: Message): int {
    -m.createdAt
  }

  /** The messages of the active thread: the local messages under the active
      id, oldest first; nothing when no conversation has the active id. */
  function ActiveMessages(convs: seq<Conversation>, active: Option<string>, local: seq<Message>, viewer: string): (r: seq<Message>)
    ensures FindConversation(convs, active).None? ==> r == []
    ensures FindConversation(convs, active).Some? ==> multiset(r) == multiset(Shown(local, viewer, active.value))
    ensures forall i, j :: 0 <= i < j < |r| ==> r[i].createdAt <= r[j].createdAt
  {
    match FindConversation(convs, active)
    case None => []
    case Some(c) =>
      var r := SortDesc(Shown(local, viewer, c.id), Age);
      assert forall i, j :: 0 <= i < j < |r| ==> Age(r[i]) >= Age(r[j]);
      r
  }

  /** Conversations whose last activity ties keep the order in which
      grouping first met them. */
  lemma ConversationTiesKeepOrder(msgs: seq<Message>, viewer: string, t: int)
    ensures Ties(Conversations(msgs, viewer), LastActivity, t) == Ties(Group(msgs, viewer), LastActivity, t)
  {
    SortStable(Group(msgs, viewer), LastActivity, t);
  }

  /** Messages of the thread sent at the same moment (so sharing the sort
      key `k`, the negated time) keep their order in the local list. */
  lemma ThreadTiesKeepOrder(convs: seq<Conversation>, active: Option<string>, local: seq<Message>, viewer: string, k: int)
    requires FindConversation(convs, active).Some?
    ensures Ties(ActiveMessages(convs, active, local, viewer), Age, k) == Ties(Shown(local, viewer, active.value), Age, k)
  {
    SortStable(Shown(local, viewer, active.value), Age, k);
    ActiveIsSorted(convs, active, local, viewer);
  }

  /** An open thread is the shown messages put in order of age. */
  lemma ActiveIsSorted(convs: seq<Conversation>, active: Option<string>, local: seq<Message>, viewer: string)
    requires FindConversation(convs, active).Some?
    ensures ActiveMessages(convs, active, local, viewer) == SortDesc(Shown(local, viewer, active.value), Age)
  {
  }

  /** Under property keys without underscores, the display key of a message
      equals the id of a conversation whose counterpart id is not
      `undefined` exactly when the message is filed under that id. */
  lemma DisplayKeyAgrees(m: Message, viewer: string, c: Conversation, pk: string)
    requires c.id == ConversationId(pk, c.otherUser.id)
    requires '_' !in pk && '_' !in PropertyKey(m)
    requires c.otherUser.id != "undefined"
    ensures DisplayKey(m, viewer) == c.id <==> BelongsTo(m, viewer, c.id)
  {
    var u := match Counterpart(m, viewer) case Some(u) => u.id case None => "undefined";
    ConversationIdInjective(PropertyKey(m), u, pk, c.otherUser.id);
  }

  /** Before any reply is sent the active thread shows exactly the messages
      of the active conversation, provided no property id holds an underscore
      and no counterpart id is the text `undefined`. */
  lemma ActiveThreadIsConversation(msgs: seq<Message>, viewer: string, active: Option<string>)
    requires forall k :: 0 <= k < |msgs| ==> '_' !in PropertyKey(msgs[k])
    requires FindConversation(Conversations(msgs, viewer), active).Some?
    requires FindConversation(Conversations(msgs, viewer), active).value.otherUser.id != "undefined"
    ensures var convs := Conversations(msgs, viewer);
            multiset(ActiveMessages(convs, active, msgs, viewer))
              == multiset(FindConversation(convs, active).value.messages)
  {
    var convs := Conversations(msgs, viewer);
    var c := FindConversation(convs, active).value;
    ConversationsAggregate(msgs, viewer);
    assert Summarises(c, msgs, viewer);
    var m0 := c.messages[0];
    MemberBelongs(c, msgs, viewer, m0);
    var pk := PropertyKey(m0);
    forall k | 0 <= k < |msgs|
      ensures (DisplayKey(msgs[k], viewer) == c.id) == BelongsTo(msgs[k], viewer, c.id)
    {
      DisplayKeyAgrees(msgs[k], viewer, c, pk);
    }
    FilterAgree(msgs, m => DisplayKey(m, viewer) == c.id, m => BelongsTo(m, viewer, c.id));
  }

  /** A message appended to the local list joins the active thread exactly
      when its display key is the active id. */
  lemma AppendedJoinsThread(convs: seq<Conversation>, active: Option<string>, local: seq<Message>, row: Message, viewer: string)
    requires FindConversation(convs, active).Some?
    ensures multiset(ActiveMessages(convs, active, local + [row], viewer))
         == multiset(ActiveMessages(convs, active, local, viewer))
            + (if DisplayKey(row, viewer) == active.value then multiset{row} else multiset{})
  {
    FilterConcat(local, [row], m => DisplayKey(m, viewer) == active.value);
  }

  /** The thread preview: the newest message, picked by sorting newest first. */
  function Preview(c: Conversation): (r: Option<Message>)
    ensures r.None? <==> |c.messages| == 0
    ensures r.Some? ==> r.value in c.messages && r.value.createdAt == MaxTime(c.messages)
  {
    if |c.messages| == 0 then None
    else
      SortedHeadIsLatest(c.messages);
      Some(SortDesc(c.messages, CreatedAt)[0])
  }

  function CreatedAt(m: Message): int {
    m.createdAt
  }

  /** The in-place sort is stable, so of the messages sent at the latest
      moment the preview is the one that comes first in the conversation. */
  lemma PreviewIsFirstLatest(c: Conversation)
    ensures |c.messages| > 0 ==>
              var ties := Ties(c.messages, CreatedAt, MaxTime(c.messages));
              |ties| > 0 && Preview(c) == Some(ties[0])
  {
    var ms := c.messages;
    if |ms| > 0 {
      var m := MaxTime(ms);
      var sorted := SortDesc(ms, CreatedAt);
      SortedHeadIsLatest(ms);
      SortStable(ms, CreatedAt, m);
      assert sorted == [sorted[0]] + sorted[1..];
      assert Ties(sorted, CreatedAt, m) == [sorted[0]] + Ties(sorted[1..], CreatedAt, m);
    }
  }

  /** A listed conversation summarises the messages, and its id is made of
      the property key of its first message and its counterpart's id. */
  lemma Listed(msgs: seq<Message>, viewer: string, c: Conversation)
    requires c in Conversations(msgs, viewer)
    ensures Summarises(c, msgs, viewer)
    ensures c.messages[0] in msgs
    ensures c.id == ConversationId(PropertyKey(c.messages[0]), c.otherUser.id)
  {
    ConversationsAggregate(msgs, viewer);
    var i :| 0 <= i < |Conversations(msgs, viewer)| && Conversations(msgs, viewer)[i] == c;
    MemberBelongs(c, msgs, viewer, c.messages[0]);
  }

  /** Sorting newest first puts a message of the latest time at the head. */
  lemma SortedHeadIsLatest(ms: seq<Message>)
    requires |ms| > 0
    ensures SortDesc(ms, CreatedAt)[0] in ms
    ensures SortDesc(ms, CreatedAt)[0].createdAt == MaxTime(ms)
  {
    var r := SortDesc(ms, CreatedAt);
    assert r[0] in multiset(ms);
    var j :| 0 <= j < |ms| && ms[j].createdAt == MaxTime(ms);
    assert ms[j] in multiset(r);
    var k :| 0 <= k < |r| && r[k] == ms[j];
    assert CreatedAt(r[0]) >= CreatedAt(r[k]);
  }

  /** The preview of a listed conversation is one of its messages and carries
      its last activity time. */
  lemma PreviewIsLatest(msgs: seq<Message>, viewer: string, c: Conversation)
    requires c in Conversations(msgs, viewer)
    ensures Preview(c).Some?
    ensures Preview(c).value in c.messages && Preview(c).value.createdAt == c.lastMessageAt
  {
    Listed(msgs, viewer, c);
    SortedHeadIsLatest(c.messages);
  }

  //
  // The composer.
  //

  datatype InboxState = InboxState(
    activeId: Option<string>,
    replyText: string,
    isSending: bool,
    localMessages: seq<Message>)

  /** The component's first render. The local copy is taken from the initial
      messages once and never refreshed from later props. */
  function InitialState(initial: seq<Message>, viewer: string): (s: InboxState)
    ensures s.localMessages == initial && s.replyText == "" && !s.isSending
    ensures s.activeId.None? <==> Conversations(initial, viewer) == []
    ensures Conversations(initial, viewer) != [] ==> s.activeId == Some(Conversations(initial, viewer)[0].id)
  {
    InboxState(InitialActiveId(Conversations(initial, viewer)), "", false, initial)
  }

  /** Clicking a conversation in the sidebar. */
  function Select(s: InboxState, id: string): (r: InboxState)
    ensures r.activeId == Some(id)
    ensures r.(activeId := s.activeId) == s
  {
    s.(activeId := Some(id))
  }

  /** `property?.id || null`. */
  function PropertyIdOf(p: Option<PropertySummary>): (r: Option<string>)
    ensures r.Some? <==> p.Some? && p.value.id != ""
    ensures r.Some? ==> r.value == p.value.id
  {
    match p
    case Some(q) => if q.id != "" then Some(q.id) else None
    case None => None
  }

  /** The key a joined property summary stands for: its id, or the sentinel
      when there is none or it is empty. */
  function SummaryKey(p: Option<PropertySummary>): string {
    match PropertyIdOf(p)
    case Some(id) => id
    case None => NoProperty
  }

  /** The joined property row of a message is the one its property id names. */
  predicate JoinAgrees(m: Message) {
    SummaryKey(m.property) == PropertyKey(m)
  }

  /** Pressing Send. A blank reply or a missing active conversation does
      nothing. Otherwise the composer is marked busy before the receiver is
      checked, so an empty receiver id leaves it busy without sending. */
  function BeginSend(s: InboxState, convs: seq<Conversation>, viewer: string): (r: Started<InboxState, MessageInsert>)
    ensures IsBlank(s.replyText) || FindConversation(convs, s.activeId).None? ==> r == Started(s, None)
    ensures !IsBlank(s.replyText) && FindConversation(convs, s.activeId).Some? ==> r.next == s.(isSending := true)
    ensures r.request.Some? <==>
              !IsBlank(s.replyText) && FindConversation(convs, s.activeId).Some?
              && FindConversation(convs, s.activeId).value.otherUser.id != ""
    ensures r.request.Some? ==>
              var c := FindConversation(convs, s.activeId).value;
              r.request.value == MessageInsert(viewer, c.otherUser.id, PropertyIdOf(c.property), s.replyText, None)
  {
    match FindConversation(convs, s.activeId)
    case None => Started(s, None)
    case Some(c) =>
      if IsBlank(s.replyText) then Started(s, None)
      else
        var next := s.(isSending := true);
        if c.otherUser.id == "" then Started(next, None)
        else Started(next, Some(MessageInsert(viewer, c.otherUser.id, PropertyIdOf(c.property), s.replyText, None)))
  }

  /** The outcome of the insert: the returned row is appended and the reply
      cleared on success; the reply is kept on failure; either way the
      composer is no longer busy. */
  function FinishSend(s: InboxState, outcome: InsertOutcome<Message>): (r: InboxState)
    ensures !r.isSending && r.activeId == s.activeId
    ensures outcome.Inserted? ==> r.localMessages == s.localMessages + [outcome.row] && r.replyText == ""
    ensures outcome.InsertFailed? ==> r.localMessages == s.localMessages && r.replyText == s.replyText
  {
    match outcome
    case Inserted(row) => s.(localMessages := s.localMessages + [row], replyText := "", isSending := false)
    case InsertFailed => s.(isSending := false)
  }

  /** `disabled={isSending || !replyText.trim()}`, negated. */
  predicate SendEnabled(s: InboxState) {
    !s.isSending && !IsBlank(s.replyText)
  }

  /** A successful send grows the local list by exactly the returned row and
      leaves the composer empty and idle. */
  lemma SendThenSucceed(s: InboxState, convs: seq<Conversation>, viewer: string, row: Message)
    requires BeginSend(s, convs, viewer).request.Some?
    ensures var r := FinishSend(BeginSend(s, convs, viewer).next, Inserted(row));
            && |r.localMessages| == |s.localMessages| + 1
            && r.localMessages[..|s.localMessages|] == s.localMessages
            && r.localMessages[|s.localMessages|] == row
            && r.replyText == "" && !SendEnabled(r)
  {
    var r := FinishSend(BeginSend(s, convs, viewer).next, Inserted(row));
    assert r.localMessages[..|s.localMessages|] == s.localMessages;
  }

  /** A failed send comes back to the state before it, with the reply kept. */
  lemma SendThenFail(s: InboxState, convs: seq<Conversation>, viewer: string)
    requires !s.isSending
    ensures FinishSend(BeginSend(s, convs, viewer).next, InsertFailed) == s
  {
  }

  /** An empty receiver id leaves the composer busy with no insert to finish
      it, so the Send button stays disabled. */
  lemma EmptyReceiverStaysBusy(s: InboxState, convs: seq<Conversation>, viewer: string)
    requires !IsBlank(s.replyText)
    requires FindConversation(convs, s.activeId).Some?
    requires FindConversation(convs, s.activeId).value.otherUser.id == ""
    ensures BeginSend(s, convs, viewer).request.None?
    ensures BeginSend(s, convs, viewer).next.isSending
    ensures !SendEnabled(BeginSend(s, convs, viewer).next)
  {
  }

  /** When every message's joined property row is the one its property id
      names, and the database returns the inserted row with the viewer as
      sender and the receiver's profile, the sent reply shows in the active
      thread. */
  lemma SentReplyJoinsThread(msgs: seq<Message>, s: InboxState, viewer: string, row: Message)
    requires forall k :: 0 <= k < |msgs| ==> JoinAgrees(msgs[k])
    requires BeginSend(s, Conversations(msgs, viewer), viewer).request.Some?
    requires var ins := BeginSend(s, Conversations(msgs, viewer), viewer).request.value;
             && row.senderId == viewer && row.propertyId == ins.propertyId
             && row.receiver.Some? && row.receiver.value.id == ins.receiverId
    ensures var convs := Conversations(msgs, viewer);
            var r := FinishSend(BeginSend(s, convs, viewer).next, Inserted(row));
            multiset(ActiveMessages(convs, r.activeId, r.localMessages, viewer))
              == multiset(ActiveMessages(convs, s.activeId, s.localMessages, viewer)) + multiset{row}
  {
    var convs := Conversations(msgs, viewer);
    var c := FindConversation(convs, s.activeId).value;
    var ins := BeginSend(s, convs, viewer).request.value;
    assert ins.receiverId == c.otherUser.id && ins.propertyId == PropertyIdOf(c.property);
    Listed(msgs, viewer, c);
    assert JoinAgrees(c.messages[0]);
    ReplyKeyMatches(c, PropertyKey(c.messages[0]), viewer, row);
    AppendedJoinsThread(convs, s.activeId, s.localMessages, row, viewer);
  }

  lemma ReplyKeyMatches(c: Conversation, pk: string, viewer: string, row: Message)
    requires c.id == ConversationId(pk, c.otherUser.id)
    requires pk == SummaryKey(c.property)
    requires row.senderId == viewer && row.propertyId == PropertyIdOf(c.property)
    requires row.receiver.Some? && row.receiver.value.id == c.otherUser.id
    ensures DisplayKey(row, viewer) == c.id
  {
  }

  //
  // The Enter key.
  //

  /** `onKeyDown` of the reply box as written: Enter without Shift calls the
      send handler whatever the busy flag says. */
  function KeyDown(s: InboxState, convs: seq<Conversation>, viewer: string, key: string, shift: bool): (r: Started<InboxState, MessageInsert>)
    ensures key != "Enter" || shift ==> r == Started(s, None)
    ensures key == "Enter" && !shift ==> r == BeginSend(s, convs, viewer)
  {
    if key == "Enter" && !shift then BeginSend(s, convs, viewer) else Started(s, None)
  }

  /** While a send is in flight, Enter starts a second insert of the same
      reply, although the Send button is disabled. */
  lemma EnterSendsWhileSending(s: InboxState, convs: seq<Conversation>, viewer: string)
    requires s.isSending && !IsBlank(s.replyText)
    requires FindConversation(convs, s.activeId).Some?
    requires FindConversation(convs, s.activeId).value.otherUser.id != ""
    ensures !SendEnabled(s)
    ensures KeyDown(s, convs, viewer, "Enter", false).request.Some?
    ensures KeyDown(s, convs, viewer, "Enter", false).request.value.content == s.replyText
  {
  }

  /** The Enter key guarded like the Send button. */
  function KeyDownGuarded(s: InboxState, convs: seq<Conversation>, viewer: string, key: string, shift: bool): (r: Started<InboxState, MessageInsert>)
    ensures r.request.Some? ==> SendEnabled(s) && r.next.isSending
  {
    if key == "Enter" && !shift && SendEnabled(s) then BeginSend(s, convs, viewer) else Started(s, None)
  }

  /** The guarded Enter key inserts exactly when the Send button would: the
      button is enabled and clicking it would insert. */
  lemma GuardedEnterMatchesButton(s: InboxState, convs: seq<Conversation>, viewer: string)
    ensures KeyDownGuarded(s, convs, viewer, "Enter", false).request.Some?
        <==> SendEnabled(s) && BeginSend(s, convs, viewer).request.Some?
    ensures s.isSending ==> KeyDownGuarded(s, convs, viewer, "Enter", false) == Started(s, None)
  {
  }
}

=== FILE: landlord_dashboard.dfy ===
/** A landlord's own listings (`LandlordDashboard`): the three counters and
    one row per property with its status pill and its two links. */
module LandlordDashboard {
  import opened Seqs
  import PropertyDetails
  import PropertyListings

  datatype Owned = Owned(id: string, title: string, price: int, status: string, address: string, createdAt: int)

  datatype StatusConfig = StatusConfig(caption: string, dot: string, pill: string)

  /** `getStatusConfig`: the three statuses have their own pill; any other
      value is shown as it is, on a muted pill. */
  function StatusConfigOf(status: string): (r: StatusConfig)
    ensures !PropertyDetails.KnownStatus(status) ==> r.caption == status
    ensures PropertyDetails.KnownStatus(status) ==> r.caption == PropertyListings.StatusOf(status).caption
  {
    match status
    case "available" => StatusConfig("Available", "bg-emerald-500", "bg-emerald-50 text-emerald-700 dark:bg-emerald-950/40 dark:text-emerald-400")
    case "reserved" => StatusConfig("Reserved", "bg-amber-500", "bg-amber-50 text-amber-700 dark:bg-amber-950/40 dark:text-amber-400")
    case "taken" => StatusConfig("Taken", "bg-red-500", "bg-red-50 text-red-700 dark:bg-red-950/40 dark:text-red-400")
    case _ => StatusConfig(status, "bg-muted", "bg-muted text-muted-foreground")
  }

  /** The dashboard and the search sidebar draw a known status identically;
      for an unknown one the sidebar claims "Available" and the dashboard
      shows the raw value. */
  lemma DashboardMatchesSidebar(status: string)
    ensures PropertyDetails.KnownStatus(status) ==>
              var d := StatusConfigOf(status);
              var l := PropertyListings.StatusOf(status);
              d.caption == l.caption && d.dot == l.dot && d.pill == l.pill
    ensures status != "Available" && !PropertyDetails.KnownStatus(status) ==>
              StatusConfigOf(status).caption != PropertyListings.StatusOf(status).caption
  {
  }

  function IsAvailable(p: Owned): bool {
    p.status == "available"
  }

  function NotAvailable(p: Owned): bool {
    p.status != "available"
  }

  datatype Stats = Stats(total: nat, available: nat, occupied: int)

  /** The counters: all listings, the available ones, and the difference. */
  function StatsOf(props: seq<Owned>): (r: Stats)
    ensures r.total == |props| && r.available <= r.total
    ensures r.available == 0 <==> forall i :: 0 <= i < |props| ==> props[i].status != "available"
    ensures r.available == r.total <==> forall i :: 0 <= i < |props| ==> props[i].status == "available"
  {
    var available := Count(props, IsAvailable);
    Stats(|props|, available, |props| - available)
  }

  /** "Occupied" counts exactly the listings that are not available, so it
      is never negative and the two counters add up to the total. */
  lemma OccupiedCountsTheRest(props: seq<Owned>)
    ensures StatsOf(props).occupied == Count(props, NotAvailable)
    ensures StatsOf(props).available + StatsOf(props).occupied == StatsOf(props).total
    ensures StatsOf(props).occupied >= 0
  {
    CountComplement(props, IsAvailable, NotAvailable);
  }

  /** Adding a listing raises the total by one and exactly one of the other
      two counters by one. */
  lemma AddListing(props: seq<Owned>, p: Owned)
    ensures StatsOf(props + [p]).total == StatsOf(props).total + 1
    ensures StatsOf(props + [p]).available == StatsOf(props).available + (if IsAvailable(p) then 1 else 0)
    ensures StatsOf(props + [p]).occupied == StatsOf(props).occupied + (if IsAvailable(p) then 0 else 1)
  {
    CountConcat(props, [p], IsAvailable);
  }

  /** `/landlord/properties/${id}/messages` and `…/edit`. */
  function MessagesLink(id: string): string {
    "/landlord/properties/" + id + "/messages"
  }

  function EditLink(id: string): string {
    "/landlord/properties/" + id + "/edit"
  }

  /** Each row's links lead to that row's property and no other. */
  lemma LinksIdentifyProperty(a: string, b: string)
    ensures MessagesLink(a) == MessagesLink(b) <==> a == b
    ensures EditLink(a) == EditLink(b) <==> a == b
  {
    var pre := "/landlord/properties/";
    if MessagesLink(a) == MessagesLink(b) {
      assert |a| == |b|;
      assert a == MessagesLink(a)[|pre|..|pre| + |a|];
      assert b == MessagesLink(b)[|pre|..|pre| + |b|];
    }
    if EditLink(a) == EditLink(b) {
      assert |a| == |b|;
      assert a == EditLink(a)[|pre|..|pre| + |a|];
      assert b == EditLink(b)[|pre|..|pre| + |b|];
    }
  }

  datatype Row = Row(title: string, address: string, status: StatusConfig, messages: string, edit: string)

  datatype DashboardView = NoListings | Rows(rows: seq<Row>)

  function RowOf(p: Owned): Row {
    Row(p.title, p.address, StatusConfigOf(p.status), MessagesLink(p.id), EditLink(p.id))
  }

  /** The list under the counters. The component never replaces the
      properties it was given, so the rows are those of `initial`, in order. */
  function Render(initial: seq<Owned>): (r: DashboardView)
    ensures r.NoListings? <==> |initial| == 0
    ensures r.Rows? ==> |r.rows| == |initial|
    ensures r.Rows? ==> forall i :: 0 <= i < |initial| ==>
              r.rows[i].title == initial[i].title && r.rows[i].edit == EditLink(initial[i].id)
  {
    if |initial| == 0 then NoListings
    else Rows(seq(|initial|, i requires 0 <= i < |initial| => RowOf(initial[i])))
  }

  /** Distinct properties get distinct edit links, so no two rows lead to
      the same form. */
  lemma RowsLeadApart(initial: seq<Owned>, i: nat, j: nat)
    requires i < |initial| && j < |initial| && initial[i].id != initial[j].id
    ensures Render(initial).rows[i].edit != Render(initial).rows[j].edit
  {
    LinksIdentifyProperty(initial[i].id, initial[j].id);
  }
}

=== FILE: map_search.dfy ===
/** The search page (`MapSearch`): the list of available places, the price
    and radius filter panel with its pending and applied values, and the
    map centre, which keeps the first non-zero coordinate it is given. */
module MapSearch {
  import opened Wrappers
  import opened Seqs

  /** A `properties` row as the search reads it. Coordinates and prices are
      exact reals. */
  datatype Place = Place(id: string, price: real, latitude: real, longitude: real)

  datatype Filters = Filters(radius: real, minPrice: real, maxPrice: real)

  /** The values both filter sets start from and are reset to. */
  const Defaults: Filters := Filters(5.0, 0.0, 20000.0)

  datatype SearchState = SearchState(
    properties: seq<Place>,
    filtered: seq<Place>,
    loading: bool,
    filterOpen: bool,
    applied: Filters,
    pending: Filters,
    centerLat: real,
    centerLng: real,
    usingGeolocation: bool)

  const Initial: SearchState := SearchState([], [], true, false, Defaults, Defaults, 0.0, 0.0, false)

  /** How many applied values differ from their defaults. */
  function ActiveFilterCount(f: Filters): (n: nat)
    ensures n <= 3
    ensures n == 0 <==> f == Defaults
  {
    (if f.radius != 5.0 then 1 else 0)
    + (if f.minPrice != 0.0 then 1 else 0)
    + (if f.maxPrice != 20000.0 then 1 else 0)
  }

  /** The price test of `applyFilters`; the radius plays no part in it. */
  predicate InPriceRange(p: Place, f: Filters) {
    p.price >= f.minPrice && p.price <= f.maxPrice
  }

  function PriceTest(f: Filters): Place -> bool {
    p => InPriceRange(p, f)
  }

  /** Apply: the pending values become the applied ones, the list is cut
      down to the places priced within the pending range, and the panel
      closes. */
  function ApplyFilters(s: SearchState): (r: SearchState)
    ensures r.applied == s.pending && r.pending == s.pending && !r.filterOpen
    ensures r.properties == s.properties
    ensures forall i :: 0 <= i < |r.filtered| ==> r.filtered[i] in s.properties && InPriceRange(r.filtered[i], s.pending)
    ensures forall i :: 0 <= i < |s.properties| && InPriceRange(s.properties[i], s.pending) ==> s.properties[i] in r.filtered
  {
    s.(applied := s.pending,
       filtered := Filter(s.properties, PriceTest(s.pending)),
       filterOpen := false)
  }

  /** Every place appears in the filtered list exactly as often as in the
      full list when it is priced in range, and not at all otherwise. */
  lemma ApplyKeepsExactlyInRange(s: SearchState, p: Place)
    ensures multiset(ApplyFilters(s).filtered)[p] == if InPriceRange(p, s.pending) then multiset(s.properties)[p] else 0
  {
    FilterMultiset(s.properties, PriceTest(s.pending), p);
  }

  /** The filtered list keeps the full list's order: the places of a
      concatenation are those of the first part followed by those of the
      second, and a single place is kept exactly when it is priced in range.
      Together these fix the filtered list for any list of places. */
  lemma ApplyKeepsOrder(s: SearchState, a: seq<Place>, b: seq<Place>, p: Place)
    ensures ApplyFilters(s.(properties := a + b)).filtered
            == ApplyFilters(s.(properties := a)).filtered + ApplyFilters(s.(properties := b)).filtered
    ensures ApplyFilters(s.(properties := [p])).filtered == if InPriceRange(p, s.pending) then [p] else []
  {
    FilterConcat(a, b, PriceTest(s.pending));
    assert [p][1..] == [];
  }

  /** The pending radius does not change which places are listed. */
  lemma RadiusIgnored(s: SearchState, radius: real)
    ensures ApplyFilters(s.(pending := s.pending.(radius := radius))).filtered == ApplyFilters(s).filtered
  {
    FilterAgree(s.properties, PriceTest(s.pending.(radius := radius)), PriceTest(s.pending));
  }

  /** A minimum above the maximum lists nothing. */
  lemma InvertedRangeIsEmpty(s: SearchState)
    requires s.pending.minPrice > s.pending.maxPrice
    ensures ApplyFilters(s).filtered == []
  {
    FilterNone(s.properties, PriceTest(s.pending));
  }

  /** Reset: both filter sets go back to the defaults, every place is
      listed, and the panel closes. */
  function ResetFilters(s: SearchState): (r: SearchState)
    ensures r.pending == Defaults && r.applied == Defaults && ActiveFilterCount(r.applied) == 0
    ensures r.filtered == s.properties && r.properties == s.properties && !r.filterOpen
  {
    s.(pending := Defaults, applied := Defaults, filtered := s.properties, filterOpen := false)
  }

  /** Open: the panel starts from the applied values. */
  function OpenFilter(s: SearchState): (r: SearchState)
    ensures r.pending == s.applied && r.filterOpen
    ensures r.(pending := s.pending, filterOpen := s.filterOpen) == s
  {
    s.(pending := s.applied, filterOpen := true)
  }

  /** The filter icon: closes an open panel as it is, opens a closed one. */
  function FilterButton(s: SearchState): (r: SearchState)
    ensures r.filterOpen != s.filterOpen
    ensures s.filterOpen ==> r == s.(filterOpen := false)
    ensures !s.filterOpen ==> r == OpenFilter(s)
  {
    if s.filterOpen then s.(filterOpen := false) else OpenFilter(s)
  }

  /** Opening right after applying shows the values just applied, so the
      pending values do not move; applying again changes nothing but
      closing. */
  lemma OpenAfterApply(s: SearchState)
    ensures OpenFilter(ApplyFilters(s)).pending == s.pending
    ensures ApplyFilters(OpenFilter(ApplyFilters(s))) == ApplyFilters(s)
  {
  }

  /** The `prev === 0 ? next : prev` update of a map coordinate. */
  function KeepFirstNonZero(prev: real, next: real): (r: real)
    ensures prev != 0.0 ==> r == prev
    ensures prev == 0.0 ==> r == next
  {
    if prev == 0.0 then next else prev
  }

  /** The browser reported a position. */
  function PositionFound(s: SearchState, lat: real, lng: real): (r: SearchState)
    ensures r.usingGeolocation
    ensures r.centerLat == KeepFirstNonZero(s.centerLat, lat) && r.centerLng == KeepFirstNonZero(s.centerLng, lng)
  {
    s.(centerLat := KeepFirstNonZero(s.centerLat, lat),
       centerLng := KeepFirstNonZero(s.centerLng, lng),
       usingGeolocation := true)
  }

  /** What the places query produced: rows (possibly null) or an error. */
  datatype PlacesOutcome = Loaded(data: Option<seq<Place>>) | LoadFailed

  /** The places query has settled. Rows replace both lists, null counting
      as none, and the first row offers its coordinates to the centre. An
      error changes nothing but the loading flag. */
  function PlacesSettled(s: SearchState, outcome: PlacesOutcome): (r: SearchState)
    ensures !r.loading && r.applied == s.applied && r.pending == s.pending && r.filterOpen == s.filterOpen
    ensures r.usingGeolocation == s.usingGeolocation
    ensures outcome.LoadFailed? ==> r == s.(loading := false)
    ensures outcome.Loaded? ==> r.properties == outcome.data.GetOr([]) && r.filtered == r.properties
    ensures outcome.Loaded? && |outcome.data.GetOr([])| > 0 ==>
              r.centerLat == KeepFirstNonZero(s.centerLat, outcome.data.value[0].latitude)
              && r.centerLng == KeepFirstNonZero(s.centerLng, outcome.data.value[0].longitude)
    ensures outcome.Loaded? && |outcome.data.GetOr([])| == 0 ==>
              r.centerLat == s.centerLat && r.centerLng == s.centerLng
  {
    match outcome
    case LoadFailed => s.(loading := false)
    case Loaded(data) =>
      var rows := data.GetOr([]);
      var s' := s.(properties := rows, filtered := rows, loading := false);
      if |rows| > 0 then
        s'.(centerLat := KeepFirstNonZero(s.centerLat, rows[0].latitude),
            centerLng := KeepFirstNonZero(s.centerLng, rows[0].longitude))
      else s'
  }

  /** Once a coordinate of the centre is non-zero, neither a position nor a
      load moves it. */
  lemma CentreSticks(s: SearchState, lat: real, lng: real, outcome: PlacesOutcome)
    ensures s.centerLat != 0.0 ==>
              PositionFound(s, lat, lng).centerLat == s.centerLat && PlacesSettled(s, outcome).centerLat == s.centerLat
    ensures s.centerLng != 0.0 ==>
              PositionFound(s, lat, lng).centerLng == s.centerLng && PlacesSettled(s, outcome).centerLng == s.centerLng
  {
  }

  /** The first non-zero offer wins, whichever event brings it: a position
      followed by a load keeps the position's non-zero coordinates. */
  lemma FirstOfferWins(s: SearchState, lat: real, lng: real, data: seq<Place>)
    requires s.centerLat == 0.0 && s.centerLng == 0.0
    requires lat != 0.0 && lng != 0.0
    ensures PlacesSettled(PositionFound(s, lat, lng), Loaded(Some(data))).centerLat == lat
    ensures PlacesSettled(PositionFound(s, lat, lng), Loaded(Some(data))).centerLng == lng
  {
  }
}

=== FILE: message_dialog.dfy ===
/** The "Message Landlord" dialog (`MessageDialog`) of a property page: a
    student writes a message, optionally with a phone number, to the
    property's landlord. */
module MessageDialog {
  import opened Wrappers
  import opened Text
  import opened Messages

  datatype DialogState = DialogState(open: bool, message: string, phone: string, isLoading: bool)

  /** Pressing Send. A blank message does nothing; otherwise the dialog turns
      busy and the message goes, untrimmed, from the user to the landlord
      about the property. The handler itself does not look at the busy flag. */
  function BeginSend(s: DialogState, user: string, landlord: string, property: string): (r: Started<DialogState, MessageInsert>)
    ensures IsBlank(s.message) ==> r == Started(s, None)
    ensures !IsBlank(s.message) ==> r.next == s.(isLoading := true) && r.request.Some?
    ensures r.request.Some? ==>
              && r.request.value.senderId == user && r.request.value.receiverId == landlord
              && r.request.value.propertyId == Some(property) && r.request.value.content == s.message
              && r.request.value.phoneNumber == NullIfEmpty(s.phone)
  {
    if IsBlank(s.message) then Started(s, None)
    else Started(s.(isLoading := true), Some(MessageInsert(user, landlord, Some(property), s.message, NullIfEmpty(s.phone))))
  }

  /** The insert has settled: on success the fields are cleared and the
      dialog closes; on failure both fields are kept and it stays open; the
      busy flag drops either way. */
  function FinishSend(s: DialogState, ok: bool): (r: DialogState)
    ensures !r.isLoading
    ensures ok ==> r.message == "" && r.phone == "" && !r.open
    ensures !ok ==> r == s.(isLoading := false)
  {
    if ok then DialogState(false, "", "", false) else s.(isLoading := false)
  }

  /** `disabled={isLoading || !message.trim()}`, negated. */
  predicate SendEnabled(s: DialogState) {
    !s.isLoading && !IsBlank(s.message)
  }

  /** The button is enabled exactly when not busy and a click would insert. */
  lemma EnabledIffClickSends(s: DialogState, user: string, landlord: string, property: string)
    requires !s.isLoading
    ensures SendEnabled(s) <==> BeginSend(s, user, landlord, property).request.Some?
  {
  }

  /** A failed send returns to the state before it; a successful one leaves
      nothing that could be sent again. */
  lemma SendRoundTrip(s: DialogState, user: string, landlord: string, property: string)
    requires !s.isLoading && SendEnabled(s)
    ensures FinishSend(BeginSend(s, user, landlord, property).next, false) == s
    ensures !SendEnabled(FinishSend(BeginSend(s, user, landlord, property).next, true))
  {
    assert Trim("") == "";
  }
}

=== FILE: messages.dfy ===
/** The rows of the `messages` table as the components read and write them. */
module Messages {
  import opened Wrappers

  /** A `profiles` row joined onto a message as its sender or receiver. */
  datatype Profile = Profile(id: string, fullName: Option<string>, email: string, imageUrl: Option<string>)

  /** A `properties` row joined onto a message. */
  datatype PropertySummary = PropertySummary(id: string, title: string, images: Option<seq<string>>)

  /** A message as read with its joins; `createdAt` is the creation time as an
      instant, which is what every comparison of `created_at` looks at. */
  datatype Message = Message(
    id: string,
    content: string,
    createdAt: int,
    senderId: string,
    receiverId: string,
    propertyId: Option<string>,
    read: bool,
    property: Option<PropertySummary>,
    sender: Option<Profile>,
    receiver: Option<Profile>)

  /** The fields a component hands to the insert; a column it does not send is `None`. */
  datatype MessageInsert = MessageInsert(
    senderId: string,
    receiverId: string,
    propertyId: Option<string>,
    content: string,
    phoneNumber: Option<string>)

  /** The result of awaiting an insert: the stored row or an error. */
  datatype InsertOutcome<T> = Inserted(row: T) | InsertFailed
}

=== FILE: overlay.dfy ===
/** The floating messaging overlay (`MessagingOverlay`): it fetches every
    message of the signed-in user, counts the unread ones, and shows the same
    inbox aggregation in a panel that can be toggled, minimised and closed. */
module Overlay {
  import opened Wrappers
  import opened Seqs
  import opened Messages
  import Inbox

  datatype OverlayState = OverlayState(
    isOpen: bool,
    isMinimized: bool,
    messages: seq<Message>,
    unreadCount: int,
    loading: bool)

  const Initial: OverlayState := OverlayState(false, false, [], 0, false)

  /** A message `user` has received and not yet read. */
  predicate UnreadFor(m: Message, user: string) {
    !m.read && m.receiverId == user
  }

  /** `filter(m => !m.read && m.receiver_id === user.id).length`. */
  function Unread(msgs: seq<Message>, user: string): (n: nat)
    ensures n <= |msgs|
    ensures n == 0 <==> forall i :: 0 <= i < |msgs| ==> !UnreadFor(msgs[i], user)
  {
    Count(msgs, m => UnreadFor(m, user))
  }

  /** Unread counts of two batches add up. */
  lemma UnreadConcat(a: seq<Message>, b: seq<Message>, user: string)
    ensures Unread(a + b, user) == Unread(a, user) + Unread(b, user)
  {
    CountConcat(a, b, m => UnreadFor(m, user));
  }

  /** What awaiting the query produced: the rows (`data`, possibly null) or an error. */
  datatype FetchOutcome = Fetched(data: Option<seq<Message>>) | FetchFailed

  /** `fetchMessages` once its query has settled. Without a user nothing is
      fetched. A result replaces the whole list, null counting as empty, and
      the unread count is taken from it; an error keeps the old list. */
  function FetchDone(s: OverlayState, user: Option<string>, outcome: FetchOutcome): (r: OverlayState)
    ensures user.None? ==> r == s
    ensures user.Some? ==> r.isOpen == s.isOpen && r.isMinimized == s.isMinimized && !r.loading
    ensures user.Some? && outcome.Fetched? ==>
              r.messages == outcome.data.GetOr([]) && r.unreadCount == Unread(r.messages, user.value)
    ensures user.Some? && outcome.FetchFailed? ==> r == s.(loading := false)
  {
    match user
    case None => s
    case Some(u) =>
      match outcome
      case Fetched(data) =>
        var rows := data.GetOr([]);
        s.(messages := rows, unreadCount := Unread(rows, u), loading := false)
      case FetchFailed => s.(loading := false)
  }

  /** The unread figure describes the list on display. */
  predicate CountsAgree(s: OverlayState, user: string) {
    s.unreadCount == Unread(s.messages, user)
  }

  /** A successful fetch forgets whatever was listed before: two states that
      receive the same rows list the same messages with the same count. */
  lemma FetchReplaces(s1: OverlayState, s2: OverlayState, user: string, data: Option<seq<Message>>)
    ensures FetchDone(s1, Some(user), Fetched(data)).messages == FetchDone(s2, Some(user), Fetched(data)).messages
    ensures FetchDone(s1, Some(user), Fetched(data)).unreadCount == FetchDone(s2, Some(user), Fetched(data)).unreadCount
    ensures CountsAgree(FetchDone(s1, Some(user), Fetched(data)), user)
  {
  }

  /** The `toggle-messaging` window event: opens a closed panel and closes an
      open one, always un-minimised. */
  function Toggle(s: OverlayState): (r: OverlayState)
    ensures r.isOpen != s.isOpen && !r.isMinimized
    ensures r.(isOpen := s.isOpen, isMinimized := s.isMinimized) == s
  {
    s.(isOpen := !s.isOpen, isMinimized := false)
  }

  /** The minimise button of the panel header. */
  function MinimiseClicked(s: OverlayState): (r: OverlayState)
    ensures r.isMinimized != s.isMinimized
    ensures r.(isMinimized := s.isMinimized) == s
  {
    s.(isMinimized := !s.isMinimized)
  }

  /** The close button of the panel header. */
  function CloseClicked(s: OverlayState): (r: OverlayState)
    ensures !r.isOpen
    ensures r.(isOpen := s.isOpen) == s
  {
    s.(isOpen := false)
  }

  /** The floating button, which is only on screen while the panel is closed. */
  function LauncherClicked(s: OverlayState): (r: OverlayState)
    ensures r.isOpen
    ensures r.(isOpen := s.isOpen) == s
  {
    s.(isOpen := true)
  }

  /** Two toggles bring the panel back to where it was, un-minimised. */
  lemma ToggleTwice(s: OverlayState)
    ensures Toggle(Toggle(s)) == s.(isMinimized := false)
  {
  }

  /** No panel event touches the messages or their count. */
  lemma EventsKeepCounts(s: OverlayState, user: string)
    requires CountsAgree(s, user)
    ensures CountsAgree(Toggle(s), user) && CountsAgree(MinimiseClicked(s), user)
    ensures CountsAgree(CloseClicked(s), user) && CountsAgree(LauncherClicked(s), user)
    ensures CountsAgree(FetchDone(s, Some(user), FetchFailed), user)
  {
  }

  /** What is on screen. */
  datatype Panel = Panel(minimized: bool, badge: Option<int>, inbox: Option<seq<Inbox.Conversation>>)
  datatype View = View(panel: Option<Panel>, launcher: bool, launcherBadge: Option<int>)

  /** The badge is shown only for a positive count. */
  function Badge(n: int): (r: Option<int>)
    ensures r.Some? <==> n > 0
    ensures r.Some? ==> r.value == n
  {
    if n > 0 then Some(n) else None
  }

  /** The rendered overlay: nothing without a user; otherwise the panel while
      open, holding the inbox of the fetched messages unless minimised, and
      the floating button while closed. */
  function Render(s: OverlayState, user: Option<string>): (r: Option<View>)
    ensures r.None? <==> user.None?
    ensures r.Some? ==> (r.value.panel.Some? <==> s.isOpen) && (r.value.launcher <==> !s.isOpen)
    ensures r.Some? && r.value.panel.Some? ==>
              (r.value.panel.value.inbox.Some? <==> !s.isMinimized)
    ensures r.Some? && r.value.panel.Some? && r.value.panel.value.inbox.Some? ==>
              r.value.panel.value.inbox.value == Inbox.Conversations(s.messages, user.value)
  {
    match user
    case None => None
    case Some(u) =>
      var inbox := if s.isMinimized then None else Some(Inbox.Conversations(s.messages, u));
      var panel := if s.isOpen then Some(Panel(s.isMinimized, Badge(s.unreadCount), inbox)) else None;
      Some(View(panel, !s.isOpen, if s.isOpen then None else Badge(s.unreadCount)))
  }

  /** Clicking the floating button swaps it for the panel. */
  lemma LauncherOpensPanel(s: OverlayState, user: string)
    requires Render(s, Some(user)).value.launcher
    ensures Render(LauncherClicked(s), Some(user)).value.panel.Some?
    ensures !Render(LauncherClicked(s), Some(user)).value.launcher
  {
  }

  /** The panel shows the inbox of the overlay's own messages: every
      conversation there holds exactly the fetched messages filed under it. */
  lemma PanelIsInbox(s: OverlayState, user: string)
    requires s.isOpen && !s.isMinimized
    ensures Render(s, Some(user)).value.panel.value.inbox == Some(Inbox.Conversations(s.messages, user))
    ensures Inbox.Aggregates(Inbox.Conversations(s.messages, user), s.messages, user)
  {
    Inbox.ConversationsAggregate(s.messages, user);
  }
}

=== FILE: property_details.dfy ===
/** The property page (`PropertyDetails`): the image gallery with its
    wrap-around arrows, the status badge, and the house rules card. */
module PropertyDetails {
  import opened Wrappers
  import opened Seqs
  import opened Text

  /** `property.property_images || property.images || []`. An array is
      never falsy, so a present but empty first list wins over the second. */
  function GalleryImages(propertyImages: Option<seq<string>>, images: Option<seq<string>>): (r: seq<string>)
    ensures propertyImages.Some? ==> r == propertyImages.value
    ensures propertyImages.None? ==> r == images.GetOr([])
  {
    match propertyImages
    case Some(xs) => xs
    case None => images.GetOr([])
  }

  /** The right arrow: one step forward, from the last image to the first. */
  function Next(i: int, n: int): (r: int)
    ensures 0 <= i < n ==> 0 <= r < n && r == (i + 1) % n
  {
    if i < n - 1 then i + 1 else 0
  }

  /** The left arrow: one step back, from the first image to the last. */
  function Prev(i: int, n: int): (r: int)
    ensures 0 <= i < n ==> 0 <= r < n && r == (i - 1) % n
  {
    if i > 0 then i - 1 else n - 1
  }

  /** The two arrows undo each other. */
  lemma ArrowsInverse(i: int, n: int)
    requires 0 <= i < n
    ensures Prev(Next(i, n), n) == i && Next(Prev(i, n), n) == i
  {
  }

  /** The image shown after `k` presses of the right arrow. */
  function NextTimes(i: int, n: int, k: nat): int {
    if k == 0 then i else Next(NextTimes(i, n, k - 1), n)
  }

  /** Before the last image, `k` presses of the right arrow move `k` places. */
  lemma {:induction false} NextTimesForward(i: int, n: int, k: nat)
    requires 0 <= i && i + k < n
    ensures NextTimes(i, n, k) == i + k
  {
    if k > 0 {
      NextTimesForward(i, n, k - 1);
    }
  }

  /** Pressing `a` times and then `b` times is pressing `a + b` times. */
  lemma {:induction false} NextTimesCompose(i: int, n: int, a: nat, b: nat)
    ensures NextTimes(i, n, a + b) == NextTimes(NextTimes(i, n, a), n, b)
  {
    if b > 0 {
      NextTimesCompose(i, n, a, b - 1);
    }
  }

  /** Pressing the right arrow once per image comes back to the start. */
  lemma {:induction false} FullCircle(i: int, n: int)
    requires 0 <= i < n
    ensures NextTimes(i, n, n) == i
  {
    NextTimesForward(i, n, n - 1 - i);
    assert NextTimes(i, n, n - i) == 0;
    NextTimesCompose(i, n, n - i, i);
    NextTimesForward(0, n, i);
  }

  /** `getStatusColor`: the badge classes of the three statuses, grey for
      anything else. */
  function StatusColor(status: string): (r: string)
    ensures r == "bg-gray-100 text-gray-800" <==> !KnownStatus(status)
  {
    match status
    case "available" => "bg-green-100 text-green-800"
    case "reserved" => "bg-orange-100 text-orange-800"
    case "taken" => "bg-red-100 text-red-800"
    case _ => "bg-gray-100 text-gray-800"
  }

  predicate KnownStatus(status: string) {
    status == "available" || status == "reserved" || status == "taken"
  }

  /** The badge is grey exactly for an unknown status, and the three known
      statuses have three different colours. */
  lemma StatusColorsDistinct(a: string, b: string)
    ensures StatusColor(a) == "bg-gray-100 text-gray-800" <==> !KnownStatus(a)
    ensures KnownStatus(a) && KnownStatus(b) ==> (StatusColor(a) == StatusColor(b) <==> a == b)
  {
  }

  /** The badge text: the status with its first letter capitalised. */
  function BadgeText(status: string): (r: string)
    ensures |r| == |status|
    ensures |status| > 0 ==> r[1..] == status[1..] && r[0] == UpperChar(status[0])
  {
    Capitalize(status)
  }

  /** The `rules` column: a list, or comma-separated text. */
  datatype Rules = RuleArray(items: seq<string>) | RuleText(text: string)

  /** `property.rules && …`: empty text is falsy, an empty list is not. */
  function RulesCardShown(rules: Option<Rules>): (b: bool)
    ensures b <==> rules.Some? && (rules.value.RuleText? ==> rules.value.text != "")
  {
    match rules
    case None => false
    case Some(RuleArray(_)) => true
    case Some(RuleText(t)) => t != ""
  }

  /** The bullet points of the card: a list loses its empty items; text is
      split on commas, trimmed, and loses its empty items. */
  function RuleItems(rules: Rules): (r: seq<string>)
    ensures forall i :: 0 <= i < |r| ==> r[i] != ""
    ensures rules.RuleText? ==> forall i :: 0 <= i < |r| ==> IsTrimmed(r[i]) && ',' !in r[i]
    ensures rules.RuleArray? ==> forall i :: 0 <= i < |r| ==> r[i] in rules.items
    ensures rules.RuleArray? ==> forall i :: 0 <= i < |rules.items| && rules.items[i] != "" ==> rules.items[i] in r
  {
    match rules
    case RuleArray(items) => Filter(items, NonEmpty)
    case RuleText(t) => CommaList(t)
  }

  /** Rules saved by the listing form, which stores the parsed list, show
      exactly the items that text would show if it had been stored as is. */
  lemma StoredRulesShowAsTyped(t: string)
    ensures RuleItems(RuleArray(CommaList(t))) == RuleItems(RuleText(t))
  {
    var xs := CommaList(t);
    assert forall i :: 0 <= i < |xs| ==> NonEmpty(xs[i]);
  }

  /** A list keeps its order: the items of two lists one after the other
      are the first list's items followed by the second's, and a single
      item shows exactly when it is not empty. */
  lemma RuleListKeepsOrder(a: seq<string>, b: seq<string>, x: string)
    ensures RuleItems(RuleArray(a + b)) == RuleItems(RuleArray(a)) + RuleItems(RuleArray(b))
    ensures RuleItems(RuleArray([x])) == if x == "" then [] else [x]
  {
    FilterConcat(a, b, NonEmpty);
    assert [x][1..] == [];
  }

  /** Text typed as clean items separated by commas shows exactly those
      items, in order. */
  lemma RuleTextShowsItems(xs: seq<string>)
    requires forall i :: 0 <= i < |xs| ==> xs[i] != "" && CleanItem(xs[i])
    ensures RuleItems(RuleText(Join(xs, ','))) == xs
  {
    CommaListOfClean(xs);
  }

  /** A card can be shown with no bullet points: an empty list is truthy. */
  lemma EmptyListShowsEmptyCard()
    ensures RulesCardShown(Some(RuleArray([]))) && RuleItems(RuleArray([])) == []
  {
  }
}

=== FILE: property_form.dfy ===
/** The new-listing form (`PropertyForm`): field edits, the bounded list of
    chosen images with their previews, and what the submit derives from the
    fields before it writes anything. */
module PropertyForm {
  import opened Wrappers
  import opened Seqs
  import opened Text

  /** A form field holds text, or a flag for the checkbox. */
  datatype FieldValue = TextValue(text: string) | Flag(checked: bool)

  type Form = map<string, FieldValue>

  /** The form as first rendered. */
  const InitialForm: Form := map[
    "title" := TextValue(""), "description" := TextValue(""), "price" := TextValue(""),
    "location" := TextValue(""), "latitude" := TextValue(""), "longitude" := TextValue(""),
    "bedrooms" := TextValue(""), "bathrooms" := TextValue(""), "furnished" := Flag(false),
    "room_type" := TextValue("single"), "amenities" := TextValue(""), "rules" := TextValue("")]

  /** A change event of an input: its name, value, whether it is a checkbox
      and, if so, whether it is ticked. */
  datatype ChangeEvent = ChangeEvent(name: string, value: string, isCheckbox: bool, checked: bool)

  /** `handleChange`: the named field takes the checkbox state or the text;
      every other field keeps its value. */
  function HandleChange(form: Form, e: ChangeEvent): (r: Form)
    ensures e.name in r && r[e.name] == (if e.isCheckbox then Flag(e.checked) else TextValue(e.value))
    ensures forall k :: k != e.name ==> (k in r <==> k in form)
    ensures forall k :: k != e.name && k in form ==> r[k] == form[k]
  {
    form[e.name := if e.isCheckbox then Flag(e.checked) else TextValue(e.value)]
  }

  /** A file chosen in the picker; only its name is looked at. */
  datatype File = File(name: string, size: nat)

  /** The images chosen so far and their preview URLs, position by position. */
  datatype ImageList = ImageList(selected: seq<File>, previews: seq<string>)

  const MaxImages: nat := 5

  /** `filesArray.map((file) => URL.createObjectURL(file))`, with the URL
      maker a parameter. */
  function Previews(files: seq<File>, urlOf: File -> string): (r: seq<string>)
    ensures |r| == |files|
    ensures forall i :: 0 <= i < |files| ==> r[i] == urlOf(files[i])
  {
    if |files| == 0 then [] else [urlOf(files[0])] + Previews(files[1..], urlOf)
  }

  /** The outcome of picking files: accepted, or refused with an alert. */
  datatype PickOutcome = Accepted(images: ImageList) | TooMany

  /** `handleImageChange`. A null file list changes nothing. More than five
      images in all are refused and nothing changes. Otherwise the files are
      appended and each gets a preview. */
  function HandleImageChange(s: ImageList, files: Option<seq<File>>, urlOf: File -> string): (r: PickOutcome)
    ensures files.None? ==> r == Accepted(s)
    ensures files.Some? ==> (r.TooMany? <==> |s.selected| + |files.value| > MaxImages)
    ensures files.Some? && r.Accepted? ==>
              r.images.selected == s.selected + files.value
              && r.images.previews == s.previews + Previews(files.value, urlOf)
  {
    match files
    case None => Accepted(s)
    case Some(fs) =>
      if |s.selected| + |fs| > MaxImages then TooMany
      else Accepted(ImageList(s.selected + fs, s.previews + Previews(fs, urlOf)))
  }

  /** Two lists of the same length, at most five long. */
  predicate WellFormed(s: ImageList) {
    |s.selected| == |s.previews| && |s.selected| <= MaxImages
  }

  /** Picking files keeps the list well formed, whatever the outcome. */
  lemma PickKeepsWellFormed(s: ImageList, files: Option<seq<File>>, urlOf: File -> string)
    requires WellFormed(s)
    ensures HandleImageChange(s, files, urlOf).Accepted? ==> WellFormed(HandleImageChange(s, files, urlOf).images)
  {
  }

  /** `xs.filter((_, i) => i !== index)`: drops position `index`, or
      nothing when it is out of range. */
  function RemoveAt<T>(xs: seq<T>, index: int): (r: seq<T>)
    ensures 0 <= index < |xs| ==> |r| == |xs| - 1
    ensures 0 <= index < |xs| ==> forall i :: 0 <= i < |r| ==> r[i] == if i < index then xs[i] else xs[i + 1]
    ensures !(0 <= index < |xs|) ==> r == xs
  {
    if 0 <= index < |xs| then xs[..index] + xs[index + 1..] else xs
  }

  /** `removeImage`: the same position leaves both lists. */
  function RemoveImage(s: ImageList, index: int): (r: ImageList)
    ensures r.selected == RemoveAt(s.selected, index) && r.previews == RemoveAt(s.previews, index)
  {
    ImageList(RemoveAt(s.selected, index), RemoveAt(s.previews, index))
  }

  /** Entry `i` of `r` is some entry of `s`, file and preview together. */
  ghost predicate PairedFrom(r: ImageList, s: ImageList, i: int) {
    && 0 <= i < |r.selected| && i < |r.previews|
    && exists j :: 0 <= j < |s.selected| && j < |s.previews| && r.selected[i] == s.selected[j] && r.previews[i] == s.previews[j]
  }

  /** Removing keeps the list well formed and keeps files and previews
      paired. */
  lemma RemoveKeepsWellFormed(s: ImageList, index: int)
    requires WellFormed(s)
    ensures WellFormed(RemoveImage(s, index))
    ensures forall i :: 0 <= i < |RemoveImage(s, index).selected| ==> PairedFrom(RemoveImage(s, index), s, i)
  {
    var r := RemoveImage(s, index);
    forall i | 0 <= i < |r.selected|
      ensures PairedFrom(r, s, i)
    {
      var j := if 0 <= index < |s.selected| && i >= index then i + 1 else i;
      assert r.selected[i] == s.selected[j] && r.previews[i] == s.previews[j];
    }
  }

  /** The storage path of an upload: the user's folder, a fresh id, a dot
      and the extension of the chosen file. The stored object keeps the
      file's extension, and sits in the user's folder. */
  function UploadPath(userId: string, uuid: string, fileName: string): (r: string)
    ensures After(r, '.') == After(fileName, '.')
    ensures '/' !in userId ==> Before(r, '/') == userId
    ensures |r| == |userId| + |uuid| + |After(fileName, '.')| + 2
    ensures r[|userId| + 1 .. |userId| + 1 + |uuid|] == uuid
  {
    var ext := After(fileName, '.');
    var r := userId + "/" + uuid + "." + ext;
    AfterUnique(r, userId + "/" + uuid, ext, '.');
    BeforeUnique(r, userId, uuid + "." + ext, '/');
    r
  }

  /** Two uploads share a path exactly when they come from the same user
      folder, carry the same fresh id and have the same extension: distinct
      ids never collide. */
  lemma UploadPathsCollide(u1: string, id1: string, f1: string, u2: string, id2: string, f2: string)
    requires '/' !in u1 && '/' !in u2
    ensures UploadPath(u1, id1, f1) == UploadPath(u2, id2, f2) <==>
              u1 == u2 && id1 == id2 && After(f1, '.') == After(f2, '.')
  {
    var r1, r2 := UploadPath(u1, id1, f1), UploadPath(u2, id2, f2);
    if r1 == r2 {
      assert u1 == u2 by {
        assert Before(r1, '/') == u1 && Before(r2, '/') == u2;
      }
      assert |id1| == |id2|;
      assert id1 == r1[|u1| + 1 .. |u1| + 1 + |id1|];
    }
  }

  /** The extension of an upload is the part of the name after the last
      dot: the name is the stem, a dot and the extension, or the extension
      alone when there is no dot. */
  lemma UploadExtension(fileName: string)
    ensures '.' !in After(fileName, '.')
    ensures '.' !in fileName ==> After(fileName, '.') == fileName
    ensures '.' in fileName ==>
              var stem := fileName[..|fileName| - |After(fileName, '.')| - 1];
              fileName == stem + "." + After(fileName, '.')
  {
    var ext := After(fileName, '.');
    if '.' in fileName {
      var stem := fileName[..|fileName| - |ext| - 1];
      assert fileName == stem + "." + ext;
    }
  }

  /** The text of a field, or empty for a flag or a missing field. */
  function TextOf(form: Form, name: string): string {
    if name in form && form[name].TextValue? then form[name].text else ""
  }

  /** The amenities or the rules the submit derives from the form: the
      named field's text read as a comma-separated list. */
  function ParsedList(form: Form, name: string): (r: seq<string>)
    ensures forall i :: 0 <= i < |r| ==> r[i] != "" && IsTrimmed(r[i]) && ',' !in r[i]
  {
    CommaList(TextOf(form, name))
  }

  /** Writing a parsed list back into its field and parsing again gives the
      same list. */
  lemma ReparseList(form: Form, name: string)
    ensures ParsedList(form[name := TextValue(Join(ParsedList(form, name), ','))], name) == ParsedList(form, name)
  {
    CommaListIdempotent(TextOf(form, name));
  }

  /** A field holding clean items separated by commas parses to exactly
      those items, in order. */
  lemma ParsedListOfTyped(form: Form, name: string, xs: seq<string>)
    requires name in form && form[name] == TextValue(Join(xs, ','))
    requires forall i :: 0 <= i < |xs| ==> xs[i] != "" && CleanItem(xs[i])
    ensures ParsedList(form, name) == xs
  {
    CommaListOfClean(xs);
  }

  /** Editing another field does not change what a list field parses to. */
  lemma OtherEditsKeepList(form: Form, e: ChangeEvent, name: string)
    requires e.name != name
    ensures ParsedList(HandleChange(form, e), name) == ParsedList(form, name)
  {
  }
}

=== FILE: property_listings.dfy ===
/** The sidebar of the map search (`PropertyListings`): one card per
    property, with its status badge, thumbnail, rating, and at most three
    amenity pills. */
module PropertyListings {
  import opened Wrappers
  import opened Text
  import PropertyDetails

  datatype Listing = Listing(
    id: string,
    title: string,
    status: string,
    propertyImages: Option<seq<string>>,
    images: Option<seq<string>>,
    amenities: Option<seq<string>>,
    averageRating: Option<real>)

  datatype StatusStyle = StatusStyle(caption: string, dot: string, pill: string)

  const AvailableStyle := StatusStyle("Available", "bg-emerald-500", "bg-emerald-50 text-emerald-700 dark:bg-emerald-950/40 dark:text-emerald-400")

  /** `STATUS[property.status] ?? STATUS.available`. */
  function StatusOf(status: string): (r: StatusStyle)
    ensures !PropertyDetails.KnownStatus(status) ==> r == AvailableStyle
    ensures r.caption in {"Available", "Reserved", "Taken"}
  {
    match status
    case "reserved" => StatusStyle("Reserved", "bg-amber-500", "bg-amber-50 text-amber-700 dark:bg-amber-950/40 dark:text-amber-400")
    case "taken" => StatusStyle("Taken", "bg-red-500", "bg-red-50 text-red-700 dark:bg-red-950/40 dark:text-red-400")
    case _ => AvailableStyle
  }

  /** The card's label of a known status is the property page's badge text. */
  lemma StatusLabelIsBadge(status: string)
    requires PropertyDetails.KnownStatus(status)
    ensures StatusOf(status).caption == PropertyDetails.BadgeText(status)
  {
    assert UpperChar('a') == 'A' && UpperChar('r') == 'R' && UpperChar('t') == 'T';
    if status == "available" {
      assert PropertyDetails.BadgeText(status) == ['A'] + "vailable";
    } else if status == "reserved" {
      assert PropertyDetails.BadgeText(status) == ['R'] + "eserved";
    } else {
      assert PropertyDetails.BadgeText(status) == ['T'] + "aken";
    }
  }

  /** `xs?.[0]`: undefined for a missing or empty array. */
  function FirstOf(xs: Option<seq<string>>): (r: Option<string>)
    ensures r.Some? <==> xs.Some? && |xs.value| > 0
    ensures r.Some? ==> r.value == xs.value[0]
  {
    if xs.Some? && |xs.value| > 0 then Some(xs.value[0]) else None
  }

  /** `property_images?.[0] ?? images?.[0]`. */
  function Thumbnail(p: Listing): (r: Option<string>)
    ensures r.Some? <==> FirstOf(p.propertyImages).Some? || FirstOf(p.images).Some?
    ensures FirstOf(p.propertyImages).Some? ==> r == FirstOf(p.propertyImages)
    ensures FirstOf(p.propertyImages).None? ==> r == FirstOf(p.images)
  {
    match FirstOf(p.propertyImages)
    case Some(url) => Some(url)
    case None => FirstOf(p.images)
  }

  /** The photo is drawn for a truthy URL; otherwise the "No photo" tile. */
  function Photo(p: Listing): (r: Option<string>)
    ensures r.Some? ==> r.value != ""
    ensures r.Some? ==> Thumbnail(p) == r
    ensures r.None? <==> Thumbnail(p).None? || Thumbnail(p).value == ""
  {
    match Thumbnail(p)
    case Some(url) => if url != "" then Some(url) else None
    case None => None
  }

  /** A present but empty `property_images` hides `images` on the property
      page, yet the card falls back to `images`: the two disagree. */
  lemma CardAndGalleryDisagree(p: Listing, url: string)
    requires p.propertyImages == Some([]) && p.images == Some([url]) && url != ""
    ensures Photo(p) == Some(url)
    ensures PropertyDetails.GalleryImages(p.propertyImages, p.images) == []
  {
  }

  datatype RatingLabel = New | Rated(value: real)

  /** `average_rating ? average_rating.toFixed(1) : 'New'`: zero is falsy. */
  function Rating(r: Option<real>): (l: RatingLabel)
    ensures l.New? <==> r.None? || r.value == 0.0
    ensures l.Rated? ==> l.value != 0.0 && r == Some(l.value)
  {
    match r
    case Some(v) => if v != 0.0 then Rated(v) else New
    case None => New
  }

  /** The keys of `AMENITY_ICONS`, in declaration order. */
  const IconKeys: seq<string> := ["wifi", "parking", "security", "electricity", "water", "aircon"]

  /** The position of the first key that `text` contains. */
  function FirstContained(text: string, keys: seq<string>): (r: Option<nat>)
    ensures r.Some? ==> r.value < |keys| && Contains(text, keys[r.value])
    ensures r.Some? ==> forall j :: 0 <= j < r.value ==> !Contains(text, keys[j])
    ensures r.None? <==> forall j :: 0 <= j < |keys| ==> !Contains(text, keys[j])
  {
    if |keys| == 0 then None
    else if Contains(text, keys[0]) then Some(0)
    else
      match FirstContained(text, keys[1..])
      case Some(k) => Some(k + 1)
      case None => None
  }

  /** `AmenityPill`'s icon: the first key the lower-cased label contains. */
  function AmenityIcon(text: string): (r: Option<string>)
    ensures r.Some? ==> r.value in IconKeys && Contains(Lower(text), r.value)
    ensures r.Some? ==> exists k :: 0 <= k < |IconKeys| && r.value == IconKeys[k]
                          && forall j :: 0 <= j < k ==> !Contains(Lower(text), IconKeys[j])
    ensures r.None? <==> forall j :: 0 <= j < |IconKeys| ==> !Contains(Lower(text), IconKeys[j])
  {
    match FirstContained(Lower(text), IconKeys)
    case Some(k) => Some(IconKeys[k])
    case None => None
  }

  /** A label naming wifi in any capitalisation gets the wifi icon, whatever
      else it mentions. */
  lemma WifiFirst(text: string, a: nat)
    requires a + 4 <= |text| && Lower(text[a..a + 4]) == "wifi"
    ensures AmenityIcon(text) == Some("wifi")
  {
    var low := Lower(text);
    assert low[a..a + 4] == Lower(text[a..a + 4]);
    assert OccursAt("wifi", low, a);
  }

  /** The pills: the first three amenities, and `+N more` for the rest. */
  datatype Pills = Pills(shown: seq<string>, more: Option<nat>)

  /** Drawn only when `amenities?.length > 0`. */
  function AmenityPills(amenities: Option<seq<string>>): (r: Option<Pills>)
    ensures r.Some? <==> amenities.Some? && |amenities.value| > 0
    ensures r.Some? ==> r.value.shown <= amenities.value && |r.value.shown| <= 3
    ensures r.Some? ==> (r.value.more.Some? <==> |amenities.value| > 3)
    ensures r.Some? ==> |r.value.shown| == if |amenities.value| > 3 then 3 else |amenities.value|
    ensures r.Some? && r.value.more.Some? ==> r.value.more.value == |amenities.value| - 3
  {
    match amenities
    case Some(xs) =>
      if |xs| > 0 then
        Some(Pills(if |xs| > 3 then xs[..3] else xs, if |xs| > 3 then Some(|xs| - 3) else None))
      else None
    case None => None
  }

  /** The pills and the `+N more` count account for every amenity once. */
  lemma PillsAccountForAll(amenities: seq<string>)
    requires |amenities| > 0
    ensures var p := AmenityPills(Some(amenities)).value;
            p.shown + amenities[|p.shown|..] == amenities && |p.shown| + p.more.GetOr(0) == |amenities|
  {
  }

  datatype Card = Card(
    id: string,
    status: StatusStyle,
    photo: Option<string>,
    selected: bool,
    rating: RatingLabel,
    pills: Option<Pills>,
    icons: seq<Option<string>>)

  function CardOf(p: Listing, selected: Option<Listing>): (c: Card)
    ensures c.id == p.id
    ensures c.selected <==> selected.Some? && selected.value.id == p.id
    ensures c.pills.Some? ==> |c.icons| == |c.pills.value.shown|
  {
    var pills := AmenityPills(p.amenities);
    var shown := if pills.Some? then pills.value.shown else [];
    Card(p.id, StatusOf(p.status), Photo(p), selected.Some? && selected.value.id == p.id,
      Rating(p.averageRating), pills,
      seq(|shown|, i requires 0 <= i < |shown| => AmenityIcon(shown[i])))
  }

  datatype ListView = EmptyState | Cards(cards: seq<Card>)

  /** The sidebar: the empty state for no properties, else one card each. */
  function Render(props: seq<Listing>, selected: Option<Listing>): (r: ListView)
    ensures r.EmptyState? <==> |props| == 0
    ensures r.Cards? ==> |r.cards| == |props|
    ensures r.Cards? ==> forall i :: 0 <= i < |props| ==> r.cards[i] == CardOf(props[i], selected)
  {
    if |props| == 0 then EmptyState
    else Cards(seq(|props|, i requires 0 <= i < |props| => CardOf(props[i], selected)))
  }

  /** With distinct ids, at most one card is highlighted, and the selected
      property's card is when it is in the list. */
  lemma OneCardSelected(props: seq<Listing>, selected: Option<Listing>)
    requires |props| > 0
    requires forall i, j :: 0 <= i < j < |props| ==> props[i].id != props[j].id
    ensures var cards := Render(props, selected).cards;
            forall i, j :: 0 <= i < |cards| && 0 <= j < |cards| && cards[i].selected && cards[j].selected ==> i == j
    ensures selected.Some? && selected.value in props ==>
              exists i :: 0 <= i < |props| && Render(props, selected).cards[i].selected
  {
    var cards := Render(props, selected).cards;
    forall i, j | 0 <= i < |cards| && 0 <= j < |cards| && cards[i].selected && cards[j].selected
      ensures i == j
    {
      assert props[i].id == props[j].id;
    }
    if selected.Some? && selected.value in props {
      var i :| 0 <= i < |props| && props[i] == selected.value;
      assert cards[i].selected;
    }
  }
}

=== FILE: property_messages.dfy ===
/** The landlord's inquiry list for one property (`PropertyMessagesView`):
    the first inquiry is selected, and a reply goes back to its sender. */
module PropertyMessages {
  import opened Wrappers
  import opened Text
  import opened Messages

  /** An inquiry row as this page reads it. */
  datatype Inquiry = Inquiry(
    id: string,
    senderId: string,
    receiverId: string,
    propertyId: string,
    content: string,
    phoneNumber: Option<string>,
    createdAt: int)

  datatype ReplyState = ReplyState(selected: Option<Inquiry>, replyText: string, isReplying: bool)

  /** `messages.length > 0 ? messages[0] : null`. */
  function InitialSelection(inquiries: seq<Inquiry>): (r: Option<Inquiry>)
    ensures r.None? <==> |inquiries| == 0
    ensures r.Some? ==> r.value in inquiries && r.value == inquiries[0]
  {
    if |inquiries| > 0 then Some(inquiries[0]) else None
  }

  function InitialState(inquiries: seq<Inquiry>): (s: ReplyState)
    ensures s.selected == InitialSelection(inquiries) && s.replyText == "" && !s.isReplying
    ensures |inquiries| > 0 ==> s.selected == Some(inquiries[0])
  {
    ReplyState(InitialSelection(inquiries), "", false)
  }

  /** Clicking an inquiry in the list. */
  function Select(s: ReplyState, q: Inquiry): (r: ReplyState)
    ensures r.selected == Some(q) && r.(selected := s.selected) == s
  {
    s.(selected := Some(q))
  }

  /** Pressing Send Reply. With nothing selected or a blank reply nothing
      happens; otherwise the reply, untrimmed and without a phone number,
      goes from the landlord to the sender of the selected inquiry about the
      page's property. */
  function BeginReply(s: ReplyState, user: string, property: string): (r: Started<ReplyState, MessageInsert>)
    ensures s.selected.None? || IsBlank(s.replyText) ==> r == Started(s, None)
    ensures s.selected.Some? && !IsBlank(s.replyText) ==> r.next == s.(isReplying := true) && r.request.Some?
    ensures r.request.Some? ==>
              r.request.value == MessageInsert(user, s.selected.value.senderId, Some(property), s.replyText, None)
  {
    match s.selected
    case None => Started(s, None)
    case Some(q) =>
      if IsBlank(s.replyText) then Started(s, None)
      else Started(s.(isReplying := true), Some(MessageInsert(user, q.senderId, Some(property), s.replyText, None)))
  }

  /** The insert has settled: success clears the reply, failure keeps it;
      the selection stays and the busy flag drops either way. */
  function FinishReply(s: ReplyState, ok: bool): (r: ReplyState)
    ensures !r.isReplying && r.selected == s.selected
    ensures ok ==> r.replyText == ""
    ensures !ok ==> r.replyText == s.replyText
  {
    s.(replyText := if ok then "" else s.replyText, isReplying := false)
  }

  /** `disabled={isReplying || !replyText.trim()}`, negated. */
  predicate ReplyEnabled(s: ReplyState) {
    !s.isReplying && !IsBlank(s.replyText)
  }

  /** With an inquiry selected, the button is enabled exactly when not busy
      and a click would send; a failed reply returns to the state before it. */
  lemma ReplyRoundTrip(s: ReplyState, user: string, property: string)
    requires s.selected.Some? && !s.isReplying
    ensures ReplyEnabled(s) <==> BeginReply(s, user, property).request.Some?
    ensures FinishReply(BeginReply(s, user, property).next, false) == s
  {
  }

  /** The reply answers the inquiry: its receiver is the inquiry's sender. A
      reply to a landlord's own inquiry would go back to the landlord. */
  lemma ReplyAnswersSender(s: ReplyState, user: string, property: string)
    requires BeginReply(s, user, property).request.Some?
    ensures BeginReply(s, user, property).request.value.receiverId == s.selected.value.senderId
    ensures s.selected.value.receiverId == user && s.selected.value.senderId != user ==>
              BeginReply(s, user, property).request.value.receiverId != BeginReply(s, user, property).request.value.senderId
  {
  }

  /** The list holds every message about the property, the landlord's own
      replies among them; selecting one of those addresses the reply to the
      landlord. */
  lemma OwnMessageRepliesToSelf(s: ReplyState, user: string, property: string)
    requires s.selected.Some? && s.selected.value.senderId == user && !IsBlank(s.replyText)
    ensures BeginReply(s, user, property).request.Some?
    ensures BeginReply(s, user, property).request.value.senderId == user
    ensures BeginReply(s, user, property).request.value.receiverId == user
  {
  }
}

=== FILE: property_reviews.dfy ===
/** The reviews card of a property page (`PropertyReviews`): the list with
    its stars, the average in the title, and the form a student uses to
    post one review. */
module PropertyReviews {
  import opened Wrappers
  import opened Seqs
  import opened Users

  /** A row of `reviews`; the table keeps `rating` between 1 and 5 and at
      most one review per user and property. */
  datatype Review = Review(id: string, rating: int, comment: Option<string>, createdAt: int, userId: string)

  /** The row `handleSubmit` inserts. */
  datatype ReviewInsert = ReviewInsert(propertyId: string, userId: string, rating: int, comment: Option<string>)

  datatype ReviewState = ReviewState(
    reviews: seq<Review>,
    loading: bool,
    rating: int,
    hover: int,
    comment: string,
    isSubmitting: bool)

  const Initial := ReviewState([], true, 0, 0, "", false)

  /** The constraint of the `reviews` table on `rating`. */
  predicate ValidRating(r: int) {
    1 <= r <= 5
  }

  predicate AllValid(reviews: seq<Review>) {
    forall i :: 0 <= i < |reviews| ==> ValidRating(reviews[i].rating)
  }

  /** `reviews.some((r) => r.user_id === user?.id)`: never true signed out. */
  function HasReviewed(reviews: seq<Review>, user: Option<User>): (b: bool)
    ensures b <==> user.Some? && exists i :: 0 <= i < |reviews| && reviews[i].userId == user.value.id
    ensures b ==> user.Some?
  {
    user.Some? && exists i :: 0 <= i < |reviews| && reviews[i].userId == user.value.id
  }

  /** The form is offered to a signed-in student who has not reviewed yet. */
  function FormVisible(s: ReviewState, user: Option<User>): (b: bool)
    ensures b ==> user.Some? && IsStudent(user)
    ensures b <==> IsStudent(user) && forall i :: 0 <= i < |s.reviews| ==> s.reviews[i].userId != user.value.id
  {
    IsStudent(user) && !HasReviewed(s.reviews, user)
  }

  /** `handleSubmit` up to the insert: nothing happens signed out or
      without a star (the alert is left out); otherwise the form is busy
      and the review goes out under the user's id. */
  function BeginSubmit(s: ReviewState, user: Option<User>, propertyId: string): (r: Started<ReviewState, ReviewInsert>)
    ensures r.request.None? <==> user.None? || s.rating == 0
    ensures r.request.None? ==> r.next == s
    ensures r.request.Some? ==> r.next == s.(isSubmitting := true)
    ensures r.request.Some? ==>
              r.request.value == ReviewInsert(propertyId, user.value.id, s.rating, NullIfEmpty(s.comment))
  {
    if user.None? then Started(s, None)
    else if s.rating == 0 then Started(s, None)
    else Started(s.(isSubmitting := true), Some(ReviewInsert(propertyId, user.value.id, s.rating, NullIfEmpty(s.comment))))
  }

  /** After the insert: a failure only ends the busy state; a success also
      clears the form and starts a new fetch of the property's reviews. */
  function FinishSubmit(s: ReviewState, ok: bool, propertyId: string): (r: Started<ReviewState, string>)
    ensures !r.next.isSubmitting
    ensures r.request.Some? <==> ok
    ensures r.request.Some? ==> r.request.value == propertyId
    ensures !ok ==> r.next == s.(isSubmitting := false)
    ensures ok ==> r.next.rating == 0 && r.next.comment == "" && r.next.loading && r.next.reviews == s.reviews
  {
    if ok then Started(s.(rating := 0, comment := "", isSubmitting := false, loading := true), Some(propertyId))
    else Started(s.(isSubmitting := false), None)
  }

  datatype FetchOutcome = Fetched(data: Option<seq<Review>>) | FetchFailed

  /** `fetchReviews` once the query answers: rows replace the list; an
      error or a missing result keeps the old list. */
  function FetchDone(s: ReviewState, outcome: FetchOutcome): (r: ReviewState)
    ensures !r.loading
    ensures outcome.Fetched? && outcome.data.Some? ==> r.reviews == outcome.data.value
    ensures !(outcome.Fetched? && outcome.data.Some?) ==> r.reviews == s.reviews
    ensures r.(loading := s.loading, reviews := s.reviews) == s
  {
    match outcome
    case Fetched(Some(rows)) => s.(reviews := rows, loading := false)
    case _ => s.(loading := false)
  }

  /** A failed post changes nothing but the busy flag it set. */
  lemma FailedPostRestores(s: ReviewState, user: Option<User>, propertyId: string)
    requires !s.isSubmitting
    ensures FinishSubmit(BeginSubmit(s, user, propertyId).next, false, propertyId).next == s
  {
  }

  /** Once a successful post is refetched with the user's review in it, the
      form is gone for good. */
  lemma PostedReviewHidesForm(s: ReviewState, user: Option<User>, propertyId: string, rows: seq<Review>, k: nat)
    requires BeginSubmit(s, user, propertyId).request.Some?
    requires k < |rows| && rows[k].userId == user.value.id
    ensures var posted := FinishSubmit(BeginSubmit(s, user, propertyId).next, true, propertyId).next;
            !FormVisible(FetchDone(posted, Fetched(Some(rows))), user)
  {
    var posted := FinishSubmit(BeginSubmit(s, user, propertyId).next, true, propertyId).next;
    assert FetchDone(posted, Fetched(Some(rows))).reviews[k].userId == user.value.id;
  }

  function SumRatings(reviews: seq<Review>): int {
    if |reviews| == 0 then 0 else reviews[0].rating + SumRatings(reviews[1..])
  }

  /** `avgRating` before rounding to one decimal: zero for no reviews. */
  function Average(reviews: seq<Review>): (a: real)
    ensures |reviews| == 0 ==> a == 0.0
    ensures |reviews| > 0 ==> a * |reviews| as real == SumRatings(reviews) as real
  {
    if |reviews| == 0 then 0.0 else SumRatings(reviews) as real / |reviews| as real
  }

  /** Valid ratings sum to between one and five per review. */
  lemma {:induction false} SumBounds(reviews: seq<Review>)
    requires AllValid(reviews)
    ensures |reviews| <= SumRatings(reviews) <= 5 * |reviews|
  {
    if |reviews| > 0 {
      SumBounds(reviews[1..]);
    }
  }

  /** The average of valid reviews is a rating itself, so the title shows
      "No reviews yet" exactly when there are none. */
  lemma AverageIsRating(reviews: seq<Review>)
    requires AllValid(reviews)
    ensures |reviews| > 0 ==> 1.0 <= Average(reviews) <= 5.0
    ensures Average(reviews) > 0.0 <==> |reviews| > 0
  {
    if |reviews| > 0 {
      SumBounds(reviews);
      var n := |reviews| as real;
      var total := SumRatings(reviews) as real;
      RatioBounds(total, n);
    }
  }

  lemma RatioBounds(total: real, n: real)
    requires n > 0.0 && n <= total <= 5.0 * n
    ensures 1.0 <= total / n <= 5.0
  {
    var a := total / n;
    assert (a - 1.0) * n == total - n;
    assert (5.0 - a) * n == 5.0 * n - total;
  }

  /** `s <= rating`: whether star `s` is drawn filled. */
  function Filled(rating: int): int -> bool {
    s => s <= rating
  }

  /** The stars `1, 2, …, n`. */
  function Stars(n: nat): (r: seq<int>)
    ensures |r| == n
    ensures forall i :: 0 <= i < n ==> r[i] == i + 1
  {
    if n == 0 then [] else Stars(n - 1) + [n]
  }

  /** Of the stars `1..n`, exactly `rating` are filled. */
  lemma {:induction false} FilledCount(n: nat, rating: int)
    requires 0 <= rating <= n
    ensures Count(Stars(n), Filled(rating)) == rating
  {
    if n > 0 {
      CountConcat(Stars(n - 1), [n], Filled(rating));
      if rating < n {
        FilledCount(n - 1, rating);
        assert !Filled(rating)(n);
      } else {
        assert forall i :: 0 <= i < n ==> Filled(rating)(Stars(n)[i]);
      }
    }
  }

  /** A valid review shows as many filled stars, out of five, as its rating. */
  lemma ReviewStars(review: Review)
    requires ValidRating(review.rating)
    ensures Count(Stars(5), Filled(review.rating)) == review.rating
  {
    FilledCount(5, review.rating);
  }

  /** `hoverRating || rating`: the star under the cursor wins. */
  function ShownRating(s: ReviewState): (r: int)
    ensures s.hover != 0 ==> r == s.hover
    ensures s.hover == 0 ==> r == s.rating
  {
    if s.hover != 0 then s.hover else s.rating
  }

  /** Moving over star `k`, leaving the stars, and clicking star `k`. */
  function Hover(s: ReviewState, k: int): (r: ReviewState)
    ensures r.hover == k && r.(hover := s.hover) == s
  {
    s.(hover := k)
  }

  function Leave(s: ReviewState): (r: ReviewState)
    ensures r.hover == 0 && r.(hover := s.hover) == s
  {
    s.(hover := 0)
  }

  function Pick(s: ReviewState, k: int): (r: ReviewState)
    ensures r.rating == k && r.(rating := s.rating) == s
  {
    s.(rating := k)
  }

  /** After clicking a star and moving the cursor away, the form shows
      the picked rating, and that many of its five stars are filled. */
  lemma PickedRatingShows(s: ReviewState, k: int)
    requires ValidRating(k)
    ensures ShownRating(Leave(Pick(s, k))) == k
    ensures Count(Stars(5), Filled(ShownRating(Leave(Pick(s, k))))) == k
    ensures BeginSubmit(Leave(Pick(s, k)), Some(User("u", None, None, None)), "p").request.Some?
  {
    FilledCount(5, k);
  }
}

=== FILE: seqs.dfy ===
/** `Array.prototype.filter` and the `.filter(...).length` counting idiom. */
module Seqs {

  /** The elements of `s` satisfying `p`, in their original order. */
  function Filter<T>(s: seq<T>, p: T -> bool): (r: seq<T>)
    ensures |r| <= |s|
    ensures forall i :: 0 <= i < |r| ==> r[i] in s && p(r[i])
    ensures forall i :: 0 <= i < |s| && p(s[i]) ==> s[i] in r
    ensures (forall i :: 0 <= i < |s| ==> p(s[i])) ==> r == s
  {
    if |s| == 0 then []
    else (if p(s[0]) then [s[0]] else []) + Filter(s[1..], p)
  }

  /** `Array.prototype.map`: `f` applied to every element, in order. */
  function Map<T, U>(s: seq<T>, f: T -> U): (r: seq<U>)
    ensures |r| == |s|
    ensures forall i :: 0 <= i < |s| ==> r[i] == f(s[i])
  {
    if |s| == 0 then [] else [f(s[0])] + Map(s[1..], f)
  }

  /** Cutting a suffix of `s` is cutting `s` itself further on. */
  lemma SuffixSlices<T>(s: seq<T>, a: nat, k: nat)
    requires a + k <= |s|
    ensures s[a..][..k] == s[a..a + k] && s[a..][k..] == s[a + k..]
  {
  }

  /** Mapping a concatenation maps each part. */
  lemma {:induction false} MapConcat<T, U>(a: seq<T>, b: seq<T>, f: T -> U)
    ensures Map(a + b, f) == Map(a, f) + Map(b, f)
    decreases |a|
  {
    if |a| == 0 {
      assert a + b == b;
    } else {
      assert (a + b)[0] == a[0];
      assert (a + b)[1..] == a[1..] + b;
      MapConcat(a[1..], b, f);
    }
  }

  /** Mapping by a function that fixes every element changes nothing. */
  lemma MapFixed<T>(s: seq<T>, f: T -> T)
    requires forall i :: 0 <= i < |s| ==> f(s[i]) == s[i]
    ensures Map(s, f) == s
  {
  }

  /** Filtering a concatenation filters each part. */
  lemma {:induction false} FilterConcat<T>(a: seq<T>, b: seq<T>, p: T -> bool)
    ensures Filter(a + b, p) == Filter(a, p) + Filter(b, p)
    decreases |a|
  {
    if |a| == 0 {
      assert a + b == b;
    } else {
      assert (a + b)[0] == a[0];
      assert (a + b)[1..] == a[1..] + b;
      FilterConcat(a[1..], b, p);
    }
  }

  /** Two predicates that agree on every element filter alike. */
  lemma {:induction false} FilterAgree<T>(s: seq<T>, p: T -> bool, q: T -> bool)
    requires forall i :: 0 <= i < |s| ==> p(s[i]) == q(s[i])
    ensures Filter(s, p) == Filter(s, q)
  {
    if |s| > 0 {
      FilterAgree(s[1..], p, q);
    }
  }

  /** Filtering by a predicate no element satisfies leaves nothing. */
  lemma {:induction false} FilterNone<T>(s: seq<T>, p: T -> bool)
    requires forall i :: 0 <= i < |s| ==> !p(s[i])
    ensures Filter(s, p) == []
  {
    if |s| > 0 {
      FilterNone(s[1..], p);
    }
  }

  /** Filtering preserves the multiplicity of every kept element. */
  lemma {:induction false} FilterMultiset<T>(s: seq<T>, p: T -> bool, x: T)
    ensures multiset(Filter(s, p))[x] == if p(x) then multiset(s)[x] else 0
  {
    if |s| > 0 {
      var tail := Filter(s[1..], p);
      FilterMultiset(s[1..], p, x);
      assert s == [s[0]] + s[1..];
      assert multiset(s)[x] == multiset{s[0]}[x] + multiset(s[1..])[x];
      if p(s[0]) {
        assert Filter(s, p) == [s[0]] + tail;
        assert multiset(Filter(s, p))[x] == multiset{s[0]}[x] + multiset(tail)[x];
      } else {
        assert Filter(s, p) == tail;
      }
    }
  }

  /** Whatever holds of every element holds of every element kept. */
  lemma {:induction false} FilterKeeps<T>(s: seq<T>, p: T -> bool, q: T -> bool)
    requires forall i :: 0 <= i < |s| ==> q(s[i])
    ensures forall i :: 0 <= i < |Filter(s, p)| ==> q(Filter(s, p)[i])
  {
    if |s| > 0 {
      FilterKeeps(s[1..], p, q);
      var tail := Filter(s[1..], p);
      var r := Filter(s, p);
      if p(s[0]) {
        assert r == [s[0]] + tail;
        forall i | 0 < i < |r|
          ensures q(r[i])
        {
          assert r[i] == tail[i - 1];
        }
      } else {
        assert r == tail;
      }
    }
  }

  /** Two permutations of each other filter to permutations of each other. */
  lemma FilterPermutation<T>(a: seq<T>, b: seq<T>, p: T -> bool)
    requires multiset(a) == multiset(b)
    ensures multiset(Filter(a, p)) == multiset(Filter(b, p))
  {
    forall x
      ensures multiset(Filter(a, p))[x] == multiset(Filter(b, p))[x]
    {
      FilterMultiset(a, p, x);
      FilterMultiset(b, p, x);
    }
  }

  /** The number of elements satisfying `p`. */
  function Count<T>(s: seq<T>, p: T -> bool): (n: nat)
    ensures n <= |s|
    ensures n == 0 <==> forall i :: 0 <= i < |s| ==> !p(s[i])
    ensures n == |s| <==> forall i :: 0 <= i < |s| ==> p(s[i])
  {
    if |s| == 0 then 0
    else (if p(s[0]) then 1 else 0) + Count(s[1..], p)
  }

  /** Every element either satisfies `p` or its negation. */
  lemma {:induction false} CountComplement<T>(s: seq<T>, p: T -> bool, q: T -> bool)
    requires forall x :: q(x) == !p(x)
    ensures Count(s, p) + Count(s, q) == |s|
  {
    if |s| > 0 {
      CountComplement(s[1..], p, q);
    }
  }

  /** Counting over a concatenation adds the counts of the parts. */
  lemma {:induction false} CountConcat<T>(a: seq<T>, b: seq<T>, p: T -> bool)
    ensures Count(a + b, p) == Count(a, p) + Count(b, p)
    decreases |a|
  {
    if |a| == 0 {
      assert a + b == b;
    } else {
      assert (a + b)[1..] == a[1..] + b;
      CountConcat(a[1..], b, p);
    }
  }
}

=== FILE: sorting.dfy ===
/** `Array.prototype.sort` with a numeric comparator, which ECMAScript (since
    the 2019 edition) requires to be stable. Sorting newest-first is sorting by
    a key in non-increasing order; oldest-first is the same with the key negated. */
module Sorting {
  import opened Seqs

  ghost predicate SortedDesc<T>(s: seq<T>, key: T -> int) {
    forall i, j :: 0 <= i < j < |s| ==> key(s[i]) >= key(s[j])
  }

  /** Every pair of positions, in either order, satisfies `rel`. */
  ghost predicate Pairwise<T>(s: seq<T>, rel: (T, T) -> bool) {
    forall i, j :: 0 <= i < |s| && 0 <= j < |s| && i != j ==> rel(s[i], s[j])
  }

  /** Puts `x` in front of the first element whose key is not larger than its
      own, so that it stays ahead of the equal keys that came after it. */
  function InsertDesc<T>(x: T, s: seq<T>, key: T -> int): (r: seq<T>)
    ensures |r| == |s| + 1
  {
    if |s| == 0 then [x]
    else if key(s[0]) <= key(x) then [x] + s
    else [s[0]] + InsertDesc(x, s[1..], key)
  }

  /** Inserting adds `x` and loses nothing. */
  lemma {:induction false} InsertMultiset<T>(x: T, s: seq<T>, key: T -> int)
    ensures multiset(InsertDesc(x, s, key)) == multiset(s) + multiset{x}
  {
    if |s| > 0 && key(s[0]) > key(x) {
      InsertMultiset(x, s[1..], key);
      assert s == [s[0]] + s[1..];
    }
  }

  /** Where `InsertDesc` puts `x`: before the first key not above its own. */
  function InsertPos<T>(x: T, s: seq<T>, key: T -> int): (p: nat)
    ensures p <= |s|
  {
    if |s| == 0 || key(s[0]) <= key(x) then 0 else 1 + InsertPos(x, s[1..], key)
  }

  /** Inserting puts `x` at its position and shifts the later elements of
      `s` up by one. */
  lemma {:induction false} InsertShape<T>(x: T, s: seq<T>, key: T -> int)
    ensures var r, p := InsertDesc(x, s, key), InsertPos(x, s, key);
            && r[p] == x
            && (forall i :: 0 <= i < p ==> r[i] == s[i])
            && (forall i :: p < i < |r| ==> r[i] == s[i - 1])
  {
    if |s| > 0 && key(s[0]) > key(x) {
      var t := s[1..];
      InsertShape(x, t, key);
      var rest := InsertDesc(x, t, key);
      var q := InsertPos(x, t, key);
      assert InsertPos(x, s, key) == q + 1;
      var r := [s[0]] + rest;
      assert InsertDesc(x, s, key) == r;
      forall i | 0 <= i < q + 1
        ensures r[i] == s[i]
      {
        if i > 0 {
          assert r[i] == rest[i - 1] == t[i - 1];
        }
      }
      forall i | q + 1 < i < |r|
        ensures r[i] == s[i - 1]
      {
        assert r[i] == rest[i - 1] == t[i - 2];
      }
      assert r[q + 1] == rest[q];
    }
  }

  /** Inserting into a sorted sequence keeps it sorted, and the new head is
      the larger of the old head and `x`. */
  lemma {:induction false} InsertSorted<T>(x: T, s: seq<T>, key: T -> int)
    requires SortedDesc(s, key)
    ensures SortedDesc(InsertDesc(x, s, key), key)
    ensures key(InsertDesc(x, s, key)[0])
            == if |s| > 0 && key(s[0]) > key(x) then key(s[0]) else key(x)
  {
    if |s| > 0 && key(s[0]) > key(x) {
      var t := s[1..];
      assert SortedDesc(t, key) by {
        forall i, j | 0 <= i < j < |t|
          ensures key(t[i]) >= key(t[j])
        {
          assert t[i] == s[i + 1] && t[j] == s[j + 1];
        }
      }
      InsertSorted(x, t, key);
      var rest := InsertDesc(x, t, key);
      var r := [s[0]] + rest;
      assert InsertDesc(x, s, key) == r;
      assert key(s[0]) >= key(rest[0]);
      forall i, j | 0 <= i < j < |r|
        ensures key(r[i]) >= key(r[j])
      {
        if i > 0 {
          assert r[i] == rest[i - 1] && r[j] == rest[j - 1];
        } else {
          assert r[j] == rest[j - 1];
          assert key(rest[0]) >= key(rest[j - 1]);
        }
      }
    } else if |s| > 0 {
      var r := [x] + s;
      assert InsertDesc(x, s, key) == r;
      forall i, j | 0 <= i < j < |r|
        ensures key(r[i]) >= key(r[j])
      {
        assert r[j] == s[j - 1];
        if i > 0 {
          assert r[i] == s[i - 1];
        } else {
          assert key(s[0]) >= key(s[j - 1]);
        }
      }
    }
  }

  /** Insertion sort into non-increasing key order; a permutation of the input. */
  function SortDesc<T>(s: seq<T>, key: T -> int): (r: seq<T>)
    ensures SortedDesc(r, key)
    ensures multiset(r) == multiset(s)
    ensures |r| == |s|
  {
    if |s| == 0 then []
    else
      assert s == [s[0]] + s[1..];
      var sorted := SortDesc(s[1..], key);
      InsertSorted(s[0], sorted, key);
      InsertMultiset(s[0], sorted, key);
      InsertDesc(s[0], sorted, key)
  }

  /** Whether an element's key is `k`. */
  function HasKey<T>(key: T -> int, k: int): T -> bool {
    x => key(x) == k
  }

  /** The elements of `s` whose key is `k`, in the order of `s`. */
  function Ties<T>(s: seq<T>, key: T -> int, k: int): seq<T> {
    Filter(s, HasKey(key, k))
  }

  /** Inserting `x` puts it ahead of every element with its own key, so
      among the elements of any one key it comes first. */
  lemma {:induction false} InsertStable<T>(x: T, s: seq<T>, key: T -> int, k: int)
    ensures Filter(InsertDesc(x, s, key), HasKey(key, k)) == Filter([x], HasKey(key, k)) + Filter(s, HasKey(key, k))
  {
    var p := HasKey(key, k);
    if |s| == 0 {
      assert [x] + s == [x];
    } else if key(s[0]) <= key(x) {
      FilterConcat([x], s, p);
    } else {
      var t := s[1..];
      InsertStable(x, t, key, k);
      assert s == [s[0]] + t;
      FilterConcat([s[0]], t, p);
      FilterConcat([s[0]], InsertDesc(x, t, key), p);
    }
  }

  /** The sort is stable: the elements of any one key come out in the order
      they went in. */
  lemma {:induction false} SortStable<T>(s: seq<T>, key: T -> int, k: int)
    ensures Ties(SortDesc(s, key), key, k) == Ties(s, key, k)
  {
    if |s| > 0 {
      var p := HasKey(key, k);
      SortStable(s[1..], key, k);
      InsertStable(s[0], SortDesc(s[1..], key), key, k);
      assert s == [s[0]] + s[1..];
      FilterConcat([s[0]], s[1..], p);
    }
  }

  /** Putting `y` in front keeps every pair related when `y` is related to
      every element. */
  lemma PairwiseCons<T>(y: T, t: seq<T>, rel: (T, T) -> bool)
    requires Pairwise(t, rel)
    requires forall k :: 0 <= k < |t| ==> rel(y, t[k]) && rel(t[k], y)
    ensures Pairwise([y] + t, rel)
  {
    var r := [y] + t;
    forall i, j | 0 <= i < |r| && 0 <= j < |r| && i != j
      ensures rel(r[i], r[j])
    {
      if i > 0 && j > 0 {
        assert r[i] == t[i - 1] && r[j] == t[j - 1];
      }
    }
  }

  /** Inserting keeps every pair related when `x` is related to all of `s`. */
  lemma InsertPairwise<T>(x: T, s: seq<T>, key: T -> int, rel: (T, T) -> bool)
    requires Pairwise(s, rel)
    requires forall k :: 0 <= k < |s| ==> rel(x, s[k]) && rel(s[k], x)
    ensures Pairwise(InsertDesc(x, s, key), rel)
  {
    InsertShape(x, s, key);
    var p := InsertPos(x, s, key);
    var r := InsertDesc(x, s, key);
    forall i, j | 0 <= i < |r| && 0 <= j < |r| && i != j
      ensures rel(r[i], r[j])
    {
      var si := if i < p then i else i - 1;
      var sj := if j < p then j else j - 1;
      if i != p && j != p {
        assert r[i] == s[si] && r[j] == s[sj] && si != sj;
      } else if i == p {
        assert r[j] == s[sj];
      } else {
        assert r[i] == s[si];
      }
    }
  }

  /** Sorting keeps every pair related: a relation that holds between any two
      distinct positions before sorting still does afterwards. */
  lemma {:induction false} SortPairwise<T>(s: seq<T>, key: T -> int, rel: (T, T) -> bool)
    requires Pairwise(s, rel)
    ensures Pairwise(SortDesc(s, key), rel)
  {
    if |s| > 0 {
      var tail := s[1..];
      assert Pairwise(tail, rel) by {
        forall i, j | 0 <= i < |tail| && 0 <= j < |tail| && i != j
          ensures rel(tail[i], tail[j])
        {
          assert tail[i] == s[i + 1] && tail[j] == s[j + 1];
        }
      }
      SortPairwise(tail, key, rel);
      var sorted := SortDesc(tail, key);
      forall k | 0 <= k < |sorted|
        ensures rel(s[0], sorted[k]) && rel(sorted[k], s[0])
      {
        assert sorted[k] in multiset(tail);
        var m :| 0 <= m < |tail| && tail[m] == sorted[k];
        assert s[m + 1] == sorted[k];
      }
      InsertPairwise(s[0], sorted, key, rel);
    }
  }
}

=== FILE: text.dfy ===
/** The JavaScript string operations the components rely on, over `seq<char>`:
    `trim`, `split` on one character, `join`, `includes`, `startsWith`,
    `replace(/c/g, d)`, ASCII case mapping, and the comma-separated lists
    the listing form and the property page parse. */
module Text {
  import opened Seqs

  /** A code point that `String.prototype.trim` strips: the WhiteSpace and
      LineTerminator productions of ECMA-262 (sections 12.2 and 12.3). */
  predicate IsWhitespace(c: char) {
    || c == '\t' || c == '\n' || c == '\U{000B}' || c == '\U{000C}' || c == '\r'
    || c == ' ' || c == '\U{00A0}' || c == '\U{1680}'
    || ('\U{2000}' <= c <= '\U{200A}')
    || c == '\U{2028}' || c == '\U{2029}' || c == '\U{202F}' || c == '\U{205F}'
    || c == '\U{3000}' || c == '\U{FEFF}'
  }

  predicate AllWhitespace(s: string) {
    forall i :: 0 <= i < |s| ==> IsWhitespace(s[i])
  }

  /** `r` is `s` with a run of whitespace cut off each end. */
  predicate StripsTo(s: string, r: string) {
    exists a, b :: 0 <= a <= b <= |s| && r == s[a..b] && AllWhitespace(s[..a]) && AllWhitespace(s[b..])
  }

  /** Neither end of `s` is whitespace. */
  predicate IsTrimmed(s: string) {
    |s| == 0 || (!IsWhitespace(s[0]) && !IsWhitespace(s[|s| - 1]))
  }

  /** `s` occurs in `t` starting at index `a`. */
  predicate OccursAt(s: string, t: string, a: nat) {
    a + |s| <= |t| && t[a..a + |s|] == s
  }

  /** `s.trimStart()`: `s` without its leading whitespace. */
  function TrimStart(s: string): (r: string)
    ensures |r| <= |s| && r == s[|s| - |r|..]
    ensures |r| > 0 ==> !IsWhitespace(r[0])
    decreases |s|
  {
    if |s| > 0 && IsWhitespace(s[0]) then TrimStart(s[1..]) else s
  }

  /** `s.trimEnd()`: `s` without its trailing whitespace. */
  function TrimEnd(s: string): (r: string)
    ensures |r| <= |s| && r == s[..|r|]
    ensures |r| > 0 ==> !IsWhitespace(r[|r| - 1])
    decreases |s|
  {
    if |s| > 0 && IsWhitespace(s[|s| - 1]) then TrimEnd(s[..|s| - 1]) else s
  }

  /** `s.trim()`: `s` with whitespace stripped from both ends. */
  function Trim(s: string): (r: string)
    ensures IsTrimmed(r)
    ensures r == "" <==> AllWhitespace(s)
    ensures StripsTo(s, r)
  {
    TrimEmptyIffWhitespace(s);
    TrimSlices(s);
    TrimEnd(TrimStart(s))
  }

  /** Trimming cuts a run of whitespace off each end and keeps the middle. */
  lemma TrimSlices(s: string)
    ensures StripsTo(s, TrimEnd(TrimStart(s)))
  {
    var t := TrimStart(s);
    TrimStartStrips(s);
    TrimEndStrips(t);
    MiddleSlice(s, t, TrimEnd(t));
  }

  /** Trimming is characterised by its contract: the only trimmed text that
      `s` strips to is `Trim(s)`. */
  lemma TrimIsUnique(s: string, r: string)
    requires IsTrimmed(r) && StripsTo(s, r)
    ensures r == Trim(s)
  {
    StripsToUnique(s, r, Trim(s));
  }

  /** Two trimmed texts that `s` strips to are the same text. */
  lemma StripsToUnique(s: string, r1: string, r2: string)
    requires IsTrimmed(r1) && StripsTo(s, r1)
    requires IsTrimmed(r2) && StripsTo(s, r2)
    ensures r1 == r2
  {
    var a1, b1 :| 0 <= a1 <= b1 <= |s| && r1 == s[a1..b1] && AllWhitespace(s[..a1]) && AllWhitespace(s[b1..]);
    var a2, b2 :| 0 <= a2 <= b2 <= |s| && r2 == s[a2..b2] && AllWhitespace(s[..a2]) && AllWhitespace(s[b2..]);
    if |r1| > 0 && |r2| > 0 {
      SameStart(s, a1, b1, a2, b2);
      SameStart(s, a2, b2, a1, b1);
      SameEnd(s, a1, b1, a2, b2);
      SameEnd(s, a2, b2, a1, b1);
    } else if |r1| > 0 {
      OutsideIsWhitespace(s, a2, b2, a1);
    } else if |r2| > 0 {
      OutsideIsWhitespace(s, a1, b1, a2);
    }
  }

  /** A slice that starts on a non-whitespace character cannot start
      later than another slice with only whitespace before it. */
  lemma SameStart(s: string, a1: int, b1: int, a2: int, b2: int)
    requires 0 <= a1 < b1 <= |s| && !IsWhitespace(s[a1])
    requires 0 <= a2 <= b2 <= |s| && AllWhitespace(s[..a2])
    ensures a2 <= a1
  {
  }

  /** The mirror image of `SameStart` at the other end. */
  lemma SameEnd(s: string, a1: int, b1: int, a2: int, b2: int)
    requires 0 <= a1 < b1 <= |s| && !IsWhitespace(s[b1 - 1])
    requires 0 <= a2 <= b2 <= |s| && AllWhitespace(s[b2..])
    ensures b1 <= b2
  {
  }

  /** When the kept slice is empty, every character is whitespace. */
  lemma OutsideIsWhitespace(s: string, a: int, b: int, i: int)
    requires 0 <= a == b <= |s| && AllWhitespace(s[..a]) && AllWhitespace(s[b..])
    requires 0 <= i < |s|
    ensures IsWhitespace(s[i])
  {
    if i < a {
      assert s[..a][i] == s[i];
    } else {
      assert s[b..][i - b] == s[i];
    }
  }

  /** A prefix `r` of a suffix `t` of `s`, with whitespace cut off both
      ends, is a slice of `s` between two whitespace runs. */
  lemma MiddleSlice(s: string, t: string, r: string)
    requires |t| <= |s| && t == s[|s| - |t|..] && AllWhitespace(s[..|s| - |t|])
    requires |r| <= |t| && r == t[..|r|] && AllWhitespace(t[|r|..])
    ensures StripsTo(s, r)
  {
    var a := |s| - |t|;
    SuffixSlices(s, a, |r|);
    assert r == s[a..a + |r|];
  }


  /** Trimming only removes characters. */
  lemma TrimKeepsChars(s: string, c: char)
    ensures c in Trim(s) ==> c in s
  {
    var t := TrimStart(s);
    var r := TrimEnd(t);
    assert r == t[..|r|];
    assert t == s[|s| - |t|..];
    if c in r {
      assert c in t;
    }
  }

  /** What `TrimStart` drops is all whitespace. */
  lemma {:induction false} TrimStartStrips(s: string)
    ensures AllWhitespace(s[..|s| - |TrimStart(s)|])
    decreases |s|
  {
    if |s| > 0 && IsWhitespace(s[0]) {
      TrimStartStrips(s[1..]);
      var k := |s| - |TrimStart(s)|;
      forall i | 0 <= i < k
        ensures IsWhitespace(s[..k][i])
      {
        if i > 0 {
          assert s[..k][i] == s[1..][..k - 1][i - 1];
        }
      }
    }
  }

  /** What `TrimEnd` drops is all whitespace. */
  lemma {:induction false} TrimEndStrips(s: string)
    ensures AllWhitespace(s[|TrimEnd(s)|..])
    decreases |s|
  {
    if |s| > 0 && IsWhitespace(s[|s| - 1]) {
      var u := s[..|s| - 1];
      TrimEndStrips(u);
      var k := |TrimEnd(s)|;
      forall i | 0 <= i < |s| - k
        ensures IsWhitespace(s[k..][i])
      {
        if i < |s| - 1 - k {
          assert s[k..][i] == u[k..][i];
        }
      }
    }
  }

  /** `TrimEnd` keeps a first character that is not whitespace. */
  lemma {:induction false} TrimEndKeepsHead(t: string)
    ensures |t| > 0 && !IsWhitespace(t[0]) ==> TrimEnd(t) != ""
    decreases |t|
  {
    if |t| > 1 && IsWhitespace(t[|t| - 1]) {
      var u := t[..|t| - 1];
      assert u[0] == t[0];
      TrimEndKeepsHead(u);
    }
  }

  lemma TrimEmptyIffWhitespace(s: string)
    ensures TrimEnd(TrimStart(s)) == "" <==> AllWhitespace(s)
  {
    var t := TrimStart(s);
    var k := |s| - |t|;
    TrimStartStrips(s);
    TrimEndKeepsHead(t);
    if |t| == 0 {
      assert TrimEnd(t) == "";
      assert s == s[..k];
    } else {
      assert TrimEnd(t) != "";
      assert t == s[k..] && s[k] == t[0];
      assert !IsWhitespace(s[k]);
    }
  }

  /** Trimming text that has no whitespace at either end changes nothing. */
  lemma TrimTrimmed(s: string)
    requires IsTrimmed(s)
    ensures Trim(s) == s
  {
  }

  /** `!s.trim()`: the text is empty or whitespace only. */
  predicate IsBlank(s: string) {
    Trim(s) == ""
  }

  /** `xs.join(sep)`. */
  function Join(xs: seq<string>, sep: char): string
  {
    if |xs| == 0 then ""
    else if |xs| == 1 then xs[0]
    else xs[0] + [sep] + Join(xs[1..], sep)
  }

  /** `s.split(sep)` for a one-character separator: the maximal runs of `s`
      between separators, in order, so always at least one piece. */
  function Split(s: string, sep: char): (r: seq<string>)
    ensures |r| >= 1
    decreases |s|
  {
    if |s| == 0 then [""]
    else if s[0] == sep then [""] + Split(s[1..], sep)
    else
      var t := Split(s[1..], sep);
      [[s[0]] + t[0]] + t[1..]
  }

  /** No piece holds the separator, joining the pieces again gives back `s`,
      and text without a separator is a single piece. */
  lemma {:induction false} SplitPieces(s: string, sep: char)
    ensures var r := Split(s, sep);
            && (forall i :: 0 <= i < |r| ==> sep !in r[i])
            && Join(r, sep) == s
            && (sep !in s ==> r == [s])
    decreases |s|
  {
    if |s| > 0 {
      SplitPieces(s[1..], sep);
      var t := Split(s[1..], sep);
      assert s == [s[0]] + s[1..];
      if s[0] == sep {
        var r := [""] + t;
        assert r[1..] == t;
      } else {
        var r := [[s[0]] + t[0]] + t[1..];
        assert r[1..] == t[1..];
      }
    }
  }

  /** A separator-free prefix glues onto the first piece of the rest. */
  lemma {:induction false} SplitPrefix(w: string, t: string, sep: char)
    requires sep !in w
    ensures Split(w + t, sep) == [w + Split(t, sep)[0]] + Split(t, sep)[1..]
    decreases |w|
  {
    var u := Split(t, sep);
    if |w| == 0 {
      assert w + t == t;
      assert w + u[0] == u[0];
      assert u == [u[0]] + u[1..];
    } else {
      var w' := w[1..];
      var v := Split(w' + t, sep);
      assert v[0] == w' + u[0] && v[1..] == u[1..] by {
        SplitPrefix(w', t, sep);
      }
      assert Split(w + t, sep) == [[w[0]] + v[0]] + v[1..] by {
        assert w + t == [w[0]] + (w' + t);
        SplitCons(w[0], w' + t, sep);
      }
      ConsGlue(w, u[0]);
    }
  }

  /** One unfolding of `Split` on a non-separator first character. */
  lemma SplitCons(c: char, x: string, sep: char)
    requires c != sep
    ensures Split([c] + x, sep) == [[c] + Split(x, sep)[0]] + Split(x, sep)[1..]
  {
    assert ([c] + x)[0] == c;
    assert ([c] + x)[1..] == x;
  }

  lemma ConsGlue(w: string, v: string)
    requires |w| > 0
    ensures [w[0]] + (w[1..] + v) == w + v
  {
    assert w == [w[0]] + w[1..];
  }

  /** Splitting a join of separator-free pieces gives the pieces back. */
  lemma {:induction false} SplitJoin(xs: seq<string>, sep: char)
    requires |xs| >= 1
    requires forall i :: 0 <= i < |xs| ==> sep !in xs[i]
    ensures Split(Join(xs, sep), sep) == xs
    decreases |xs|
  {
    if |xs| == 1 {
      SplitPrefix(xs[0], "", sep);
      assert xs[0] + "" == xs[0];
    } else {
      SplitJoin(xs[1..], sep);
      var rest := [sep] + Join(xs[1..], sep);
      assert Join(xs, sep) == xs[0] + rest;
      SplitPrefix(xs[0], rest, sep);
      assert rest[0] == sep && rest[1..] == Join(xs[1..], sep);
      assert xs[0] + "" == xs[0];
      assert xs == [xs[0]] + xs[1..];
    }
  }

  /** `s.includes(t)`. */
  predicate Contains(s: string, t: string) {
    exists a: nat :: a <= |s| && OccursAt(t, s, a)
  }

  /** `s.startsWith(p)`. */
  predicate StartsWith(s: string, p: string) {
    p <= s
  }

  /** `s.replace(/from/g, to)` for single characters. */
  function ReplaceAll(s: string, from: char, to: char): (r: string)
    ensures |r| == |s|
    ensures forall i :: 0 <= i < |s| ==> r[i] == (if s[i] == from then to else s[i])
  {
    if |s| == 0 then "" else [if s[0] == from then to else s[0]] + ReplaceAll(s[1..], from, to)
  }

  /** `c.toUpperCase()` on the ASCII letters. */
  function UpperChar(c: char): char {
    if 'a' <= c <= 'z' then (c as int - 32) as char else c
  }

  /** `c.toLowerCase()` on the ASCII letters. */
  function LowerChar(c: char): char {
    if 'A' <= c <= 'Z' then (c as int + 32) as char else c
  }

  /** `s.toLowerCase()` on the ASCII letters. */
  function Lower(s: string): (r: string)
    ensures |r| == |s|
    ensures forall i :: 0 <= i < |s| ==> r[i] == LowerChar(s[i])
  {
    if |s| == 0 then "" else [LowerChar(s[0])] + Lower(s[1..])
  }

  /** `s.charAt(0).toUpperCase() + s.slice(1)` on the ASCII letters. */
  function Capitalize(s: string): (r: string)
    ensures |r| == |s|
    ensures |s| > 0 ==> r[0] == UpperChar(s[0]) && r[1..] == s[1..]
  {
    if |s| == 0 then "" else [UpperChar(s[0])] + s[1..]
  }

  /** `s.split(sep)[0]`: the text before the first separator, all of it when
      there is none. */
  function Before(s: string, sep: char): (r: string)
    ensures r <= s && sep !in r
    ensures sep !in s ==> r == s
    ensures sep in s ==> |r| < |s| && s[|r|] == sep
  {
    var xs := Split(s, sep);
    SplitPieces(s, sep);
    if |xs| == 1 then xs[0]
    else
      assert s == xs[0] + ([sep] + Join(xs[1..], sep));
      xs[0]
  }

  /** A join ends with its last piece, after a separator when there are two
      or more. */
  lemma {:induction false} JoinLast(xs: seq<string>, sep: char)
    requires |xs| >= 2
    ensures Join(xs, sep) == Join(xs[..|xs| - 1], sep) + [sep] + xs[|xs| - 1]
    decreases |xs|
  {
    if |xs| > 2 {
      JoinLast(xs[1..], sep);
      assert xs[1..][..|xs[1..]| - 1] == xs[..|xs| - 1][1..];
    } else {
      assert xs[..|xs| - 1] == [xs[0]];
    }
  }

  /** `s.split(sep).pop()`: the text after the last separator, all of it
      when there is none. */
  function After(s: string, sep: char): (r: string)
    ensures |r| <= |s| && r == s[|s| - |r|..] && sep !in r
    ensures sep !in s ==> r == s
    ensures sep in s ==> |r| < |s| && s[|s| - |r| - 1] == sep
  {
    var xs := Split(s, sep);
    SplitPieces(s, sep);
    var r := xs[|xs| - 1];
    if |xs| == 1 then r
    else
      JoinLast(xs, sep);
      assert s == (Join(xs[..|xs| - 1], sep) + [sep]) + r;
      r
  }

  /** The text after the last separator of `x + [sep] + y` is `y` when `y`
      holds no separator. */
  lemma AfterUnique(s: string, x: string, y: string, sep: char)
    requires s == x + [sep] + y && sep !in y
    ensures After(s, sep) == y
  {
    var r := After(s, sep);
    assert s[|x|] == sep;
    assert forall k :: |x| < k < |s| ==> s[k] == y[k - |x| - 1];
    assert forall k :: |s| - |r| <= k < |s| ==> s[k] == r[k - (|s| - |r|)];
    assert |r| == |y|;
    assert y == s[|s| - |y|..];
  }

  /** The text before the first separator of `x + [sep] + y` is `x` when `x`
      holds no separator. */
  lemma BeforeUnique(s: string, x: string, y: string, sep: char)
    requires s == x + [sep] + y
    ensures sep !in x ==> Before(s, sep) == x
  {
    var r := Before(s, sep);
    if sep !in x {
      assert s[|x|] == sep;
      assert forall k :: 0 <= k < |x| ==> s[k] == x[k];
      assert forall k :: 0 <= k < |r| ==> s[k] == r[k];
      assert |r| == |x|;
      assert x == s[..|x|];
    }
  }

  /** `xs.map((x) => x.trim())`. */
  function TrimAll(xs: seq<string>): (r: seq<string>)
    ensures |r| == |xs|
    ensures forall i :: 0 <= i < |xs| ==> r[i] == Trim(xs[i])
  {
    Map(xs, Trim)
  }

  /** `Boolean` as a filter callback on strings: only `""` is falsy. */
  function NonEmpty(x: string): bool {
    x != ""
  }

  /** `s.split(',').map((x) => x.trim()).filter(Boolean)`: the non-blank
      comma-separated items of `s`, trimmed. */
  function CommaList(s: string): (r: seq<string>)
    ensures forall i :: 0 <= i < |r| ==> r[i] != "" && IsTrimmed(r[i]) && ',' !in r[i]
  {
    var r := Filter(TrimAll(Split(s, ',')), NonEmpty);
    CommaListItems(s, r);
    r
  }

  /** A trimmed piece of a comma-separated list: no whitespace at either
      end and no comma inside. */
  predicate CleanItem(x: string) {
    IsTrimmed(x) && ',' !in x
  }

  lemma CommaListItems(s: string, r: seq<string>)
    requires r == Filter(TrimAll(Split(s, ',')), NonEmpty)
    ensures forall i :: 0 <= i < |r| ==> r[i] != "" && IsTrimmed(r[i]) && ',' !in r[i]
  {
    var pieces := Split(s, ',');
    SplitPieces(s, ',');
    var trimmed := TrimAll(pieces);
    forall j | 0 <= j < |trimmed|
      ensures CleanItem(trimmed[j])
    {
      TrimKeepsChars(pieces[j], ',');
    }
    FilterKeeps(trimmed, NonEmpty, CleanItem);
    assert forall i :: 0 <= i < |r| ==> NonEmpty(r[i]) && CleanItem(r[i]);
  }

  /** Trimming pieces that are already trimmed changes none of them. */
  lemma TrimAllTrimmed(xs: seq<string>)
    requires forall i :: 0 <= i < |xs| ==> IsTrimmed(xs[i])
    ensures TrimAll(xs) == xs
  {
    forall i | 0 <= i < |xs|
      ensures Trim(xs[i]) == xs[i]
    {
      TrimTrimmed(xs[i]);
    }
    MapFixed(xs, Trim);
  }

  /** A list of non-empty clean items, joined with commas, parses back to
      exactly that list. */
  lemma CommaListOfClean(xs: seq<string>)
    requires forall i :: 0 <= i < |xs| ==> xs[i] != "" && CleanItem(xs[i])
    ensures CommaList(Join(xs, ',')) == xs
  {
    if |xs| == 0 {
      CommaListEmpty();
    } else {
      SplitJoinClean(xs);
      TrimAllClean(xs);
      CommaListFixed(Join(xs, ','), xs);
    }
  }

  /** Empty text has no items. */
  lemma CommaListEmpty()
    ensures CommaList("") == []
  {
    assert Split("", ',') == [""];
    assert Trim("") == "";
    assert TrimAll([""]) == [""];
  }

  /** Clean items joined with commas split back into themselves. */
  lemma SplitJoinClean(xs: seq<string>)
    requires |xs| >= 1
    requires forall i :: 0 <= i < |xs| ==> xs[i] != "" && CleanItem(xs[i])
    ensures Split(Join(xs, ','), ',') == xs
  {
    assert forall i :: 0 <= i < |xs| ==> ',' !in xs[i];
    SplitJoin(xs, ',');
  }

  /** Clean non-empty items survive trimming and the empty-item filter. */
  lemma TrimAllClean(xs: seq<string>)
    requires forall i :: 0 <= i < |xs| ==> xs[i] != "" && CleanItem(xs[i])
    ensures TrimAll(xs) == xs && Filter(xs, NonEmpty) == xs
  {
    assert TrimAll(xs) == xs by {
      assert forall i :: 0 <= i < |xs| ==> IsTrimmed(xs[i]);
      TrimAllTrimmed(xs);
    }
    assert Filter(xs, NonEmpty) == xs by {
      FilterNonEmpty(xs);
    }
  }

  /** Filtering out empty strings keeps a list that has none. */
  lemma FilterNonEmpty(xs: seq<string>)
    requires forall i :: 0 <= i < |xs| ==> xs[i] != ""
    ensures Filter(xs, NonEmpty) == xs
  {
    assert forall i :: 0 <= i < |xs| ==> NonEmpty(xs[i]);
  }

  /** Text whose pieces are already trimmed and non-empty parses to them. */
  lemma CommaListFixed(s: string, xs: seq<string>)
    requires Split(s, ',') == xs && TrimAll(xs) == xs && Filter(xs, NonEmpty) == xs
    ensures CommaList(s) == xs
  {
  }

  /** Joining a parsed list with commas and parsing it again gives the same
      list: parsing is idempotent. */
  lemma CommaListIdempotent(s: string)
    ensures CommaList(Join(CommaList(s), ',')) == CommaList(s)
  {
    CommaListOfClean(CommaList(s));
  }

  /** Every comma-separated piece that is not blank is kept, trimmed. */
  lemma CommaListKeepsPieces(s: string)
    ensures forall i :: 0 <= i < |Split(s, ',')| && Trim(Split(s, ',')[i]) != "" ==>
              Trim(Split(s, ',')[i]) in CommaList(s)
  {
    var pieces := Split(s, ',');
    var trimmed := TrimAll(pieces);
    forall i | 0 <= i < |pieces| && Trim(pieces[i]) != ""
      ensures Trim(pieces[i]) in CommaList(s)
    {
      assert trimmed[i] == Trim(pieces[i]) && NonEmpty(trimmed[i]);
    }
  }

  /** Joining two non-empty lists puts one separator between their joins. */
  lemma {:induction false} JoinConcat(xs: seq<string>, ys: seq<string>, sep: char)
    requires |xs| >= 1 && |ys| >= 1
    ensures Join(xs + ys, sep) == Join(xs, sep) + [sep] + Join(ys, sep)
    decreases |xs|
  {
    assert (xs + ys)[0] == xs[0];
    if |xs| == 1 {
      assert (xs + ys)[1..] == ys;
    } else {
      JoinConcat(xs[1..], ys, sep);
      assert (xs + ys)[1..] == xs[1..] + ys;
    }
  }

  /** Splitting at a separator splits each side on its own. */
  lemma SplitAtSeparator(a: string, b: string, sep: char)
    ensures Split(a + [sep] + b, sep) == Split(a, sep) + Split(b, sep)
  {
    var pa, pb := Split(a, sep), Split(b, sep);
    SplitPieces(a, sep);
    SplitPieces(b, sep);
    JoinConcat(pa, pb, sep);
    var ps := pa + pb;
    forall i | 0 <= i < |ps|
      ensures sep !in ps[i]
    {
      if i >= |pa| {
        assert ps[i] == pb[i - |pa|];
      }
    }
    SplitJoin(ps, sep);
  }

  /** Trimming a concatenation trims each part. */
  lemma TrimAllConcat(xs: seq<string>, ys: seq<string>)
    ensures TrimAll(xs + ys) == TrimAll(xs) + TrimAll(ys)
  {
    MapConcat(xs, ys, Trim);
  }

  /** The items of text are those before its first comma followed by those
      after it, in order. */
  lemma CommaListConcat(a: string, b: string)
    ensures CommaList(a + "," + b) == CommaList(a) + CommaList(b)
  {
    var pa, pb := Split(a, ','), Split(b, ',');
    assert Split(a + "," + b, ',') == pa + pb by {
      SplitAtSeparator(a, b, ',');
      assert a + "," + b == a + [','] + b;
    }
    assert TrimAll(pa + pb) == TrimAll(pa) + TrimAll(pb) by {
      TrimAllConcat(pa, pb);
    }
    FilterConcat(TrimAll(pa), TrimAll(pb), NonEmpty);
  }
}

=== FILE: users.dfy ===
/** The signed-in Supabase user as the components read it: the id, the
    e-mail, and the `user_type` and `full_name` entries of its metadata. */
module Users {
  import opened Wrappers
  import opened Text

  datatype User = User(id: string, email: Option<string>, userType: Option<string>, fullName: Option<string>)

  /** `user?.user_metadata?.user_type === 'student'`. */
  predicate IsStudent(user: Option<User>) {
    user.Some? && user.value.userType == Some("student")
  }

  /** `user?.user_metadata?.user_type === 'landlord'`. */
  predicate IsLandlord(user: Option<User>) {
    user.Some? && user.value.userType == Some("landlord")
  }

  /** No user is both a student and a landlord, and neither without a user. */
  lemma RolesExclusive(user: Option<User>)
    ensures !(IsStudent(user) && IsLandlord(user))
    ensures user.None? ==> !IsStudent(user) && !IsLandlord(user)
  {
  }

  /** `s || fallback`: the empty string is falsy. */
  function OrElse(s: Option<string>, fallback: string): (r: string)
    ensures r == fallback || (s.Some? && r == s.value && r != "")
    ensures s.Some? && s.value != "" ==> r == s.value
    ensures s.None? || s.value == "" ==> r == fallback
  {
    if s.Some? && s.value != "" then s.value else fallback
  }

  /** `full_name || email?.split('@')[0] || fallback`: the full name, else
      the part of the e-mail before its first `@`, else the fallback. */
  function DisplayName(user: User, fallback: string): (r: string)
    ensures fallback != "" ==> r != ""
    ensures user.fullName.Some? && user.fullName.value != "" ==> r == user.fullName.value
    ensures (user.fullName.None? || user.fullName.value == "") ==>
              r == fallback || (user.email.Some? && r <= user.email.value && '@' !in r)
  {
    var local := if user.email.Some? then Some(Before(user.email.value, '@')) else None;
    OrElse(user.fullName, OrElse(local, fallback))
  }

  /** Without a full name, an address `x@d` with no `@` in `x` shows as `x`. */
  lemma NameFromEmail(user: User, x: string, d: string, fallback: string)
    requires user.fullName.None? || user.fullName.value == ""
    requires user.email == Some(x + ['@'] + d) && '@' !in x && x != ""
    ensures DisplayName(user, fallback) == x
  {
    BeforeUnique(user.email.value, x, d, '@');
  }
}

=== FILE: wrappers.dfy ===
/** The nullable values of the TypeScript sources (`T | null`, optional
    properties, optional chaining results) become `Option<T>`; an event
    handler that writes to the database becomes a function to `Started`. */
module Wrappers {

  datatype Option<+T> = None | Some(value: T) {

    /** The wrapped value, or `default` when there is none (TypeScript `??`). */
    function GetOr(default: T): T {
      match this
      case Some(v) => v
      case None => default
    }
  }

  /** `s || null` for a text column: the empty text is stored as null. */
  function NullIfEmpty(s: string): (r: Option<string>)
    ensures r.None? <==> s == ""
    ensures r.Some? ==> r.value == s
  {
    if s == "" then None else Some(s)
  }

  /** The synchronous part of an async handler: the state once its guards
      have run, and the record it hands to the database if it got that far. */
  datatype Started<S, R> = Started(next: S, request: Option<R>)
}
